=== FILE: README.md ===
# sheer chat core, modelled in Dafny

A model of the core of **sheer**, a browser chat client that keeps everything
local. The user configures model providers (OpenAI, Anthropic, Ollama,
Gemini, Hugging Face), enables chat and embedding models, uploads documents
and URLs, and chats with a model. The model covers:

- the model catalog: base models, custom OpenAI and Hugging Face models from
  comma-separated strings, models from an Ollama tag listing, and their
  composition;
- the configuration store: initialize, get, update and reset;
- enabling and disabling models, including the JavaScript `Set` semantics;
- the model-list settings panel, in both of its variants;
- the document registry: MIME classification against the type table, file
  and URL upload, fetch, and loader selection;
- per-session chat memory: load on first use, append, clear;
- the chat turn: resolving model clients, routing attachments by type and by
  the model's modalities, provider-specific formatting, relaying the agent's
  event stream, and persisting tool calls;
- the chat pages' state machines: the original page, the rewritten page 2,
  and the two send helpers (`hooks.ts` and `use-chat.ts`);
- the reasoning-effort picker.

Every effect is a value. Clock readings (`now`), minted ids (`freshId`,
`ids`), the Ollama tag listings, the MIME lookup by file name (`mimeOf`), the
document parsers (`parse`) and base64 (`encode`) are parameters. The
IndexedDB tables are a `seq` of configurations, a `map` of sessions and a
`map` of documents. The browser file system is a `map` from path to bytes.

Modules, one per source file or component:

| module | file | models |
|---|---|---|
| `Wrappers` | wrappers.dfy | `Option`, `Result`, and JavaScript's `a \|\| b` on strings |
| `Strs` | strings.dfy | `trim`, `split` on one character, `.pop()` of a split, `includes` |
| `ConfigTypes` | config_types.dfy | src/lib/config/types.ts |
| `ConfigStore` | config_manager.dfy | src/lib/config/manager.ts |
| `EnabledModels` | enabled_models.dfy | src/hooks/use-config.ts |
| `ModelList` | model_list.dfy | src/pages/home/components/ModelList.tsx and src/pages/home/page.tsx |
| `DocumentTypes` | document_types.dfy | src/lib/document/types.ts |
| `Documents` | document_manager.dfy | src/lib/document/manager.ts |
| `Messages` | messages.dfy | the stored message shapes |
| `ChatMemory` | memory.dfy | src/lib/chat/memory.ts and src/lib/chat/types.ts |
| `ChatManager` | chat_manager.dfy | src/lib/chat/manager.ts |
| `ReasoningEffort` | reasoning.dfy | src/pages/chat/components/ReasoningEffortSelector.tsx |
| `ChatView` | chat_view.dfy | src/pages/chat/page.tsx, page2.tsx, hooks.ts, src/hooks/use-chat.ts |

### Where the code and its written description part ways

The model follows the code in each case:

- A chat turn builds the embedding client even though it never uses it. If
  that client cannot be built, the turn fails
  (`ChatManager.EmbeddingFailureAbortsTurn`).
- Every attachment is first fetched from the file system by its path. URL and
  YouTube attachments store no bytes, so attaching one aborts the turn
  (`Documents.UrlUploadUnfetchable`, `ChatManager.UnfetchableAttachmentAbortsTurn`).
- Images, audio and video that the model does not accept are dropped. They
  are not text-extracted (`ChatManager.UnsupportedImagesLeaveNoContent`).
- Saving an edit on the original page truncates the transcript before the
  edited message and drops that message. Page 2 keeps it with its new
  content (`ChatView.EditsDifferByEditedMessage`).
- `text/markdown` classifies as plain text. It maps to the extension
  "markdown", and no table entry claims that extension
  (`Documents.MarkdownIsText`).

## Model

| member | source | states |
|---|---|---|
| Strs.Trim | src/lib/config/types.ts:198 | the trimmed string is empty exactly when the input is all white space; otherwise it starts and ends with non-space and is the input minus its leading and trailing white space. White space is ECMAScript's: tab, vertical tab, form feed, byte-order mark, every Unicode space separator, and the four line terminators |
| Strs.TrimIdempotent | src/lib/config/types.ts:203 | trimming an already-trimmed id changes nothing |
| Strs.Split | src/lib/config/types.ts:203 | `split` yields at least one piece, and no piece contains the separator |
| Strs.JoinSplit | src/lib/config/types.ts:203 | joining the pieces of `split` with the separator gives back the original string |
| Strs.SplitJoin | src/lib/config/types.ts:203 | splitting separator-free pieces joined by the separator gives back those pieces, so `split` is the unique such decomposition |
| Strs.LastPiece | src/lib/config/types.ts:287 | the piece `.pop()` returns contains no separator |
| Strs.LastPieceIsSuffix | src/lib/config/types.ts:287 | that piece is the suffix after the last separator, or the whole string when there is none |
| Strs.IndexOf | src/lib/document/manager.ts:51 | the first occurrence of the character: it is there, and not before |
| Strs.IndexOfInit | src/hooks/use-config.ts:46 | the first position of an element already in the prefix does not move when the list grows at the end |
| Strs.ContainsAt | src/lib/document/manager.ts:121 | `includes` holds exactly when the substring occurs at some position |
| Strs.LeadingSpaces | src/lib/config/types.ts:198 | counts the maximal run of white space (as for `Trim`, every Unicode space separator included) at the start |
| Strs.TrailingSpaces | src/lib/config/types.ts:198 | counts the maximal run of white space (as for `Trim`, every Unicode space separator included) at the end |
| ConfigTypes.BaseCatalogsHaveNoOllama | src/lib/config/types.ts:79-194 | no base chat or embedding model is served by Ollama |
| ConfigTypes.CustomIds | src/lib/config/types.ts:203 | one trimmed id per comma-separated piece, in order |
| ConfigTypes.CustomOpenAIModels | src/lib/config/types.ts:197-213 | a blank list gives no models; otherwise one OpenAI model per piece, with the trimmed id, the name "Custom: id", image modality, not reasoning |
| ConfigTypes.HfShortName | src/lib/config/types.ts:287 | the last `/` piece of the id, or the whole id when that piece is empty |
| ConfigTypes.HfShortNameIsSuffix | src/lib/config/types.ts:287 | the short name is a suffix of the id, and slash-free unless the id ends in `/` |
| ConfigTypes.CustomHuggingFaceModels | src/lib/config/types.ts:278-294 | a blank list gives no models; otherwise one Hugging Face model per piece, named "HF Custom: " plus its short name |
| ConfigTypes.CustomIdsRoundTrip | src/lib/config/types.ts:203 | when every piece is already trimmed, joining the custom ids with commas gives back the setting |
| ConfigTypes.OllamaChatModels | src/lib/config/types.ts:216-245 | a blank URL or a failed probe gives no models; otherwise one Ollama chat model per tag, named by the tag, with no modalities |
| ConfigTypes.OllamaEmbeddingModels | src/lib/config/types.ts:248-275 | a blank URL or a failed probe gives no models; otherwise one Ollama embedding model per tag |
| ConfigTypes.LoadAllModels | src/lib/config/types.ts:300-348 | an unreadable configuration gives the base catalog; a readable one gives the base chat models, then the Ollama listing if the base URL (the override, else the stored one) is not blank, then the custom OpenAI and Hugging Face models; the embedding catalog likewise; Ollama counts as available exactly when some chat model is an Ollama model |
| ConfigTypes.OllamaAvailableIffListed | src/lib/config/types.ts:318-339 | Ollama is available exactly when the configuration was read, its base URL is not blank, and the tag listing answered with at least one chat model |
| ConfigTypes.LoadFacts | src/lib/config/types.ts:327-336 | the probe returned some Ollama model exactly when the composed chat catalog holds an Ollama model, since the base and custom models are never Ollama's |
| ConfigTypes.BlankOllamaUrlLoad | src/lib/config/types.ts:319-322 | with a blank Ollama URL nothing is probed: Ollama is unavailable and the catalogs are the base plus the custom models |
| ConfigTypes.FindChatModel | src/lib/chat/manager.ts:41 | `find`: none exactly when no model has the id; otherwise the first one that does |
| ConfigTypes.FindEmbeddingModel | src/lib/chat/manager.ts:78 | `find`: none exactly when no embedding model has the id; otherwise the first model in the list with that id |
| ConfigStore.MostRecent | src/lib/config/manager.ts:38 | the row the descending `updatedAt` sort puts first: maximal stamp, earliest among ties |
| ConfigStore.NewConfig | src/lib/config/manager.ts:28-33 | a fresh configuration holds the defaults, with equal creation and update stamps |
| ConfigStore.Initialize | src/lib/config/manager.ts:25-40 | an empty table gets one default record; otherwise the most recently updated record is picked; either way it is cached |
| ConfigStore.GetConfig | src/lib/config/manager.ts:43-48 | returns the cached record; with none cached, an empty table gets the default record and a non-empty one keeps its rows and yields the most recently updated; keeps the store valid |
| ConfigStore.GetConfigIdempotent | src/lib/config/manager.ts:43-48 | once cached, further reads return the same record and change nothing, whatever the clock |
| ConfigStore.Put | src/lib/config/manager.ts:58 | `put` replaces the row with the same id or adds one; ids stay unique and no other row is lost |
| ConfigStore.ApplyExtremes | src/lib/config/manager.ts:52-56 | the spread with an empty patch keeps every field; a patch naming every field replaces all of them |
| ConfigStore.UpdateConfig | src/lib/config/manager.ts:50-61 | the stored and cached record keeps its id and creation stamp, is restamped, and holds the merged settings; it is written with one put, so every other row survives |
| ConfigStore.ResetToDefaults | src/lib/config/manager.ts:63-75 | every setting returns to the default; the id and creation stamp are kept; the record is stored and cached with one put, so every other row survives |
| ConfigStore.ReadAfterUpdate | src/lib/config/manager.ts:43-61 | the read after an update returns exactly the updated record, whose stamp has advanced |
| ConfigStore.EmptyUpdateKeepsSettings | src/lib/config/manager.ts:50-61 | an update naming no field changes no setting |
| ConfigStore.ResetMatchesFreshInstall | src/lib/config/manager.ts:63-75 | a reset after any update gives the settings of a fresh install |
| EnabledModels.Dedup | src/hooks/use-config.ts:46 | `Array.from(new Set(xs))` is duplicate-free and holds exactly the ids of `xs` |
| EnabledModels.DedupOfNoDups | src/hooks/use-config.ts:46 | a duplicate-free list goes through the set unchanged |
| EnabledModels.DedupKeepsOrder | src/hooks/use-config.ts:46 | a set keeps insertion order: the ids come out in the order of their first occurrence in `xs` |
| EnabledModels.Remove | src/hooks/use-config.ts:51 | `delete`: exactly the other ids remain |
| EnabledModels.RemoveAbsent | src/hooks/use-config.ts:51 | deleting an absent id changes nothing |
| EnabledModels.RemoveKeepsOrder | src/hooks/use-config.ts:51 | `delete` keeps the remaining ids in their order in the list |
| EnabledModels.OrderAfterInit | src/hooks/use-config.ts:51 | ids kept in order from all but the last element stay in order when the last is kept after them |
| EnabledModels.Toggle | src/hooks/use-config.ts:46-52 | the result is duplicate-free, holds the other ids plus the id exactly when enabling, and a newly enabled id goes last |
| EnabledModels.ToggleKeepsOrder | src/hooks/use-config.ts:46-52 | every id of the input keeps its first-occurrence order after a toggle, and a newly enabled id comes after all of them |
| EnabledModels.EnabledOrder | src/hooks/use-config.ts:48-49 | enabling keeps the set order of the existing ids and puts a new id after them |
| EnabledModels.DisabledOrder | src/hooks/use-config.ts:50-51 | ids in set order that stay in set order after a delete are in first-occurrence order of the input |
| EnabledModels.ToggleIdle | src/hooks/use-config.ts:46-52 | enabling an enabled id or disabling an absent one changes nothing |
| EnabledModels.EnableAppends | src/hooks/use-config.ts:49 | enabling a new id appends it and keeps the order of the rest |
| EnabledModels.EnableThenDisable | src/hooks/use-config.ts:46-52 | disabling right after enabling a new id restores the list |
| EnabledModels.RemoveAppended | src/hooks/use-config.ts:51 | deleting the last-added id restores the list before it |
| EnabledModels.UpdateEnabledModels | src/hooks/use-config.ts:38-57 | only the chosen kind's list changes, and it changes by the toggle of the current list; the record keeps its id and creation stamp, is restamped, and is written with one put, so every other row survives; the store stays valid |
| ModelList.HuggingFaceNeedsBoth | src/lib/config/types.ts:55-61 | in both panels, Hugging Face is configured exactly when both the token and the custom models are non-blank |
| ModelList.HomePageStricter | src/pages/home/page.tsx:95-102 | whatever the home page calls configured the component does too; they agree on all providers but OpenAI; the home page also needs OpenAI's base URL and model |
| ModelList.VariantsDisagreeOnKeyOnly | src/pages/home/components/ModelList.tsx:33-46 | an OpenAI key alone configures OpenAI for the component but not for the home page |
| ModelList.OfferedInExtend | src/pages/home/components/ModelList.tsx:48-54 | a model offered by a prefix of the list is offered by the prefix one longer exactly when it was, or is the new entry and its provider is among the configured ones |
| ModelList.Configured | src/pages/home/components/ModelList.tsx:33-46 | the configured providers are exactly those `isProviderConfigured` accepts in that variant |
| ModelList.ListedExtend | src/pages/home/components/ModelList.tsx:56-64 | an id is listed in a prefix one longer exactly when it was, or is the new entry's id |
| ModelList.SelectAll | src/pages/home/components/ModelList.tsx:48-54 | after select-all the enabled ids are the old ones plus every model of a configured provider; old ids keep their place and nothing is duplicated |
| ModelList.UnselectAll | src/pages/home/components/ModelList.tsx:56-64 | after unselect-all exactly the enabled ids that are not listed remain |
| ModelList.UnselectAllSettings | src/pages/home/page.tsx:112-120 | unselect-all also clears the default model and touches no other setting |
| ModelList.ToggleModel | src/pages/home/components/ModelList.tsx:149-155 | a switch of an unconfigured provider is refused; otherwise the kind's list is toggled and the default is cleared exactly when the selected default is switched off |
| ModelList.DefaultChoices | src/pages/home/components/ModelList.tsx:99 | the default-model choices are exactly the listed models that are enabled |
| ModelList.DefaultChoicesAppend | src/pages/home/components/ModelList.tsx:99 | the choices of a list in two parts are the choices of each part, so list order is kept |
| DocumentTypes.Rank | src/lib/document/types.ts:1-36 | each document type sits at a position of the key order, and that position holds it |
| DocumentTypes.RankAt | src/lib/document/types.ts:1-36 | ranking the key at any position of the order returns that position, so no key repeats |
| DocumentTypes.TableKeysAreAllTypes | src/lib/document/types.ts:1-38 | every document type is a key of the table, exactly once |
| DocumentTypes.DocumentTypesPrecedeCode | src/lib/document/types.ts:22-36 | the table scans the nine document types first and the sixteen code languages after |
| Documents.FirstClaiming | src/lib/document/manager.ts:70-74 | none exactly when no type claims the extension; otherwise the first type in table order that does |
| Documents.GetDocumentType | src/lib/document/manager.ts:50-77 | image, video and audio classify by top-level type; anything else by the first table entry claiming its extension key, else text |
| Documents.TopLevelOf | src/lib/document/manager.ts:51 | `type/subtype` without further slashes splits into exactly those two parts |
| Documents.ClassifiedByKey | src/lib/document/manager.ts:58-76 | outside the media types, the type is the first claim on the key, or text |
| Documents.MswordKey | src/lib/document/manager.ts:61 | the legacy Word MIME type maps to the key "docx" |
| Documents.DocxClaim | src/lib/document/types.ts:24-25 | the docx entry is the first to claim "docx" |
| Documents.WordTop | src/lib/document/manager.ts:51-56 | `application/msword` has top-level type "application", which is not a media type |
| Documents.WordTypes | src/lib/document/manager.ts:58-76 | the legacy Word MIME type classifies as docx |
| Documents.MarkdownUnclaimed | src/lib/document/types.ts:14 | no type claims the extension "markdown" |
| Documents.MarkdownNotInTable | src/lib/document/manager.ts:70-74 | the table search for "markdown" finds nothing |
| Documents.MarkdownKey | src/lib/document/manager.ts:65 | the markdown MIME type maps to the key "markdown" |
| Documents.MarkdownTop | src/lib/document/manager.ts:51 | `text/markdown` has top-level type "text" |
| Documents.MarkdownIsText | src/lib/document/manager.ts:50-77 | `text/markdown` classifies as plain text, not markdown |
| Documents.TextTopLevel | src/lib/document/manager.ts:51-56 | any `text/...` MIME type has a top-level type that is not a media type |
| Documents.MediaByTopLevel | src/lib/document/manager.ts:51-56 | every image, video and audio MIME type classifies by its top-level type, whatever the subtype |
| Documents.MediaTop | src/lib/document/manager.ts:51-56 | a media top-level type, a slash and any slash-free subtype classify as that medium |
| Documents.UploadDocument | src/lib/document/manager.ts:79-115 | the bytes are written under `documents/<id>.<subtype>`; a new id is registered with the file's name, path and type; a taken id is an error after the bytes were written |
| Documents.UploadThenGet | src/lib/document/manager.ts:79-115 | fetching a freshly uploaded file gives back its name and bytes, with the MIME type guessed from the name or else the key of its classified type |
| Documents.UploadThenLoad | src/lib/document/manager.ts:79-206 | loading a freshly uploaded non-YouTube file runs its classified type's parser on those bytes and stamps the upload's record on the units |
| Documents.UploadUrl | src/lib/document/manager.ts:117-140 | no bytes are stored; a new id is registered under the URL as name and path, as YouTube exactly when the URL names youtube.com or youtu.be; a taken id is an error |
| Documents.GetDocument | src/lib/document/manager.ts:142-156 | an unknown id is "Document not found"; success exactly when the id is registered and its path holds bytes; the file carries the stored name and bytes |
| Documents.LoaderFor | src/lib/document/manager.ts:158-206 | pdf, YouTube, docx and doc get their own parsers; every other type goes to the text parser |
| Documents.Stamp | src/lib/document/manager.ts:194-204 | one unit per extracted page, with that page's text and the document's provenance |
| Documents.LoadDocument | src/lib/document/manager.ts:158-206 | an unknown id is "Document not found"; YouTube is parsed from its URL without a fetch; every other type fails when its bytes are missing, and otherwise is exactly the type's parser run on the fetched file, its error passed on or its units stamped with the record's provenance |
| Documents.UrlDocumentCannotLoad | src/lib/document/manager.ts:158-206 | a URL document whose path holds no bytes cannot be loaded |
| Documents.UrlUploadUnfetchable | src/lib/document/manager.ts:117-156 | a freshly uploaded URL cannot be fetched back unless bytes already live at that path |
| ChatMemory.NewHandle | src/lib/chat/memory.ts:41-48 | a new handle serves its session and is not yet loaded |
| ChatMemory.Initialize | src/lib/chat/memory.ts:50-79 | a loaded handle is left alone; a stored session is cached; a missing one is created with the configured models and stored; fails exactly when the default chat model is unknown |
| ChatMemory.InitializeCreates | src/lib/chat/memory.ts:56-76 | a created session is named "New Chat", carries the default models, and has no history and no tools |
| ChatMemory.InitializeIdempotent | src/lib/chat/memory.ts:50-51 | loading twice is loading once |
| ChatMemory.Append | src/lib/chat/memory.ts:81-98 | the message is appended to the cached history, the record is restamped, and the whole record is put back |
| ChatMemory.AddMessage | src/lib/chat/memory.ts:92-98 | succeeds exactly when the handle is loaded, the session is stored, or the default chat model is known; afterwards the session is stored and cached with its prior history (the cached one, else the stored one, else none) plus the message, and no other session changes |
| ChatMemory.AddMessageAppends | src/lib/chat/memory.ts:92-98 | on a loaded handle the stored history is the cached history plus the message |
| ChatMemory.GetMessages | src/lib/chat/memory.ts:87-90 | loads first, with the handle and table exactly as loading leaves them; a loaded handle returns its cached history unchanged; a stored session's history is returned as stored; a missing session is created exactly when the default chat model is known, and has no history |
| ChatMemory.AddThenGetMessages | src/lib/chat/memory.ts:87-98 | reading the history right after adding a message gives the prior history plus that message |
| ChatMemory.Clear | src/lib/chat/memory.ts:108-112 | the handle forgets its record and unloads; the session is deleted and every other session kept |
| ChatMemory.ClearThenAdd | src/lib/chat/memory.ts:92-112 | after clear, the next message starts a fresh session that holds only that message |
| ChatMemory.StaleHandleOverwrites | src/lib/chat/memory.ts:81-98 | two handles loaded on one session: the second write is based on the stale cache, so the first message is lost |
| ChatManager.GetChatModel | src/lib/chat/manager.ts:40-75 | an unknown model is "Chat model X not found"; success exactly for a known non-Hugging Face model; the client gets the provider's first connection setting |
| ChatManager.GetEmbeddingModel | src/lib/chat/manager.ts:77-106 | an unknown model is "Embedding model X not found"; success exactly for a known Ollama, OpenAI or Gemini model |
| ChatManager.SelectTools | src/lib/chat/manager.ts:118-121 | only the calculator is ever built, and only when it is enabled |
| ChatManager.Route | src/lib/chat/manager.ts:175-205 | fails exactly when the file cannot be fetched or a parsed attachment fails to parse; an image, audio or video file is appended to its bucket when the model accepts that modality and dropped otherwise; a PDF the model accepts is appended to the PDF bucket; anything else has its parsed units appended to the texts |
| ChatManager.Gather | src/lib/chat/manager.ts:175-205 | succeeds exactly when every attachment's file can be fetched and every attachment that goes through its parser parses; no more media than attachments, and no media of a kind the model does not support |
| ChatManager.GatherFailsOnMissingFile | src/lib/chat/manager.ts:176-178 | any unfetchable attachment fails the whole gathering, whatever its type or position |
| ChatManager.GatherBuckets | src/lib/chat/manager.ts:175-205 | each media bucket holds, in attachment order, the files of the attachments of its type when the model accepts that modality, and nothing otherwise; the texts are the parsed units of the other attachments, in order |
| ChatManager.RouteExtends | src/lib/chat/manager.ts:175-205 | routing the last attachment extends each bucket of the earlier ones by exactly that attachment's contribution |
| ChatManager.TextBlocks | src/lib/chat/manager.ts:224-229 | one text block per extracted unit, in order |
| ChatManager.ImageBlocks | src/lib/chat/manager.ts:213-221 | one data-URL image block per image, in order |
| ChatManager.PdfBlocks | src/lib/chat/manager.ts:249-258 | one base64 PDF document block per PDF, in order |
| ChatManager.MediaBlocks | src/lib/chat/manager.ts:283-290 | one inline media block per file, with its MIME type |
| ChatManager.Format | src/lib/chat/manager.ts:209-308 | Hugging Face is an error and only Hugging Face; otherwise the blocks are the provider's media followed by exactly the text blocks: OpenAI the images, Anthropic the images then the PDFs as documents, Ollama nothing, Gemini images, audio, video and PDFs as inline media |
| ChatManager.CreateMessageWithAttachments | src/lib/chat/manager.ts:143-325 | no attachments gives an empty human message; an unknown session model is an error; a routing error is passed on; otherwise the content is the provider's formatting of the routed buckets and the message carries one provenance per attachment |
| ChatManager.MessageBlocks | src/lib/chat/manager.ts:175-308 | the message ends with one text block per unit parsed from the attachments, in attachment order; for Anthropic it starts with the accepted images, in attachment order |
| ChatManager.UnsupportedImagesLeaveNoContent | src/lib/chat/manager.ts:178-183 | images for a model without the image modality leave the attachment message without content |
| ChatManager.ImagesOnlyGather | src/lib/chat/manager.ts:178-183 | routing only images the model cannot take leaves every bucket empty |
| ChatManager.EndsCarryMeaning | src/lib/chat/manager.ts:358-367 | the carry condition holds exactly when every end output at position i carries the starting response plus all text streamed before i |
| ChatManager.GlueCarry | src/lib/chat/manager.ts:358-367 | one event's outputs followed by outputs that carry on from them carry as a whole, and their streamed text concatenates |
| ChatManager.OutputOf | src/lib/chat/manager.ts:360-385 | each event yields at most one output: its chunk (every chunk, empty or not), the whole accumulated response at a model end, the tool's name and output at a tool end, nothing for other events |
| ChatManager.RelayOutputs | src/lib/chat/manager.ts:358-386 | the streamed text of the outputs is exactly the events' chunks in order, and each end carries everything streamed before it |
| ChatManager.Yielding | src/lib/chat/manager.ts:359-386 | the events the loop announces hold no ignored event |
| ChatManager.RelayByEvent | src/lib/chat/manager.ts:358-386 | one output per announced event, in order: the chunk, the tool start, the tool end, or at a model end the starting response plus the chunks before it |
| ChatManager.RelaySplit | src/lib/chat/manager.ts:358-386 | relaying two stretches of events is relaying the first, then the second from the response grown by the first's chunks |
| ChatManager.EndCarriesChunks | src/lib/chat/manager.ts:366-367 | the model end at event j yields the starting response plus every chunk before j, between the outputs before it and after it |
| ChatManager.StoreTools | src/lib/chat/manager.ts:370-384 | every finished tool call is appended in order and the session is stored; with no tool call nothing is written |
| ChatManager.Relay | src/lib/chat/manager.ts:358-386 | the streamed text is exactly the chunks in order; each end carries everything streamed before it; each finished tool call is appended and stored, and nothing is written without one |
| ChatManager.ShapeOfTurn | src/lib/chat/manager.ts:342-386 | prior history, at most one attachment message, then the tool records, is a turn's shape |
| ChatManager.FinishTurn | src/lib/chat/manager.ts:342-386 | the session becomes exactly its prior history, the attachment message if it has content, then the tool records; the outputs are the relay of the events; no other session changes |
| ChatManager.Prepare | src/lib/chat/manager.ts:331-340 | succeeds exactly when the session exists or the default chat model is known, and both the chat and the embedding client can be built from the session's models or the defaults; the handle is loaded with the prior history, and the clients and tools are the ones built from the session as it stood, or from the defaults |
| ChatManager.MessageByModelId | src/lib/chat/manager.ts:151-153 | the attachment message depends on the session only through the model id it resolves to |
| ChatManager.Chat | src/lib/chat/manager.ts:327-387 | a new session with an unknown default model fails; the turn completes exactly when the setup succeeds and the attachment message can be built for the session as it stood; a completed turn stores the session in that shape, changes no other session, and relays the stream as Relay does |
| ChatManager.ChatBuilds | src/lib/chat/manager.ts:334-340 | a completed turn's chat client, embedding client and tools are the ones built from the session as it stood before the turn, else from the defaults |
| ChatManager.ChatStores | src/lib/chat/manager.ts:342-386 | a completed turn stores the prior history, the attachment message built for the session if it has content, then the tool records, and yields the relay of the events |
| ChatManager.EmbeddingFailureAbortsTurn | src/lib/chat/manager.ts:337-338 | an embedding client that cannot be built fails the turn, although the turn never uses it |
| ChatManager.UnfetchableAttachmentAbortsTurn | src/lib/chat/manager.ts:175-178 | any unfetchable attachment fails the turn |
| ReasoningEffort.OptionsFor | src/pages/chat/components/ReasoningEffortSelector.tsx:23-35 | Anthropic gets its four options; every other provider gets OpenAI's three |
| ReasoningEffort.Values | src/pages/chat/components/ReasoningEffortSelector.tsx:23-35 | the values of the options, in order |
| ReasoningEffort.FindOption | src/pages/chat/components/ReasoningEffortSelector.tsx:46 | none exactly when nothing is stored or no option has the stored value |
| ReasoningEffort.ShowPicker | src/pages/chat/components/ReasoningEffortSelector.tsx:43-46 | nothing exactly for a non-reasoning model; otherwise the provider's options, with the stored value highlighted when offered and the first option otherwise |
| ReasoningEffort.CatalogEffortsMatchPicker | src/lib/config/types.ts:103 | every reasoning model of the base catalog lists exactly the efforts the picker offers for its provider |
| ChatView.LiveSession | src/pages/chat/hooks.ts:10-16 | a session exactly when the route id is present, not "new", and known |
| ChatView.Follow | src/pages/chat/hooks.ts:60-68 | following the stream touches neither the composer nor the edit state |
| ChatView.FollowAppend | src/pages/chat/hooks.ts:60-68 | following a stream in two parts is following it whole |
| ChatView.FollowWithoutEnd | src/pages/chat/hooks.ts:60-62 | until an end arrives, each chunk is appended in order and nothing else changes |
| ChatView.FollowEndingInEnd | src/pages/chat/hooks.ts:63-67 | a stream whose last output is an end leaves nothing generating and no chunks |
| ChatView.Start | src/pages/chat/hooks.ts:49-56 | a send marks generation, clears the composer, and shows the pending user message |
| ChatView.Finish | src/pages/chat/hooks.ts:69-73 | a thrown run stops generating; otherwise the stream is followed |
| ChatView.HookSend | src/pages/chat/hooks.ts:34-74 | nothing happens without a chat id, with blank input, or while generating; otherwise start and follow the run, without resetting the chunks |
| ChatView.UseChatSend | src/hooks/use-chat.ts:45-90 | nothing happens without a chat id or while generating, nor with neither input nor attachments; otherwise start with fresh chunks and follow |
| ChatView.AttachmentOnlySend | src/hooks/use-chat.ts:57-60 | attachments alone are sent by the shared hook but ignored by the page hook |
| ChatView.HookSendKeepsStaleChunks | src/pages/chat/hooks.ts:49-62 | the page hook appends new chunks to the previous ones; the shared hook starts afresh |
| ChatView.StreamWithoutEndStaysGenerating | src/pages/chat/hooks.ts:46-68 | a run that ends without an end output leaves the page hook generating, and every later send is ignored |
| ChatView.MintRoute | src/pages/chat/page.tsx:793-798 | a "new" route is replaced by a minted id; every other route is kept |
| ChatView.PageSend | src/pages/chat/page.tsx:792-827 | the original page mints the route before any guard, then sends through the page hook |
| ChatView.PageBlankSendStillMints | src/pages/chat/page.tsx:792-827 | a blank send from "new" still mints and navigates, sending nothing |
| ChatView.Page2Send | src/pages/chat/page2.tsx:770-793 | blank input or a running generation changes nothing; otherwise page 2 mints, starts, follows and settles |
| ChatView.Settle | src/pages/chat/page2.tsx:693-701 | after the mutation nothing is generating or streaming, and the composer is kept |
| ChatView.ThrowMidStream | src/pages/chat/page2.tsx:670-703 | after a throw mid-stream page 2 clears everything, while the page hook keeps the partial chunks |
| ChatView.WithContent | src/pages/chat/page.tsx:874-881 | the message gets the new content and keeps its kind and documents |
| ChatView.Rewrite | src/pages/chat/page.tsx:885-889 | `update` changes a present session's messages and stamp and ignores a missing key |
| ChatView.PageSaveEdit | src/pages/chat/page.tsx:869-911 | without a live session, an edit index, or while generating, nothing changes; otherwise the history is cut before the edited message and the edit is resubmitted; the view then follows the run's outputs, and a caught throw stops generating |
| ChatView.PageRegenerate | src/pages/chat/page.tsx:913-942 | an index past the history does nothing; otherwise the history is cut before the message and its content is resubmitted, and the view follows the run's outputs with no catch |
| ChatView.PageRegenerateThrowStaysGenerating | src/pages/chat/page.tsx:913-942 | a regenerate whose run throws before an end leaves the original page generating |
| ChatView.Page2Edit | src/pages/chat/page2.tsx:733-767 | page 2 keeps the history up to and including the edited message, with its new content, and resubmits it; no generation guard |
| ChatView.Page2Regenerate | src/pages/chat/page2.tsx:705-731 | page 2 regenerates like the original page, without the generation guard and always settling |
| ChatView.EditsDifferByEditedMessage | src/pages/chat/page.tsx:869-911 | the two pages' edited histories differ by exactly the edited message |
| ChatView.RemoveAttachment | src/pages/chat/page.tsx:861-863 | the attachments with the id are dropped and every other one is kept |
| ChatView.RemoveAttachmentAppend | src/pages/chat/page2.tsx:850-855 | removal distributes over concatenation, so the kept attachments keep their order |
| ChatView.UrlPieces | src/pages/chat/page.tsx:848 | one trimmed URL per comma-separated piece |
| ChatView.UploadAll | src/pages/chat/page.tsx:848-851 | no bytes are stored and no stored document is overwritten; succeeds exactly when no id is taken and no id repeats; on success one document per URL, registered under its id |
| ChatView.AttachUrls | src/pages/chat/page.tsx:844-859 | blank URL input does nothing; otherwise, when every piece uploads, the uploaded documents follow the attachments and the URL box is cleared and closed, and when one fails the view is unchanged; the store is the one the uploads leave |
| ChatView.AttachUrlsChangesIffUploaded | src/pages/chat/page.tsx:844-859 | non-blank input changes the view exactly when every piece uploads |
| ChatView.WholePatch | src/pages/chat/page.tsx:775-778 | spreading a whole configuration over any settings gives that configuration |
| ChatView.PageModelChange | src/pages/chat/page.tsx:771-790 | without a configuration nothing happens; on "new" the default chat model is updated; on a session its model is rewritten and the configuration is left alone |
| ChatView.Page2ModelChange | src/pages/chat/page2.tsx:795-810 | page 2 only changes an existing session's model |
| ChatView.SelectedModel | src/pages/chat/page.tsx:729-743 | a live session's model, else the default chat model; nothing without a configuration |
| ChatView.EmptySessionModelKept | src/pages/chat/page.tsx:729-743 | a session whose model is "" selects "", because `??` replaces only absence |
| ChatView.RowCount | src/pages/chat/page2.tsx:161 | the stored messages, plus two while a user message is pending |
| ChatView.RowAt | src/pages/chat/page2.tsx:187-193 | rows map to stored messages, then the pending user message, then nothing |
| ChatView.StreamingAnswerRowIsEmpty | src/pages/chat/page2.tsx:161-193 | the row counted for the streaming answer maps to nothing, so the answer never shows while it streams |

## Left out

- I/O is left out: IndexedDB (Dexie), the browser file system, `fetch` of the Ollama tag listing, and the model SDKs. Tables and the file system are values, the tag listing is an input, and a provider client is a record of what it was built from.
- Clocks and randomness (`Date.now`, `crypto.randomUUID`) are parameters.
- Concurrency and React scheduling are left out. Awaits run in order, and each state setter takes effect at once.
- The document parsers (PDF, DOCX, DOC, text, YouTube transcript) are one `parse` parameter, and base64 is the `encode` parameter.
- `mime.getType` of a file name is the `mimeOf` parameter.
- The LangChain agent and its message-history wrapper (which also persists the human input and the AI answer) are left out. The turn consumes the agent's event stream as an input. Only the attachment message and the tool records the relay stores are modelled.
- The Hugging Face chat client in src/lib/chat/chat-hf.ts is not part of this model. The chat manager refuses Hugging Face before reaching it.
- The singletons (`getInstance`), JSX rendering, toasts, console logging, copy/download handlers and file-input plumbing are left out.
- Dexie's guarantee that a session's key equals its `id` field is not assumed. The model stores under the key it is given.
- ConfigTypes.LoadAllModels: an exception from reading the configuration is the `None` input. The source's inner try/catch around `config.ollama_base_url` cannot throw and is not modelled.
- Documents.GetDocumentType: the concrete OOXML Word MIME type is not proved to classify as docx. The general statement covers it, but the literal is too long to evaluate in a proof.
- ConfigStore.Put: a new row is appended, while Dexie returns rows in primary-key order, which for random UUID keys is unrelated to insertion order. ConfigStore.MostRecent breaks a tie between equal `updatedAt` stamps by row position, so the row it picks among ties may differ from the source's.
- ChatView.UploadAll: uploads run in sequence, while the source starts them together. Ids come from an id source indexed by position.
- ChatView.PageModelChange: the configuration snapshot passed in is assumed to carry the id and creation stamp of the stored current record. Only its settings are spread into the update.
- ChatManager.Relay: a stream chunk is taken to be its text. The source appends the chunk object to the response with `+=`, which uses the object's string conversion; the model assumes that conversion is the chunk's text. Every chunk is yielded, because the object is never falsy.
- ChatManager.GetChatModel: the client is its provider, model id and the one setting the source passes: the Ollama base URL, or the provider's API key.

=== FILE: chat_manager.dfy ===
/**
 * One chat turn: resolve the chat and embedding models, route the attached
 * documents by type and model capability, format them per provider into
 * one user message, persist it when it has content, and relay the agent's
 * events while storing every finished tool call.
 */
module ChatManager {
  import opened Wrappers
  import opened ConfigTypes
  import DT = DocumentTypes
  import opened Documents
  import opened Messages
  import opened ChatMemory

  /** The provider's identifier as it appears in error messages. */
  function ProviderName(p: Provider): string {
    match p
    case OpenAI => "openai"
    case Anthropic => "anthropic"
    case Ollama => "ollama"
    case Gemini => "gemini"
    case HuggingFace => "huggingface"
  }

  /** A constructed model client: provider, model id, and the base URL (Ollama) or API key it was given. */
  datatype Client = Client(provider: Provider, model: string, credential: string)

  /** The setting a client is built from: the Ollama base URL, or the provider's API key. */
  function Credential(s: Settings, p: Provider): string {
    match p
    case Ollama => s.ollamaBaseUrl
    case OpenAI => s.openaiApiKey
    case Anthropic => s.anthropicApiKey
    case Gemini => s.geminiApiKey
    case HuggingFace => s.hfToken
  }

  /**
   * `getChatModel`: look the id up in the catalog; Ollama, OpenAI,
   * Anthropic and Gemini models get a client, any other provider fails.
   */
  function GetChatModel(models: seq<ChatModel>, s: Settings, name: string): (r: Result<Client>)
    ensures FindChatModel(models, name).None? ==> r == Err("Chat model " + name + " not found")
    ensures r.Ok? <==> FindChatModel(models, name).Some? && FindChatModel(models, name).value.provider != HuggingFace
    ensures r.Ok? ==> (r.value.model == name && r.value.provider == FindChatModel(models, name).value.provider
      && r.value.credential == FieldValue(s, ConnArgs(r.value.provider)[0]))
  {
    match FindChatModel(models, name)
    case None => Err("Chat model " + name + " not found")
    case Some(m) =>
      if m.provider == HuggingFace then Err("Provider " + ProviderName(m.provider) + " not implemented yet for chat models")
      else Ok(Client(m.provider, m.model, Credential(s, m.provider)))
  }

  /** `getEmbeddingModel`: only Ollama, OpenAI and Gemini embedding models get a client. */
  function GetEmbeddingModel(models: seq<EmbeddingModel>, s: Settings, name: string): (r: Result<Client>)
    ensures FindEmbeddingModel(models, name).None? ==> r == Err("Embedding model " + name + " not found")
    ensures r.Ok? <==> (FindEmbeddingModel(models, name).Some?
      && FindEmbeddingModel(models, name).value.provider in {Ollama, OpenAI, Gemini})
    ensures r.Ok? ==> r.value.model == name && r.value.credential == FieldValue(s, ConnArgs(r.value.provider)[0])
  {
    match FindEmbeddingModel(models, name)
    case None => Err("Embedding model " + name + " not found")
    case Some(m) =>
      if m.provider in {Ollama, OpenAI, Gemini} then Ok(Client(m.provider, m.model, Credential(s, m.provider)))
      else Err("Provider " + ProviderName(m.provider) + " not implemented yet for embedding models")
  }

  /** The tools the agent is built with. */
  datatype Tool = Calculator

  /** Only the calculator is ever instantiated; every other enabled tool name is ignored. */
  function SelectTools(enabled: seq<string>): (r: seq<Tool>)
    ensures "calculator" in enabled ==> r == [Calculator]
    ensures "calculator" !in enabled ==> r == []
  {
    if "calculator" in enabled then [Calculator] else []
  }

  /** Attachments routed by type: extracted text units, and files kept whole per media kind. */
  datatype Buckets = Buckets(texts: seq<Unit>, images: seq<File>, audios: seq<File>, videos: seq<File>, pdfs: seq<File>)

  const NoBuckets := Buckets([], [], [], [], [])

  /** The media files kept whole. */
  function MediaCount(b: Buckets): nat {
    |b.images| + |b.audios| + |b.videos| + |b.pdfs|
  }

  /** Whether an attachment of type `t` goes through its parser: every non-media type, and a PDF the model does not accept. */
  predicate ParsedToText(t: DT.DocumentType, modalities: seq<Modality>) {
    t !in {DT.Image, DT.Audio, DT.Video} && !(t == DT.Pdf && Pdf in modalities)
  }

  /**
   * One attachment. Its file is fetched first whatever its type; then an
   * image, audio or video is kept only if the model accepts that modality
   * (and dropped otherwise), a PDF is kept whole if accepted and parsed to
   * text otherwise, and every other type is parsed to text.
   */
  function Route(b: Buckets, st: DocStore, doc: DT.Document, modalities: seq<Modality>,
                 mimeOf: string -> Option<string>, parse: (Loader, Source) -> Result<seq<string>>): (r: Result<Buckets>)
    ensures GetDocument(st, doc.id, mimeOf).Err? ==> r.Err?
    ensures r.Ok? ==> MediaCount(b) <= MediaCount(r.value) <= MediaCount(b) + 1
    ensures r.Ok? ==> ((r.value.images != b.images ==> doc.docType == DT.Image && Image in modalities)
      && (r.value.audios != b.audios ==> doc.docType == DT.Audio && Audio in modalities)
      && (r.value.videos != b.videos ==> doc.docType == DT.Video && Video in modalities)
      && (r.value.pdfs != b.pdfs ==> doc.docType == DT.Pdf && Pdf in modalities))
    ensures r.Err? <==> (GetDocument(st, doc.id, mimeOf).Err?
      || (ParsedToText(doc.docType, modalities) && LoadDocument(st, doc.id, mimeOf, parse).Err?))
    ensures r.Ok? && ParsedToText(doc.docType, modalities) ==>
      r.value == b.(texts := b.texts + LoadDocument(st, doc.id, mimeOf, parse).value)
    ensures r.Ok? && !ParsedToText(doc.docType, modalities) ==>
      var file := GetDocument(st, doc.id, mimeOf).value;
      && (doc.docType == DT.Image ==> r.value == if Image in modalities then b.(images := b.images + [file]) else b)
      && (doc.docType == DT.Audio ==> r.value == if Audio in modalities then b.(audios := b.audios + [file]) else b)
      && (doc.docType == DT.Video ==> r.value == if Video in modalities then b.(videos := b.videos + [file]) else b)
      && (doc.docType == DT.Pdf ==> r.value == b.(pdfs := b.pdfs + [file]))
  {
    var file :- GetDocument(st, doc.id, mimeOf);
    match doc.docType
    case Image => Ok(if Image in modalities then b.(images := b.images + [file]) else b)
    case Audio => Ok(if Audio in modalities then b.(audios := b.audios + [file]) else b)
    case Video => Ok(if Video in modalities then b.(videos := b.videos + [file]) else b)
    case Pdf =>
      if Pdf in modalities then Ok(b.(pdfs := b.pdfs + [file]))
      else
        var units :- LoadDocument(st, doc.id, mimeOf, parse);
        Ok(b.(texts := b.texts + units))
    case _ =>
      var units :- LoadDocument(st, doc.id, mimeOf, parse);
      Ok(b.(texts := b.texts + units))
  }

  /** An attachment that routes: its file can be fetched, and when it goes through its parser, the parse succeeds. */
  predicate Routable(st: DocStore, doc: DT.Document, modalities: seq<Modality>,
                     mimeOf: string -> Option<string>, parse: (Loader, Source) -> Result<seq<string>>) {
    && GetDocument(st, doc.id, mimeOf).Ok?
    && (ParsedToText(doc.docType, modalities) ==> LoadDocument(st, doc.id, mimeOf, parse).Ok?)
  }

  /** Every attachment routes. */
  predicate AllRoutable(st: DocStore, docs: seq<DT.Document>, modalities: seq<Modality>,
                        mimeOf: string -> Option<string>, parse: (Loader, Source) -> Result<seq<string>>) {
    forall k :: 0 <= k < |docs| ==> Routable(st, docs[k], modalities, mimeOf, parse)
  }

  /** All of them route exactly when all but the last do and the last does. */
  lemma AllRoutableStep(st: DocStore, docs: seq<DT.Document>, modalities: seq<Modality>,
                        mimeOf: string -> Option<string>, parse: (Loader, Source) -> Result<seq<string>>)
    requires |docs| > 0
    ensures AllRoutable(st, docs, modalities, mimeOf, parse)
        <==> (AllRoutable(st, docs[..|docs| - 1], modalities, mimeOf, parse)
              && Routable(st, docs[|docs| - 1], modalities, mimeOf, parse))
  {
    assert forall k :: 0 <= k < |docs| - 1 ==> docs[..|docs| - 1][k] == docs[k];
  }

  /** All attachments in order; the first failure aborts, so gathering succeeds exactly when every attachment routes. */
  function Gather(st: DocStore, docs: seq<DT.Document>, modalities: seq<Modality>,
                  mimeOf: string -> Option<string>, parse: (Loader, Source) -> Result<seq<string>>): (r: Result<Buckets>)
    ensures r.Ok? ==> MediaCount(r.value) <= |docs|
    ensures r.Ok? ==> ((Image !in modalities ==> r.value.images == [])
      && (Audio !in modalities ==> r.value.audios == [])
      && (Video !in modalities ==> r.value.videos == [])
      && (Pdf !in modalities ==> r.value.pdfs == []))
    ensures r.Ok? <==> AllRoutable(st, docs, modalities, mimeOf, parse)
  {
    if |docs| == 0 then Ok(NoBuckets)
    else
      AllRoutableStep(st, docs, modalities, mimeOf, parse);
      var b :- Gather(st, docs[..|docs| - 1], modalities, mimeOf, parse);
      Route(b, st, docs[|docs| - 1], modalities, mimeOf, parse)
  }

  /** The fetched files of the attachments of type `t`, in attachment order. */
  function FilesOfType(st: DocStore, docs: seq<DT.Document>, t: DT.DocumentType, mimeOf: string -> Option<string>): seq<File> {
    if |docs| == 0 then []
    else
      var d := docs[|docs| - 1];
      var f := GetDocument(st, d.id, mimeOf);
      FilesOfType(st, docs[..|docs| - 1], t, mimeOf) + (if d.docType == t && f.Ok? then [f.value] else [])
  }

  /** The units parsed from the attachments that go through their parser, in attachment order. */
  function ParsedUnits(st: DocStore, docs: seq<DT.Document>, modalities: seq<Modality>,
                       mimeOf: string -> Option<string>, parse: (Loader, Source) -> Result<seq<string>>): seq<Unit> {
    if |docs| == 0 then []
    else
      var d := docs[|docs| - 1];
      var units := LoadDocument(st, d.id, mimeOf, parse);
      ParsedUnits(st, docs[..|docs| - 1], modalities, mimeOf, parse)
        + (if ParsedToText(d.docType, modalities) && units.Ok? then units.value else [])
  }

  /**
   * Read bucket by bucket: each media bucket holds the files of the
   * attachments of its type, in order, when the model accepts that
   * modality and nothing otherwise; the texts are the parsed units of the
   * remaining attachments, in order.
   */
  lemma {:induction false} GatherBuckets(st: DocStore, docs: seq<DT.Document>, modalities: seq<Modality>,
                                         mimeOf: string -> Option<string>, parse: (Loader, Source) -> Result<seq<string>>)
    requires Gather(st, docs, modalities, mimeOf, parse).Ok?
    ensures var b := Gather(st, docs, modalities, mimeOf, parse).value;
      && b.images == (if Image in modalities then FilesOfType(st, docs, DT.Image, mimeOf) else [])
      && b.audios == (if Audio in modalities then FilesOfType(st, docs, DT.Audio, mimeOf) else [])
      && b.videos == (if Video in modalities then FilesOfType(st, docs, DT.Video, mimeOf) else [])
      && b.pdfs == (if Pdf in modalities then FilesOfType(st, docs, DT.Pdf, mimeOf) else [])
      && b.texts == ParsedUnits(st, docs, modalities, mimeOf, parse)
    decreases |docs|
  {
    if |docs| > 0 {
      var init, d := docs[..|docs| - 1], docs[|docs| - 1];
      GatherBuckets(st, init, modalities, mimeOf, parse);
      var b0 := Gather(st, init, modalities, mimeOf, parse).value;
      assert Gather(st, docs, modalities, mimeOf, parse) == Route(b0, st, d, modalities, mimeOf, parse);
      RouteExtends(b0, st, docs, modalities, mimeOf, parse);
    }
  }

  /** Routing the last attachment extends the buckets of the ones before it to those of all of them. */
  lemma RouteExtends(b0: Buckets, st: DocStore, docs: seq<DT.Document>, modalities: seq<Modality>,
                     mimeOf: string -> Option<string>, parse: (Loader, Source) -> Result<seq<string>>)
    requires |docs| > 0
    requires Route(b0, st, docs[|docs| - 1], modalities, mimeOf, parse).Ok?
    requires var init := docs[..|docs| - 1];
      && b0.images == (if Image in modalities then FilesOfType(st, init, DT.Image, mimeOf) else [])
      && b0.audios == (if Audio in modalities then FilesOfType(st, init, DT.Audio, mimeOf) else [])
      && b0.videos == (if Video in modalities then FilesOfType(st, init, DT.Video, mimeOf) else [])
      && b0.pdfs == (if Pdf in modalities then FilesOfType(st, init, DT.Pdf, mimeOf) else [])
      && b0.texts == ParsedUnits(st, init, modalities, mimeOf, parse)
    ensures var b := Route(b0, st, docs[|docs| - 1], modalities, mimeOf, parse).value;
      && b.images == (if Image in modalities then FilesOfType(st, docs, DT.Image, mimeOf) else [])
      && b.audios == (if Audio in modalities then FilesOfType(st, docs, DT.Audio, mimeOf) else [])
      && b.videos == (if Video in modalities then FilesOfType(st, docs, DT.Video, mimeOf) else [])
      && b.pdfs == (if Pdf in modalities then FilesOfType(st, docs, DT.Pdf, mimeOf) else [])
      && b.texts == ParsedUnits(st, docs, modalities, mimeOf, parse)
  {
    var d := docs[|docs| - 1];
    var f := GetDocument(st, d.id, mimeOf);
    var units := LoadDocument(st, d.id, mimeOf, parse);
    var b := Route(b0, st, d, modalities, mimeOf, parse).value;
    assert f.Ok?;
    FilesStep(st, docs, DT.Image, mimeOf);
    FilesStep(st, docs, DT.Audio, mimeOf);
    FilesStep(st, docs, DT.Video, mimeOf);
    FilesStep(st, docs, DT.Pdf, mimeOf);
    ParsedStep(st, docs, modalities, mimeOf, parse);
    if ParsedToText(d.docType, modalities) {
      assert units.Ok? && b == b0.(texts := b0.texts + units.value);
    } else if d.docType == DT.Image {
      assert b == if Image in modalities then b0.(images := b0.images + [f.value]) else b0;
    } else if d.docType == DT.Audio {
      assert b == if Audio in modalities then b0.(audios := b0.audios + [f.value]) else b0;
    } else if d.docType == DT.Video {
      assert b == if Video in modalities then b0.(videos := b0.videos + [f.value]) else b0;
    } else {
      assert d.docType == DT.Pdf && b == b0.(pdfs := b0.pdfs + [f.value]);
    }
  }

  lemma ParsedStep(st: DocStore, docs: seq<DT.Document>, modalities: seq<Modality>,
                   mimeOf: string -> Option<string>, parse: (Loader, Source) -> Result<seq<string>>)
    requires |docs| > 0
    ensures var d := docs[|docs| - 1];
      var units := LoadDocument(st, d.id, mimeOf, parse);
      ParsedUnits(st, docs, modalities, mimeOf, parse)
        == ParsedUnits(st, docs[..|docs| - 1], modalities, mimeOf, parse)
           + (if ParsedToText(d.docType, modalities) && units.Ok? then units.value else [])
  {
  }

  lemma FilesStep(st: DocStore, docs: seq<DT.Document>, t: DT.DocumentType, mimeOf: string -> Option<string>)
    requires |docs| > 0
    ensures var d := docs[|docs| - 1];
      var f := GetDocument(st, d.id, mimeOf);
      FilesOfType(st, docs, t, mimeOf) == FilesOfType(st, docs[..|docs| - 1], t, mimeOf) + (if d.docType == t && f.Ok? then [f.value] else [])
  {
  }

  /** An attachment whose file cannot be fetched aborts the whole message, whatever its type. */
  lemma {:induction false} GatherFailsOnMissingFile(st: DocStore, docs: seq<DT.Document>, modalities: seq<Modality>,
                                  mimeOf: string -> Option<string>, parse: (Loader, Source) -> Result<seq<string>>, k: nat)
    requires k < |docs| && GetDocument(st, docs[k].id, mimeOf).Err?
    ensures Gather(st, docs, modalities, mimeOf, parse).Err?
    decreases |docs|
  {
    if k < |docs| - 1 {
      GatherFailsOnMissingFile(st, docs[..|docs| - 1], modalities, mimeOf, parse, k);
    }
  }

  /** The text block for one extracted unit. */
  function TextOf(u: Unit): string {
    "File name: " + u.metadata.name + "\nFile content: " + u.pageContent
  }

  function TextBlocks(us: seq<Unit>): (r: seq<Block>)
    ensures |r| == |us| && forall i :: 0 <= i < |us| ==> r[i] == TextBlock(TextOf(us[i]))
  {
    seq(|us|, i requires 0 <= i < |us| => TextBlock(TextOf(us[i])))
  }

  /** An image as a data URL; `encode` is base64 encoding. */
  function ImageBlocks(fs: seq<File>, encode: Bytes -> string): (r: seq<Block>)
    ensures |r| == |fs| && forall i :: 0 <= i < |fs| ==> r[i] == ImageUrlBlock("data:" + fs[i].mimeType + ";base64," + encode(fs[i].bytes))
  {
    seq(|fs|, i requires 0 <= i < |fs| => ImageUrlBlock("data:" + fs[i].mimeType + ";base64," + encode(fs[i].bytes)))
  }

  function PdfBlocks(fs: seq<File>, encode: Bytes -> string): (r: seq<Block>)
    ensures |r| == |fs| && forall i :: 0 <= i < |fs| ==> r[i] == PdfDocumentBlock(encode(fs[i].bytes), "application/pdf")
  {
    seq(|fs|, i requires 0 <= i < |fs| => PdfDocumentBlock(encode(fs[i].bytes), "application/pdf"))
  }

  function MediaBlocks(fs: seq<File>, encode: Bytes -> string): (r: seq<Block>)
    ensures |r| == |fs| && forall i :: 0 <= i < |fs| ==> r[i] == MediaBlock(fs[i].mimeType, encode(fs[i].bytes))
  {
    seq(|fs|, i requires 0 <= i < |fs| => MediaBlock(fs[i].mimeType, encode(fs[i].bytes)))
  }

  /** The media each provider's formatter sends, by count. */
  function SentMedia(p: Provider, b: Buckets): nat {
    match p
    case OpenAI => |b.images|
    case Anthropic => |b.images| + |b.pdfs|
    case Ollama => 0
    case Gemini => MediaCount(b)
    case HuggingFace => 0
  }

  /**
   * The provider's formatter: media blocks first (OpenAI: images; Anthropic:
   * images, then PDFs as documents; Ollama: none; Gemini: images, audio,
   * video and PDFs as inline media), then one text block per unit.
   * Hugging Face has no formatter.
   */
  function Format(p: Provider, b: Buckets, encode: Bytes -> string): (r: Result<seq<Block>>)
    ensures r.Err? <==> p == HuggingFace
    ensures r.Ok? ==> (|r.value| == SentMedia(p, b) + |b.texts|
      && r.value[SentMedia(p, b)..] == TextBlocks(b.texts)
      && forall i :: 0 <= i < SentMedia(p, b) ==> !r.value[i].TextBlock?)
    ensures p == OpenAI ==> r.Ok? && r.value[..|b.images|] == ImageBlocks(b.images, encode)
    ensures p == Anthropic ==> (r.Ok? && r.value[..|b.images|] == ImageBlocks(b.images, encode)
      && r.value[|b.images|..|b.images| + |b.pdfs|] == PdfBlocks(b.pdfs, encode))
    ensures p == Gemini ==> r.Ok? && r.value[..MediaCount(b)] == MediaBlocks(b.images + b.audios + b.videos + b.pdfs, encode)
  {
    match p
    case OpenAI => Ok(ImageBlocks(b.images, encode) + TextBlocks(b.texts))
    case Anthropic => Ok(ImageBlocks(b.images, encode) + PdfBlocks(b.pdfs, encode) + TextBlocks(b.texts))
    case Ollama => Ok(TextBlocks(b.texts))
    case Gemini => Ok(MediaBlocks(b.images + b.audios + b.videos + b.pdfs, encode) + TextBlocks(b.texts))
    case HuggingFace => Err("Provider huggingface not implemented for message attachments")
  }

  /** The provenance recorded for each attached document. */
  function ProvenanceOf(d: DT.Document): Provenance {
    Provenance(d.id, d.name, d.path, d.docType, d.createdAt)
  }

  /** The session's field if there is a session, else absent (`session?.field`). */
  function SessionModel(session: Option<Session>): Option<string> {
    if session.Some? then Some(session.value.model) else None
  }

  function SessionEmbeddingModel(session: Option<Session>): Option<string> {
    if session.Some? then Some(session.value.embeddingModel) else None
  }

  /**
   * `createMessageWithAttachments`: with no attachments, an empty user
   * message. Otherwise the model (the session's, else the default) must be
   * in the catalog; the attachments are routed and formatted for its
   * provider, and the message records every attachment's provenance.
   */
  function CreateMessageWithAttachments(st: DocStore, docs: seq<DT.Document>, session: Option<Session>, s: Settings,
                                        models: seq<ChatModel>, mimeOf: string -> Option<string>,
                                        parse: (Loader, Source) -> Result<seq<string>>, encode: Bytes -> string): (r: Result<Message>)
    ensures |docs| == 0 ==> r == Ok(HumanMessage(Plain(""), []))
    ensures |docs| > 0 && FindChatModel(models, OrElse(SessionModel(session), s.defaultChatModel)).None? ==>
      r == Err("Model " + OrElse(SessionModel(session), s.defaultChatModel) + " not found in CHAT_MODELS")
    ensures |docs| > 0 && r.Ok? ==> (r.value.HumanMessage? && r.value.content.Blocks?
      && |r.value.documents| == |docs|
      && forall i :: 0 <= i < |docs| ==> r.value.documents[i] == ProvenanceOf(docs[i]))
    ensures |docs| > 0 && FindChatModel(models, OrElse(SessionModel(session), s.defaultChatModel)).Some? ==>
      var m := FindChatModel(models, OrElse(SessionModel(session), s.defaultChatModel)).value;
      var b := Gather(st, docs, m.modalities, mimeOf, parse);
      && (b.Err? ==> r == Err(b.msg))
      && (b.Ok? ==> r.Ok? == Format(m.provider, b.value, encode).Ok?)
      && (r.Ok? ==> b.Ok? && r.value.content == Blocks(Format(m.provider, b.value, encode).value))
  {
    if |docs| == 0 then Ok(HumanMessage(Plain(""), []))
    else
      var id := OrElse(SessionModel(session), s.defaultChatModel);
      match FindChatModel(models, id)
      case None => Err("Model " + id + " not found in CHAT_MODELS")
      case Some(m) =>
        var b :- Gather(st, docs, m.modalities, mimeOf, parse);
        var blocks :- Format(m.provider, b, encode);
        Ok(HumanMessage(Blocks(blocks), seq(|docs|, i requires 0 <= i < |docs| => ProvenanceOf(docs[i]))))
  }

  /**
   * End to end: the message's blocks end with one text block per unit
   * parsed from the attachments that go through their parser, in
   * attachment order; for Anthropic they start with the accepted images,
   * in attachment order.
   */
  lemma MessageBlocks(st: DocStore, docs: seq<DT.Document>, session: Option<Session>, s: Settings,
                      models: seq<ChatModel>, mimeOf: string -> Option<string>,
                      parse: (Loader, Source) -> Result<seq<string>>, encode: Bytes -> string)
    requires |docs| > 0
    requires CreateMessageWithAttachments(st, docs, session, s, models, mimeOf, parse, encode).Ok?
    ensures var m := FindChatModel(models, OrElse(SessionModel(session), s.defaultChatModel)).value;
      var blocks := CreateMessageWithAttachments(st, docs, session, s, models, mimeOf, parse, encode).value.content.blocks;
      var units := ParsedUnits(st, docs, m.modalities, mimeOf, parse);
      && |units| <= |blocks|
      && blocks[|blocks| - |units|..] == TextBlocks(units)
      && (m.provider == Anthropic && Image in m.modalities ==>
            var images := FilesOfType(st, docs, DT.Image, mimeOf);
            |images| <= |blocks| && blocks[..|images|] == ImageBlocks(images, encode))
  {
    var m := FindChatModel(models, OrElse(SessionModel(session), s.defaultChatModel)).value;
    GatherBuckets(st, docs, m.modalities, mimeOf, parse);
  }

  /**
   * Attachments the model cannot take are dropped without trace: images
   * sent to a model without image input leave a message with no content,
   * which is therefore never stored.
   */
  lemma {:induction false} UnsupportedImagesLeaveNoContent(st: DocStore, docs: seq<DT.Document>, session: Option<Session>, s: Settings,
                                        models: seq<ChatModel>, mimeOf: string -> Option<string>,
                                        parse: (Loader, Source) -> Result<seq<string>>, encode: Bytes -> string)
    requires forall i :: 0 <= i < |docs| ==> docs[i].docType == DT.Image && GetDocument(st, docs[i].id, mimeOf).Ok?
    requires |docs| > 0
    requires var m := FindChatModel(models, OrElse(SessionModel(session), s.defaultChatModel));
      m.Some? && Image !in m.value.modalities && m.value.provider != HuggingFace
    ensures var r := CreateMessageWithAttachments(st, docs, session, s, models, mimeOf, parse, encode);
      r.Ok? && !HasContent(r.value.content)
  {
    var m := FindChatModel(models, OrElse(SessionModel(session), s.defaultChatModel)).value;
    ImagesOnlyGather(st, docs, m.modalities, mimeOf, parse);
  }

  /** Routing only fetchable images the model cannot take leaves every bucket empty. */
  lemma {:induction false} ImagesOnlyGather(st: DocStore, docs: seq<DT.Document>, modalities: seq<Modality>,
                                            mimeOf: string -> Option<string>, parse: (Loader, Source) -> Result<seq<string>>)
    requires forall i :: 0 <= i < |docs| ==> docs[i].docType == DT.Image && GetDocument(st, docs[i].id, mimeOf).Ok?
    requires Image !in modalities
    ensures Gather(st, docs, modalities, mimeOf, parse) == Ok(NoBuckets)
    decreases |docs|
  {
    if |docs| > 0 {
      ImagesOnlyGather(st, docs[..|docs| - 1], modalities, mimeOf, parse);
    }
  }

  /** The agent's stream events, as far as the turn distinguishes them. `at` is the clock reading when a tool call ends. */
  datatype Event =
    | ModelStream(chunk: string)
    | ModelEnd
    | ToolStart(name: string, input: string)
    | ToolEnd(name: string, input: string, output: string, at: int)
    | OtherEvent

  /** What the turn yields to its caller. */
  datatype Output =
    | StreamOut(content: string)
    | EndOut(content: string)
    | ToolStartOut(name: string, input: string)
    | ToolEndOut(name: string, output: string)

  /** The text of all streamed chunks among `outs`, in order. */
  function StreamedText(outs: seq<Output>): string {
    if |outs| == 0 then ""
    else (if outs[0].StreamOut? then outs[0].content else "") + StreamedText(outs[1..])
  }

  /** The record stored for a finished tool call. */
  function ToolRecord(e: Event): Message
    requires e.ToolEnd?
  {
    ToolMessage(e.name, e.output, e.name, "success", e.input, e.at)
  }

  /** The tool records a stream of events produces, in order. */
  function ToolRecords(events: seq<Event>): seq<Message> {
    if |events| == 0 then []
    else (if events[0].ToolEnd? then [ToolRecord(events[0])] else []) + ToolRecords(events[1..])
  }

  /** The text an event adds to the response. */
  function ChunkOf(e: Event): string {
    if e.ModelStream? then e.chunk else ""
  }

  /** The chunks among the events, concatenated. */
  function Chunks(events: seq<Event>): string {
    if |events| == 0 then ""
    else ChunkOf(events[0]) + Chunks(events[1..])
  }

  /** The text an output contributes to the accumulated response. */
  function Streamed(o: Output): string {
    if o.StreamOut? then o.content else ""
  }

  /** Every end-of-call output carries `acc` plus the text streamed before it, read one output at a time. */
  predicate EndsCarry(outs: seq<Output>, acc: string) {
    |outs| == 0 || ((outs[0].EndOut? ==> outs[0].content == acc) && EndsCarry(outs[1..], acc + Streamed(outs[0])))
  }

  /** The text streamed before position `i` is the first output's text plus that streamed in the rest before `i`. */
  lemma SliceText(outs: seq<Output>, i: nat)
    requires 1 <= i <= |outs|
    ensures StreamedText(outs[..i]) == Streamed(outs[0]) + StreamedText(outs[1..][..i - 1])
  {
    assert outs[..i][0] == outs[0];
    assert outs[..i][1..] == outs[1..][..i - 1];
  }

  /** Read position by position: the end output at `i` carries `acc` plus everything streamed before `i`. */
  lemma {:induction false} EndsCarryMeaning(outs: seq<Output>, acc: string)
    ensures EndsCarry(outs, acc) <==>
      forall i :: 0 <= i < |outs| && outs[i].EndOut? ==> outs[i].content == acc + StreamedText(outs[..i])
  {
    if |outs| > 0 {
      var o := outs[0];
      var tail := outs[1..];
      var acc' := acc + Streamed(o);
      EndsCarryMeaning(tail, acc');
      assert outs[..0] == [];
      forall i | 1 <= i < |outs|
        ensures outs[i] == tail[i - 1]
        ensures acc + StreamedText(outs[..i]) == acc' + StreamedText(tail[..i - 1])
      {
        SliceText(outs, i);
      }
    }
  }

  /** Outputs of one event (at most one) followed by outputs that carry on from them carry as a whole. */
  lemma GlueCarry(a: seq<Output>, b: seq<Output>, acc: string)
    requires |a| <= 1 && EndsCarry(a, acc) && EndsCarry(b, acc + StreamedText(a))
    ensures EndsCarry(a + b, acc)
    ensures StreamedText(a + b) == StreamedText(a) + StreamedText(b)
  {
    if |a| == 0 {
      assert a + b == b && acc + StreamedText(a) == acc;
    } else {
      var ab := a + b;
      assert ab[0] == a[0] && ab[1..] == b && a[1..] == [];
      assert StreamedText(a) == Streamed(a[0]) + StreamedText(a[1..]);
      assert StreamedText(a[1..]) == "" && Streamed(a[0]) + "" == Streamed(a[0]);
      assert a[0].EndOut? ==> a[0].content == acc;
      assert EndsCarry(ab[1..], acc + Streamed(ab[0]));
      assert StreamedText(ab) == Streamed(a[0]) + StreamedText(ab[1..]);
    }
  }

  /**
   * What one event yields: the chunk (a chunk event always carries a
   * message object, so the guard on it never skips one); for the end of a model call,
   * everything accumulated so far (`acc`, which is never reset); the tool
   * name and input at a tool start; the tool name and output at a tool end.
   */
  function OutputOf(e: Event, acc: string): (o: seq<Output>)
    ensures |o| <= 1 && EndsCarry(o, acc)
    ensures StreamedText(o) == ChunkOf(e)
    ensures e.ModelEnd? ==> o == [EndOut(acc)]
    ensures e.ToolEnd? ==> o == [ToolEndOut(e.name, e.output)]
    ensures e.OtherEvent? ==> o == []
  {
    match e
    case ModelStream(c) =>
      assert StreamedText([StreamOut(c)]) == c + StreamedText([]);
      [StreamOut(c)]
    case ModelEnd => [EndOut(acc)]
    case ToolStart(name, input) => [ToolStartOut(name, input)]
    case ToolEnd(name, _, output, _) => [ToolEndOut(name, output)]
    case OtherEvent => []
  }

  /** The outputs of the event loop, in order, with the running response threaded through. */
  function RelayOutputs(events: seq<Event>, acc: string): (outs: seq<Output>)
    ensures StreamedText(outs) == Chunks(events)
    ensures EndsCarry(outs, acc)
    decreases |events|
  {
    if |events| == 0 then []
    else
      var first := OutputOf(events[0], acc);
      var rest := RelayOutputs(events[1..], acc + StreamedText(first));
      GlueCarry(first, rest, acc);
      first + rest
  }

  /** The events that yield something: all but the ones the loop ignores. */
  function Yielding(events: seq<Event>): (r: seq<Event>)
    ensures |r| <= |events|
    ensures forall i :: 0 <= i < |r| ==> !r[i].OtherEvent?
  {
    if |events| == 0 then []
    else (if events[0].OtherEvent? then [] else [events[0]]) + Yielding(events[1..])
  }

  /** What a yielding event is announced as, given the response accumulated before it. */
  function Announce(e: Event, response: string): Output
    requires !e.OtherEvent?
  {
    match e
    case ModelStream(c) => StreamOut(c)
    case ModelEnd => EndOut(response)
    case ToolStart(name, input) => ToolStartOut(name, input)
    case ToolEnd(name, _, output, _) => ToolEndOut(name, output)
  }

  /** One step of the loop: the first event's announcement, if any, then the rest from the grown response. */
  lemma RelayStep(events: seq<Event>, acc: string)
    requires |events| > 0
    ensures RelayOutputs(events, acc)
      == (if events[0].OtherEvent? then [] else [Announce(events[0], acc)]) + RelayOutputs(events[1..], acc + ChunkOf(events[0]))
  {
  }

  /**
   * Read output by output: the loop yields exactly one output per yielding
   * event, in order, and the output for the `i`-th one announces it with
   * `acc` plus the chunks of the yielding events before it.
   */
  lemma {:induction false} RelayByEvent(events: seq<Event>, acc: string)
    ensures var outs, ys := RelayOutputs(events, acc), Yielding(events);
      && |outs| == |ys|
      && forall i :: 0 <= i < |outs| ==> outs[i] == Announce(ys[i], acc + Chunks(ys[..i]))
    decreases |events|
  {
    if |events| > 0 {
      var e, rest := events[0], events[1..];
      var acc' := acc + ChunkOf(e);
      RelayByEvent(rest, acc');
      RelayStep(events, acc);
      var outs, ys, ys' := RelayOutputs(events, acc), Yielding(events), Yielding(rest);
      var tail := RelayOutputs(rest, acc');
      assert ys == (if e.OtherEvent? then [] else [e]) + ys';
      if e.OtherEvent? {
        assert ys == ys' && outs == tail;
        assert acc' == acc + "" == acc;
      } else {
        assert ys == [e] + ys' && outs == [Announce(e, acc)] + tail;
        AnnounceShift(e, ys', tail, acc);
      }
    }
  }

  /** Announcing one more event in front shifts every later announcement's response by that event's chunk. */
  lemma AnnounceShift(e: Event, ys: seq<Event>, tail: seq<Output>, acc: string)
    requires !e.OtherEvent? && forall i :: 0 <= i < |ys| ==> !ys[i].OtherEvent?
    requires |tail| == |ys| && forall i :: 0 <= i < |tail| ==> tail[i] == Announce(ys[i], acc + ChunkOf(e) + Chunks(ys[..i]))
    ensures var outs, ys' := [Announce(e, acc)] + tail, [e] + ys;
      forall i :: 0 <= i < |outs| ==> outs[i] == Announce(ys'[i], acc + Chunks(ys'[..i]))
  {
    var outs, ys' := [Announce(e, acc)] + tail, [e] + ys;
    assert outs[0] == Announce(ys'[0], acc + Chunks(ys'[..0])) by {
      assert ys'[..0] == [] && acc + "" == acc;
    }
    forall i | 1 <= i < |outs|
      ensures outs[i] == Announce(ys'[i], acc + Chunks(ys'[..i]))
    {
      assert outs[i] == tail[i - 1] && ys'[i] == ys[i - 1];
      assert ys'[..i] == [e] + ys[..i - 1];
      ChunksCons(e, ys[..i - 1]);
      Assoc(acc, ChunkOf(e), Chunks(ys[..i - 1]));
    }
  }

  lemma ChunksCons(e: Event, rest: seq<Event>)
    ensures Chunks([e] + rest) == ChunkOf(e) + Chunks(rest)
  {
    assert ([e] + rest)[1..] == rest;
  }

  /** Relaying two stretches of events one after the other: the second starts from the chunks of the first. */
  lemma {:induction false} RelaySplit(a: seq<Event>, b: seq<Event>, acc: string)
    ensures RelayOutputs(a + b, acc) == RelayOutputs(a, acc) + RelayOutputs(b, acc + Chunks(a))
    decreases |a|
  {
    if |a| == 0 {
      assert a + b == b && RelayOutputs(a, acc) == [] && Chunks(a) == "";
      assert acc + "" == acc && [] + RelayOutputs(b, acc) == RelayOutputs(b, acc);
    } else {
      var e := a[0];
      var acc' := acc + ChunkOf(e);
      var head: seq<Output> := if e.OtherEvent? then [] else [Announce(e, acc)];
      assert (a + b)[0] == e && (a + b)[1..] == a[1..] + b;
      RelayStep(a + b, acc);
      RelayStep(a, acc);
      RelaySplit(a[1..], b, acc');
      var x, y := RelayOutputs(a[1..], acc'), RelayOutputs(b, acc' + Chunks(a[1..]));
      assert RelayOutputs(a + b, acc) == head + (x + y);
      assert RelayOutputs(a, acc) == head + x;
      Assoc(head, x, y);
      Assoc(acc, ChunkOf(e), Chunks(a[1..]));
    }
  }

  lemma Assoc<T>(x: seq<T>, y: seq<T>, z: seq<T>)
    ensures x + (y + z) == (x + y) + z
  {
  }

  /** The end of the model call at event `j` yields `acc` plus every chunk streamed before `j`. */
  lemma EndCarriesChunks(events: seq<Event>, acc: string, j: nat)
    requires j < |events| && events[j].ModelEnd?
    ensures var pre := acc + Chunks(events[..j]);
      RelayOutputs(events, acc) == RelayOutputs(events[..j], acc) + [EndOut(pre)] + RelayOutputs(events[j + 1..], pre)
  {
    var pre := acc + Chunks(events[..j]);
    var a, b := events[..j], events[j..];
    assert a + b == events;
    RelaySplit(a, b, acc);
    RelayStep(b, pre);
    assert b[0] == events[j] && b[1..] == events[j + 1..];
    assert Announce(b[0], pre) == EndOut(pre) && pre + ChunkOf(b[0]) == pre;
    Assoc(RelayOutputs(a, acc), [EndOut(pre)], RelayOutputs(events[j + 1..], pre));
  }

  /** The writes of the event loop: each finished tool call appended through the loaded handle and stored. */
  function StoreTools(events: seq<Event>, h: Memory, db: SessionTable): (r: (Memory, SessionTable))
    requires Ready(h)
    ensures Ready(r.0) && r.0.sessionId == h.sessionId
    ensures r.0.cached.value.messages == h.cached.value.messages + ToolRecords(events)
    ensures ToolRecords(events) == [] ==> r == (h, db)
    ensures ToolRecords(events) != [] ==> r.1 == db[h.sessionId := r.0.cached.value]
    decreases |events|
  {
    if |events| == 0 then (h, db)
    else
      var e := events[0];
      assert ToolRecords(events) == (if e.ToolEnd? then [ToolRecord(e)] else []) + ToolRecords(events[1..]);
      if e.ToolEnd? then
        var stored := Append(h, db, ToolRecord(e), e.at);
        StoreTools(events[1..], stored.0, stored.1)
      else StoreTools(events[1..], h, db)
  }

  /**
   * The event loop of a turn. What it yields does not depend on what it
   * stores, and storing through a loaded handle cannot fail, so the two
   * are computed apart: the streamed text is exactly the chunks, every end
   * carries what was streamed before it, and every finished tool call is
   * stored in order.
   */
  function Relay(events: seq<Event>, acc: string, h: Memory, db: SessionTable): (r: (seq<Output>, Memory, SessionTable))
    requires Ready(h)
    ensures Ready(r.1) && r.1.sessionId == h.sessionId
    ensures r.1.cached.value.messages == h.cached.value.messages + ToolRecords(events)
    ensures ToolRecords(events) == [] ==> r.1 == h && r.2 == db
    ensures ToolRecords(events) != [] ==> r.2 == db[h.sessionId := r.1.cached.value]
    ensures StreamedText(r.0) == Chunks(events)
    ensures EndsCarry(r.0, acc)
  {
    var stored := StoreTools(events, h, db);
    (RelayOutputs(events, acc), stored.0, stored.1)
  }

  /** What a completed turn leaves behind: the yielded outputs, the session table, the clients and the tools. */
  datatype Turn = Turn(outputs: seq<Output>, sessions: SessionTable, chat: Client, embeddings: Client, tools: seq<Tool>)

  /** The messages a session held before the turn (none if it did not exist). */
  function Prior(sessions: SessionTable, sessionId: string): seq<Message> {
    if sessionId in sessions then sessions[sessionId].messages else []
  }

  /**
   * The history after a turn: the prior history, then at most one user
   * message carrying one provenance entry per attachment (there were
   * attachments), then the tool records.
   */
  predicate TurnShape(msgs: seq<Message>, prior: seq<Message>, tools: seq<Message>, nDocs: nat) {
    && |prior| + |tools| <= |msgs| <= |prior| + |tools| + 1
    && msgs[..|prior|] == prior
    && msgs[|msgs| - |tools|..] == tools
    && (|msgs| == |prior| + |tools| + 1 ==>
          nDocs > 0 && msgs[|prior|].HumanMessage? && |msgs[|prior|].documents| == nDocs)
  }

  lemma ShapeOfTurn(prior: seq<Message>, added: seq<Message>, tools: seq<Message>, nDocs: nat)
    requires |added| <= 1
    requires |added| == 1 ==> nDocs > 0 && added[0].HumanMessage? && |added[0].documents| == nDocs
    ensures TurnShape(prior + added + tools, prior, tools, nDocs)
  {
    var msgs := prior + added + tools;
    assert msgs[..|prior|] == prior;
    assert msgs[|msgs| - |tools|..] == tools;
    if |added| == 1 {
      assert msgs[|prior|] == added[0];
    }
  }

  /** Storing the attachment message (if it has content) and relaying the events, on a loaded handle. */
  function FinishTurn(h: Memory, db: SessionTable, msg: Message, nDocs: nat, events: seq<Event>, now: int): (r: (seq<Output>, SessionTable))
    requires Ready(h) && h.sessionId in db && db[h.sessionId] == h.cached.value
    requires msg.HumanMessage? && (HasContent(msg.content) ==> nDocs > 0 && |msg.documents| == nDocs)
    ensures h.sessionId in r.1 && TurnShape(r.1[h.sessionId].messages, h.cached.value.messages, ToolRecords(events), nDocs)
    ensures r.1 - {h.sessionId} == db - {h.sessionId}
    ensures StreamedText(r.0) == Chunks(events) && EndsCarry(r.0, "")
    ensures r.0 == RelayOutputs(events, "")
    ensures r.1[h.sessionId].messages
      == h.cached.value.messages + (if HasContent(msg.content) then [msg] else []) + ToolRecords(events)
  {
    var stored := if HasContent(msg.content) then Append(h, db, msg, now) else (h, db);
    var prior := h.cached.value.messages;
    var added := if HasContent(msg.content) then [msg] else [];
    assert stored.1[h.sessionId] == stored.0.cached.value && stored.0.cached.value.messages == prior + added;
    var relayed := Relay(events, "", stored.0, stored.1);
    assert relayed.2[h.sessionId] == relayed.1.cached.value;
    assert relayed.1.cached.value.messages == prior + added + ToolRecords(events);
    ShapeOfTurn(prior, added, ToolRecords(events), nDocs);
    (relayed.0, relayed.2)
  }

  /** The handle, table and session a turn runs on, and the clients and tools built for it. */
  datatype Setup = Setup(h: Memory, db: SessionTable, session: Option<Session>, chat: Client, embeddings: Client, tools: seq<Tool>)

  /**
   * The first steps of `chat`: load (or create) the session, then build the
   * chat client and the embedding client from the session's models, else
   * the defaults (either failing aborts the turn), and pick the tools. A
   * created session resolves to the same models as no session at all, and
   * enables no tools.
   */
  function Prepare(sessions: SessionTable, s: Settings, catalog: Catalog, sessionId: string, now: int): (r: Result<Setup>)
    ensures sessionId !in sessions && FindChatModel(catalog.chatModels, s.defaultChatModel).None? ==>
      r == Err("Chat or embedding models are not configured.")
    ensures r.Ok? ==> (Ready(r.value.h) && r.value.h.sessionId == sessionId
      && sessionId in r.value.db && r.value.db[sessionId] == r.value.h.cached.value
      && r.value.h.cached.value.messages == Prior(sessions, sessionId)
      && r.value.db - {sessionId} == sessions - {sessionId})
    ensures r.Ok? ==> var before := Existing(sessions, sessionId);
      && OrElse(SessionModel(r.value.session), s.defaultChatModel) == OrElse(SessionModel(before), s.defaultChatModel)
      && GetChatModel(catalog.chatModels, s, OrElse(SessionModel(before), s.defaultChatModel)) == Ok(r.value.chat)
      && GetEmbeddingModel(catalog.embeddingModels, s, OrElse(SessionEmbeddingModel(before), s.defaultEmbeddingModel)) == Ok(r.value.embeddings)
      && r.value.tools == SelectTools(if before.Some? then before.value.enabledTools else [])
    ensures r.Ok? <==> ((sessionId in sessions || FindChatModel(catalog.chatModels, s.defaultChatModel).Some?)
      && GetChatModel(catalog.chatModels, s, OrElse(SessionModel(Existing(sessions, sessionId)), s.defaultChatModel)).Ok?
      && GetEmbeddingModel(catalog.embeddingModels, s, OrElse(SessionEmbeddingModel(Existing(sessions, sessionId)), s.defaultEmbeddingModel)).Ok?)
    ensures sessionId in sessions ==>
      (r.Ok? <==> (GetChatModel(catalog.chatModels, s, OrElse(SessionModel(Existing(sessions, sessionId)), s.defaultChatModel)).Ok?
        && GetEmbeddingModel(catalog.embeddingModels, s, OrElse(SessionEmbeddingModel(Existing(sessions, sessionId)), s.defaultEmbeddingModel)).Ok?))
  {
    var (h, db) :- Initialize(NewHandle(sessionId), sessions, s, catalog.chatModels, catalog.embeddingModels, now);
    var session := if sessionId in db then Some(db[sessionId]) else None;
    assert sessionId !in sessions ==> session.Some? && session.value.model == s.defaultChatModel && session.value.enabledTools == []
      && (session.value.embeddingModel == s.defaultEmbeddingModel || session.value.embeddingModel == "") by {
      if sessionId !in sessions {
        InitializeCreates(NewHandle(sessionId), sessions, s, catalog.chatModels, catalog.embeddingModels, now);
      }
    }
    var chat :- GetChatModel(catalog.chatModels, s, OrElse(SessionModel(session), s.defaultChatModel));
    var embeddings :- GetEmbeddingModel(catalog.embeddingModels, s, OrElse(SessionEmbeddingModel(session), s.defaultEmbeddingModel));
    var tools := SelectTools(if session.Some? then session.value.enabledTools else []);
    Ok(Setup(h, db, session, chat, embeddings, tools))
  }

  /** The session as it stood before the turn, if any. */
  function Existing(sessions: SessionTable, sessionId: string): Option<Session> {
    if sessionId in sessions then Some(sessions[sessionId]) else None
  }

  /**
   * `chat`: load (or create) the session; resolve the chat model and the
   * embedding model (the session's, else the defaults) — either failing
   * aborts the turn; pick the tools; build the attachment message and
   * store it if it has content; then relay the agent's `events`. The agent
   * itself, and the history it keeps through its own handle, are outside
   * this model: `events` stands for its output.
   */
  function Chat(sessions: SessionTable, st: DocStore, s: Settings, catalog: Catalog, sessionId: string,
                docs: seq<DT.Document>, events: seq<Event>, now: int, mimeOf: string -> Option<string>,
                parse: (Loader, Source) -> Result<seq<string>>, encode: Bytes -> string): (r: Result<Turn>)
    ensures sessionId !in sessions && FindChatModel(catalog.chatModels, s.defaultChatModel).None? ==>
      r == Err("Chat or embedding models are not configured.")
    ensures r.Ok? ==> (sessionId in r.value.sessions
      && TurnShape(r.value.sessions[sessionId].messages, Prior(sessions, sessionId), ToolRecords(events), |docs|))
    ensures r.Ok? ==> r.value.sessions - {sessionId} == sessions - {sessionId}
    ensures r.Ok? ==> StreamedText(r.value.outputs) == Chunks(events) && EndsCarry(r.value.outputs, "")
    ensures r.Ok? <==> (Prepare(sessions, s, catalog, sessionId, now).Ok?
      && CreateMessageWithAttachments(st, docs, Existing(sessions, sessionId), s, catalog.chatModels, mimeOf, parse, encode).Ok?)
  {
    var p :- Prepare(sessions, s, catalog, sessionId, now);
    MessageByModelId(st, docs, p.session, Existing(sessions, sessionId), s, catalog.chatModels, mimeOf, parse, encode);
    var msg :- CreateMessageWithAttachments(st, docs, p.session, s, catalog.chatModels, mimeOf, parse, encode);
    var (outputs, table) := FinishTurn(p.h, p.db, msg, |docs|, events, now);
    Ok(Turn(outputs, table, p.chat, p.embeddings, p.tools))
  }

  /** The attachment message depends on the session only through the model id it resolves to. */
  lemma MessageByModelId(st: DocStore, docs: seq<DT.Document>, a: Option<Session>, b: Option<Session>, s: Settings,
                         models: seq<ChatModel>, mimeOf: string -> Option<string>,
                         parse: (Loader, Source) -> Result<seq<string>>, encode: Bytes -> string)
    requires OrElse(SessionModel(a), s.defaultChatModel) == OrElse(SessionModel(b), s.defaultChatModel)
    ensures CreateMessageWithAttachments(st, docs, a, s, models, mimeOf, parse, encode)
         == CreateMessageWithAttachments(st, docs, b, s, models, mimeOf, parse, encode)
  {
  }

  /** The clients and tools of a completed turn are the ones built from the session as it stood before the turn. */
  lemma ChatBuilds(sessions: SessionTable, st: DocStore, s: Settings, catalog: Catalog, sessionId: string,
                   docs: seq<DT.Document>, events: seq<Event>, now: int, mimeOf: string -> Option<string>,
                   parse: (Loader, Source) -> Result<seq<string>>, encode: Bytes -> string)
    requires Chat(sessions, st, s, catalog, sessionId, docs, events, now, mimeOf, parse, encode).Ok?
    ensures var t := Chat(sessions, st, s, catalog, sessionId, docs, events, now, mimeOf, parse, encode).value;
      var before := Existing(sessions, sessionId);
      && GetChatModel(catalog.chatModels, s, OrElse(SessionModel(before), s.defaultChatModel)) == Ok(t.chat)
      && GetEmbeddingModel(catalog.embeddingModels, s, OrElse(SessionEmbeddingModel(before), s.defaultEmbeddingModel)) == Ok(t.embeddings)
      && t.tools == SelectTools(if before.Some? then before.value.enabledTools else [])
  {
    var p := Prepare(sessions, s, catalog, sessionId, now).value;
    var t := Chat(sessions, st, s, catalog, sessionId, docs, events, now, mimeOf, parse, encode).value;
    assert t.chat == p.chat && t.embeddings == p.embeddings && t.tools == p.tools;
  }

  /**
   * The history a completed turn stores is the prior history, then the
   * attachment message built for the session as it stood before the turn
   * (if it has content), then the tool records; the outputs are the relay
   * of the events.
   */
  lemma ChatStores(sessions: SessionTable, st: DocStore, s: Settings, catalog: Catalog, sessionId: string,
                   docs: seq<DT.Document>, events: seq<Event>, now: int, mimeOf: string -> Option<string>,
                   parse: (Loader, Source) -> Result<seq<string>>, encode: Bytes -> string)
    requires Chat(sessions, st, s, catalog, sessionId, docs, events, now, mimeOf, parse, encode).Ok?
    ensures var t := Chat(sessions, st, s, catalog, sessionId, docs, events, now, mimeOf, parse, encode).value;
      var msg := CreateMessageWithAttachments(st, docs, Existing(sessions, sessionId), s, catalog.chatModels, mimeOf, parse, encode);
      && msg.Ok?
      && sessionId in t.sessions
      && t.sessions[sessionId].messages
         == Prior(sessions, sessionId) + (if HasContent(msg.value.content) then [msg.value] else []) + ToolRecords(events)
      && t.outputs == RelayOutputs(events, "")
  {
    var p := Prepare(sessions, s, catalog, sessionId, now).value;
    MessageByModelId(st, docs, p.session, Existing(sessions, sessionId), s, catalog.chatModels, mimeOf, parse, encode);
  }

  /** An embedding model that cannot be built aborts the turn, even though the turn never uses it. */
  lemma EmbeddingFailureAbortsTurn(sessions: SessionTable, st: DocStore, s: Settings, catalog: Catalog, sessionId: string,
                                   docs: seq<DT.Document>, events: seq<Event>, now: int, mimeOf: string -> Option<string>,
                                   parse: (Loader, Source) -> Result<seq<string>>, encode: Bytes -> string)
    requires sessionId in sessions
    requires GetEmbeddingModel(catalog.embeddingModels, s, OrElse(Some(sessions[sessionId].embeddingModel), s.defaultEmbeddingModel)).Err?
    ensures Chat(sessions, st, s, catalog, sessionId, docs, events, now, mimeOf, parse, encode).Err?
  {
  }

  /**
   * Every attachment's file is fetched before its type is looked at, so one
   * without stored bytes (a URL or YouTube attachment among them) aborts
   * the turn.
   */
  lemma UnfetchableAttachmentAbortsTurn(sessions: SessionTable, st: DocStore, s: Settings, catalog: Catalog, sessionId: string,
                                        docs: seq<DT.Document>, events: seq<Event>, now: int, mimeOf: string -> Option<string>,
                                        parse: (Loader, Source) -> Result<seq<string>>, encode: Bytes -> string, k: nat)
    requires k < |docs| && GetDocument(st, docs[k].id, mimeOf).Err?
    ensures Chat(sessions, st, s, catalog, sessionId, docs, events, now, mimeOf, parse, encode).Err?
  {
    var p := Prepare(sessions, s, catalog, sessionId, now);
    if p.Ok? {
      var m := FindChatModel(catalog.chatModels, OrElse(SessionModel(p.value.session), s.defaultChatModel));
      if m.Some? {
        GatherFailsOnMissingFile(st, docs, m.value.modalities, mimeOf, parse, k);
      }
    }
  }
}

=== FILE: chat_view.dfy ===
/**
 * The chat page's local state and what its handlers do to it and to the
 * stored sessions: sending with its guards, following a turn's stream,
 * truncating the transcript to edit or regenerate, managing attachments,
 * choosing the model, and laying out the virtual rows. The original page,
 * its rewrite (here "page 2") and the two shared send helpers differ in
 * small ways, and each variant is modelled.
 */
module ChatView {
  import opened Wrappers
  import opened Strs
  import opened ConfigTypes
  import DT = DocumentTypes
  import opened Documents
  import opened Messages
  import opened ChatMemory
  import CM = ChatManager
  import CS = ConfigStore

  /** The page's local state. */
  datatype View = View(
    input: string,
    attachments: seq<DT.Document>,
    generating: bool,
    streamingHuman: Option<string>,
    chunks: seq<string>,
    editing: Option<nat>,
    urlInput: string,
    urlOpen: bool)

  /** A turn's stream as the page sees it: the outputs yielded, and whether it then threw. */
  datatype Run = Run(outputs: seq<CM.Output>, threw: bool)

  /** A request to run a turn: the session and the user input (no attachments). */
  datatype Resubmit = Resubmit(sessionId: string, input: Content)

  /** An id is usable when present and non-empty (JavaScript truthiness). */
  predicate Present(id: Option<string>) {
    id.Some? && id.value != ""
  }

  /** The live session for the route: none for a missing id, for "new", or for an unknown session. */
  function LiveSession(table: SessionTable, routeId: Option<string>): (r: Option<Session>)
    ensures r.Some? <==> Present(routeId) && routeId.value != "new" && routeId.value in table
    ensures r.Some? ==> r.value == table[routeId.value]
  {
    if Present(routeId) && routeId.value != "new" && routeId.value in table then Some(table[routeId.value]) else None
  }

  // ---------------------------------------------------------------- streaming

  /** The streamed chunks among the outputs, in order. */
  function StreamChunks(outs: seq<CM.Output>): seq<string> {
    if |outs| == 0 then []
    else (if outs[0].StreamOut? then [outs[0].content] else []) + StreamChunks(outs[1..])
  }

  predicate HasEnd(outs: seq<CM.Output>) {
    exists i :: 0 <= i < |outs| && outs[i].EndOut?
  }

  /** One output: a chunk is appended; an end clears generation, the chunks and (if `clearHuman`) the pending user message. */
  function Step(v: View, o: CM.Output, clearHuman: bool): View {
    match o
    case StreamOut(c) => v.(chunks := v.chunks + [c])
    case EndOut(_) => v.(generating := false, chunks := [], streamingHuman := if clearHuman then None else v.streamingHuman)
    case _ => v
  }

  /** The stream handler shared by the original page and the send helpers. */
  function Follow(v: View, outs: seq<CM.Output>, clearHuman: bool): (r: View)
    ensures r.input == v.input && r.attachments == v.attachments && r.editing == v.editing
    ensures r.urlInput == v.urlInput && r.urlOpen == v.urlOpen
    decreases |outs|
  {
    if |outs| == 0 then v else Follow(Step(v, outs[0], clearHuman), outs[1..], clearHuman)
  }

  /** Following a stream in two parts is following it whole. */
  lemma {:induction false} FollowAppend(v: View, a: seq<CM.Output>, b: seq<CM.Output>, clearHuman: bool)
    ensures Follow(v, a + b, clearHuman) == Follow(Follow(v, a, clearHuman), b, clearHuman)
    decreases |a|
  {
    if |a| > 0 {
      assert (a + b)[0] == a[0];
      assert (a + b)[1..] == a[1..] + b;
      FollowAppend(Step(v, a[0], clearHuman), a[1..], b, clearHuman);
    } else {
      assert a + b == b;
    }
  }

  /** Until an end arrives, every chunk is appended in order and nothing else changes. */
  lemma {:induction false} FollowWithoutEnd(v: View, outs: seq<CM.Output>, clearHuman: bool)
    requires !HasEnd(outs)
    ensures var r := Follow(v, outs, clearHuman);
      r.chunks == v.chunks + StreamChunks(outs) && r.generating == v.generating && r.streamingHuman == v.streamingHuman
    decreases |outs|
  {
    if |outs| > 0 {
      assert !HasEnd(outs[1..]);
      assert !outs[0].EndOut?;
      FollowWithoutEnd(Step(v, outs[0], clearHuman), outs[1..], clearHuman);
    }
  }

  /** A stream whose last output is an end leaves nothing generating and no chunks. */
  lemma FollowEndingInEnd(v: View, outs: seq<CM.Output>, clearHuman: bool)
    requires |outs| > 0 && outs[|outs| - 1].EndOut?
    ensures var r := Follow(v, outs, clearHuman);
      !r.generating && r.chunks == [] && (clearHuman ==> r.streamingHuman.None?)
  {
    var n := |outs| - 1;
    assert outs == outs[..n] + [outs[n]];
    FollowAppend(v, outs[..n], [outs[n]], clearHuman);
  }

  // ---------------------------------------------------------------- sending

  /** What every sender does first: mark generation, clear the composer, show the pending user message. */
  function Start(v: View, resetChunks: bool): (r: View)
    ensures r.generating && r.input == "" && r.attachments == [] && r.streamingHuman == Some(v.input)
    ensures r.chunks == (if resetChunks then [] else v.chunks)
  {
    v.(generating := true, input := "", attachments := [], streamingHuman := Some(v.input),
       chunks := if resetChunks then [] else v.chunks)
  }

  /** The outcome of following a run: a throw is caught and clears generation. */
  function Finish(v: View, run: Run, clearHuman: bool): (r: View)
    ensures run.threw ==> !r.generating
    ensures !run.threw ==> r == Follow(v, run.outputs, clearHuman)
  {
    var after := Follow(v, run.outputs, clearHuman);
    if run.threw then after.(generating := false) else after
  }

  /**
   * `generateMessage` of the chat page hooks: nothing without a session id,
   * with blank input, or while generating; otherwise start (keeping any old
   * chunks) and follow the run.
   */
  function HookSend(v: View, chatId: Option<string>, run: Run): (r: View)
    ensures !Present(chatId) || Blank(v.input) || v.generating ==> r == v
    ensures !(!Present(chatId) || Blank(v.input) || v.generating) ==>
      r == Finish(Start(v, false), run, true) && r.input == "" && r.attachments == []
  {
    if !Present(chatId) || Blank(v.input) || v.generating then v
    else Finish(Start(v, false), run, true)
  }

  /**
   * `generateMessage` of the shared chat hook: nothing without a session id
   * or while generating, nor with blank input and no attachments; otherwise
   * start (resetting the chunks) and follow the run.
   */
  function UseChatSend(v: View, chatId: Option<string>, run: Run): (r: View)
    ensures !Present(chatId) || v.generating ==> r == v
    ensures Blank(v.input) && |v.attachments| == 0 ==> r == v
    ensures Present(chatId) && !v.generating && (!Blank(v.input) || |v.attachments| > 0) ==>
      r == Finish(Start(v, true), run, true) && r.input == "" && r.attachments == []
  {
    if !Present(chatId) || v.generating then v
    else if Blank(v.input) && |v.attachments| == 0 then v
    else Finish(Start(v, true), run, true)
  }

  /** Attachments alone are sent by the shared hook but not by the page hook. */
  lemma AttachmentOnlySend(v: View, chatId: Option<string>, run: Run)
    requires Present(chatId) && !v.generating && Blank(v.input) && |v.attachments| > 0
    ensures HookSend(v, chatId, run) == v
    ensures UseChatSend(v, chatId, run).attachments == []
  {
  }

  /**
   * The page hook keeps the chunks of a run that never ended: a later send
   * that streams without an end shows them before its own.
   */
  lemma HookSendKeepsStaleChunks(v: View, chatId: Option<string>, outs: seq<CM.Output>)
    requires Present(chatId) && !Blank(v.input) && !v.generating && !HasEnd(outs)
    ensures HookSend(v, chatId, Run(outs, false)).chunks == v.chunks + StreamChunks(outs)
    ensures UseChatSend(v, chatId, Run(outs, false)).chunks == StreamChunks(outs)
  {
    FollowWithoutEnd(Start(v, false), outs, true);
    FollowWithoutEnd(Start(v, true), outs, true);
  }

  /** A run that stops without an end and without throwing leaves the page hook generating, which blocks every later send. */
  lemma StreamWithoutEndStaysGenerating(v: View, chatId: Option<string>, outs: seq<CM.Output>, next: Run)
    requires Present(chatId) && !Blank(v.input) && !v.generating && !HasEnd(outs)
    ensures var r := HookSend(v, chatId, Run(outs, false));
      r.generating && HookSend(r, chatId, next) == r
  {
    FollowWithoutEnd(Start(v, false), outs, true);
  }

  /** The original page's route after "new" is replaced by a minted id. */
  function MintRoute(routeId: Option<string>, freshId: string): (r: Option<string>)
    ensures routeId == Some("new") ==> r == Some(freshId)
    ensures routeId != Some("new") ==> r == routeId
  {
    if routeId == Some("new") then Some(freshId) else routeId
  }

  /**
   * The original page's send: on "new" mint an id and navigate to it, and
   * only then apply the page hook's guard. Returns the view and the route.
   */
  function PageSend(v: View, routeId: Option<string>, freshId: string, run: Run): (r: (View, Option<string>))
    ensures r.1 == MintRoute(routeId, freshId)
    ensures r.0 == HookSend(v, r.1, run)
  {
    var chatId := MintRoute(routeId, freshId);
    (HookSend(v, chatId, run), chatId)
  }

  /** On the original page a blank send from "new" still mints and navigates, sending nothing. */
  lemma PageBlankSendStillMints(v: View, freshId: string, run: Run)
    requires Blank(v.input)
    ensures PageSend(v, Some("new"), freshId, run) == (v, Some(freshId))
  {
  }

  /**
   * Page 2's send: the blank/generating guard comes first (no id is minted);
   * then "new" is minted; then the mutation starts, appends chunks, and in
   * its `finally` clears generation and all streaming state, whether the
   * run ended, stopped or threw.
   */
  function Page2Send(v: View, routeId: Option<string>, freshId: string, run: Run): (r: (View, Option<string>))
    ensures Blank(v.input) || v.generating ==> r == (v, routeId)
    ensures !Blank(v.input) && !v.generating && Present(MintRoute(routeId, freshId)) ==>
      r.1 == MintRoute(routeId, freshId)
      && r.0 == v.(input := "", attachments := [], generating := false, streamingHuman := None, chunks := [])
  {
    if Blank(v.input) || v.generating then (v, routeId)
    else
      var chatId := MintRoute(routeId, freshId);
      if !Present(chatId) then (v, chatId)
      else (Settle(v.(input := "", attachments := [])), chatId)
  }

  /** The mutation's `finally`: nothing generating, nothing streaming. */
  function Settle(v: View): (r: View)
    ensures !r.generating && r.streamingHuman.None? && r.chunks == []
    ensures r.input == v.input && r.attachments == v.attachments && r.editing == v.editing
  {
    v.(generating := false, streamingHuman := None, chunks := [])
  }

  /** A throw mid-stream: page 2 settles everything, the page hook only stops generating and keeps the partial chunks. */
  lemma ThrowMidStream(v: View, outs: seq<CM.Output>)
    requires !Blank(v.input) && !v.generating && !HasEnd(outs) && |StreamChunks(outs)| > 0
    ensures var p2 := Page2Send(v, Some("s"), "fresh", Run(outs, true)).0;
      !p2.generating && p2.chunks == [] && p2.streamingHuman.None?
    ensures var h := HookSend(v, Some("s"), Run(outs, true));
      !h.generating && h.chunks == v.chunks + StreamChunks(outs) && h.streamingHuman == Some(v.input)
  {
    FollowWithoutEnd(Start(v, false), outs, true);
  }

  // ---------------------------------------------------------------- transcript

  /** A stored message's `data.content`. */
  function ContentOf(m: Message): Content {
    match m
    case HumanMessage(c, _) => c
    case AiMessage(t) => Plain(t)
    case ToolMessage(_, out, _, _, _, _) => Plain(out)
  }

  /** The message with its content replaced and every other field kept. */
  function WithContent(m: Message, c: string): (r: Message)
    ensures ContentOf(r) == Plain(c)
    ensures r.HumanMessage? == m.HumanMessage? && (m.HumanMessage? ==> r.documents == m.documents)
  {
    match m
    case HumanMessage(_, docs) => HumanMessage(Plain(c), docs)
    case AiMessage(_) => AiMessage(c)
    case ToolMessage(id, _, n, st, inp, ts) => ToolMessage(id, c, n, st, inp, ts)
  }

  /** `sessions.update(id, {...session, messages, updatedAt})`: an update of a present key only. */
  function Rewrite(table: SessionTable, id: string, s: Session, msgs: seq<Message>, now: int): (r: SessionTable)
    ensures id in table ==> r == table[id := s.(messages := msgs, updatedAt := now)]
    ensures id !in table ==> r == table
  {
    if id in table then table[id := s.(messages := msgs, updatedAt := now)] else table
  }

  /**
   * The original page's save-edit: nothing without a route id, an index
   * being edited, a session, or while generating. An index past the end
   * throws and is caught. Otherwise the transcript is cut before the edited
   * message (which is dropped too), the composer shows the new text, and the
   * text is sent again without attachments.
   */
  function PageSaveEdit(table: SessionTable, v: View, routeId: Option<string>, content: string, run: Run, now: int): (r: (SessionTable, View, Option<Resubmit>))
    ensures !Present(routeId) || v.editing.None? || LiveSession(table, routeId).None? || v.generating ==> r == (table, v, None)
    ensures Present(routeId) && v.editing.Some? && LiveSession(table, routeId).Some? && !v.generating ==>
      var msgs := table[routeId.value].messages;
      var i := v.editing.value;
      && (i >= |msgs| ==> r == (table, v.(generating := false), None))
      && (i < |msgs| ==>
            && r.0 == table[routeId.value := table[routeId.value].(messages := msgs[..i], updatedAt := now)]
            && r.2 == Some(Resubmit(routeId.value, Plain(content)))
            && r.1.input == content && r.1.editing.None? && r.1.attachments == []
            && (run.threw ==> !r.1.generating)
            && (!run.threw ==>
                  r.1 == Follow(v.(input := content, editing := None, attachments := [], generating := true), run.outputs, false)))
  {
    var session := LiveSession(table, routeId);
    if !Present(routeId) || v.editing.None? || session.None? || v.generating then (table, v, None)
    else
      var i := v.editing.value;
      var msgs := session.value.messages;
      if i >= |msgs| then (table, v.(generating := false), None)
      else
        var table' := Rewrite(table, routeId.value, session.value, msgs[..i], now);
        var v' := v.(input := content, editing := None, attachments := [], generating := true);
        (table', Finish(v', run, false), Some(Resubmit(routeId.value, Plain(content))))
  }

  /**
   * The original page's regenerate: nothing without a route id, a session,
   * or while generating, nor for an index past the end. Otherwise the
   * transcript is cut before the message, whose own content is sent again.
   * Nothing catches a throw, so a failed run leaves generation on.
   */
  function PageRegenerate(table: SessionTable, v: View, routeId: Option<string>, index: nat, run: Run, now: int): (r: (SessionTable, View, Option<Resubmit>))
    ensures !Present(routeId) || LiveSession(table, routeId).None? || v.generating ==> r == (table, v, None)
    ensures LiveSession(table, routeId).Some? && index >= |table[routeId.value].messages| ==> r == (table, v, None)
    ensures LiveSession(table, routeId).Some? && !v.generating && index < |table[routeId.value].messages| ==>
      var msgs := table[routeId.value].messages;
      && r.0 == table[routeId.value := table[routeId.value].(messages := msgs[..index], updatedAt := now)]
      && r.2 == Some(Resubmit(routeId.value, ContentOf(msgs[index])))
      && r.1 == Follow(v.(generating := true), run.outputs, false)
  {
    var session := LiveSession(table, routeId);
    if !Present(routeId) || session.None? || v.generating then (table, v, None)
    else
      var msgs := session.value.messages;
      if |msgs| <= index then (table, v, None)
      else
        var table' := Rewrite(table, routeId.value, session.value, msgs[..index], now);
        var after := Follow(v.(generating := true), run.outputs, false);
        (table', after, Some(Resubmit(routeId.value, ContentOf(msgs[index]))))
  }

  /** On the original page a regenerate whose run throws before any end leaves the page generating. */
  lemma PageRegenerateThrowStaysGenerating(table: SessionTable, v: View, routeId: Option<string>, index: nat, outs: seq<CM.Output>, now: int)
    requires LiveSession(table, routeId).Some? && !v.generating && index < |table[routeId.value].messages|
    requires !HasEnd(outs)
    ensures PageRegenerate(table, v, routeId, index, Run(outs, true), now).1.generating
  {
    FollowWithoutEnd(v.(generating := true), outs, false);
  }

  /**
   * Page 2's edit: nothing without a route id, a session or an index being
   * edited (there is no generation guard); an index past the end throws
   * before anything is written. Otherwise the transcript keeps everything up
   * to and including the edited message, which gets the new content, and the
   * content is sent again.
   */
  function Page2Edit(table: SessionTable, v: View, routeId: Option<string>, content: string, run: Run, now: int): (r: (SessionTable, View, Option<Resubmit>))
    ensures LiveSession(table, routeId).None? || v.editing.None? ==> r == (table, v, None)
    ensures LiveSession(table, routeId).Some? && v.editing.Some? && v.editing.value >= |table[routeId.value].messages| ==> r == (table, v, None)
    ensures LiveSession(table, routeId).Some? && v.editing.Some? && v.editing.value < |table[routeId.value].messages| ==>
      var msgs := table[routeId.value].messages;
      var i := v.editing.value;
      && r.0 == table[routeId.value := table[routeId.value].(messages := msgs[..i] + [WithContent(msgs[i], content)], updatedAt := now)]
      && r.2 == Some(Resubmit(routeId.value, Plain(content)))
      && r.1.editing.None? && !r.1.generating && r.1.chunks == [] && r.1.streamingHuman.None?
  {
    var session := LiveSession(table, routeId);
    if session.None? || v.editing.None? then (table, v, None)
    else
      var i := v.editing.value;
      var msgs := session.value.messages;
      if i >= |msgs| then (table, v, None)
      else
        var table' := Rewrite(table, routeId.value, session.value, msgs[..i] + [WithContent(msgs[i], content)], now);
        (table', Settle(v.(editing := None)), Some(Resubmit(routeId.value, Plain(content))))
  }

  /** Page 2's regenerate: like the original page's, without the generation guard, and always settling. */
  function Page2Regenerate(table: SessionTable, v: View, routeId: Option<string>, index: nat, run: Run, now: int): (r: (SessionTable, View, Option<Resubmit>))
    ensures LiveSession(table, routeId).None? ==> r == (table, v, None)
    ensures LiveSession(table, routeId).Some? && index >= |table[routeId.value].messages| ==> r == (table, v, None)
    ensures LiveSession(table, routeId).Some? && index < |table[routeId.value].messages| ==>
      var msgs := table[routeId.value].messages;
      && r.0 == table[routeId.value := table[routeId.value].(messages := msgs[..index], updatedAt := now)]
      && r.2 == Some(Resubmit(routeId.value, ContentOf(msgs[index])))
      && !r.1.generating && r.1.chunks == [] && r.1.streamingHuman.None?
  {
    var session := LiveSession(table, routeId);
    if session.None? then (table, v, None)
    else
      var msgs := session.value.messages;
      if |msgs| <= index then (table, v, None)
      else
        var table' := Rewrite(table, routeId.value, session.value, msgs[..index], now);
        (table', Settle(v), Some(Resubmit(routeId.value, ContentOf(msgs[index]))))
  }

  /** The two pages' edits differ by exactly the edited message: page 2 keeps it with its new content. */
  lemma EditsDifferByEditedMessage(table: SessionTable, v: View, routeId: Option<string>, content: string, run: Run, now: int)
    requires LiveSession(table, routeId).Some? && v.editing.Some? && !v.generating
    requires v.editing.value < |table[routeId.value].messages|
    ensures var i := v.editing.value;
      var msgs := table[routeId.value].messages;
      var page := PageSaveEdit(table, v, routeId, content, run, now).0[routeId.value].messages;
      var page2 := Page2Edit(table, v, routeId, content, run, now).0[routeId.value].messages;
      page == msgs[..i] && page2 == page + [WithContent(msgs[i], content)]
  {
  }

  // ---------------------------------------------------------------- attachments

  /** Drop every attachment with the id, keeping the rest in order. */
  function RemoveAttachment(atts: seq<DT.Document>, docId: string): (r: seq<DT.Document>)
    ensures |r| <= |atts|
    ensures forall i :: 0 <= i < |r| ==> r[i].id != docId && r[i] in atts
    ensures forall i :: 0 <= i < |atts| && atts[i].id != docId ==> atts[i] in r
  {
    if |atts| == 0 then []
    else (if atts[0].id == docId then [] else [atts[0]]) + RemoveAttachment(atts[1..], docId)
  }

  /** Removal distributes over concatenation, so the kept attachments keep their order. */
  lemma {:induction false} RemoveAttachmentAppend(a: seq<DT.Document>, b: seq<DT.Document>, docId: string)
    ensures RemoveAttachment(a + b, docId) == RemoveAttachment(a, docId) + RemoveAttachment(b, docId)
    decreases |a|
  {
    if |a| > 0 {
      assert (a + b)[0] == a[0];
      assert (a + b)[1..] == a[1..] + b;
      RemoveAttachmentAppend(a[1..], b, docId);
    } else {
      assert a + b == b;
    }
  }

  /** Each comma-separated piece, trimmed. */
  function UrlPieces(text: string): (r: seq<string>)
    ensures |r| == |Split(text, ',')| && forall i :: 0 <= i < |r| ==> r[i] == Trim(Split(text, ',')[i])
  {
    var parts := Split(text, ',');
    seq(|parts|, i requires 0 <= i < |parts| => Trim(parts[i]))
  }

  /** The ids `ids(start)`, `ids(start + 1)`, ... of `n` uploads. */
  function UploadIds(ids: nat -> string, start: nat, n: nat): (r: seq<string>)
    ensures |r| == n && forall i :: 0 <= i < n ==> r[i] == ids(start + i)
  {
    seq(n, i requires 0 <= i < n => ids(start + i))
  }

  /** No key is already taken, and no key repeats. */
  predicate FreshKeys(taken: set<string>, keys: seq<string>) {
    && (forall i :: 0 <= i < |keys| ==> keys[i] !in taken)
    && (forall i, j :: 0 <= i < j < |keys| ==> keys[i] != keys[j])
  }

  /** Taking the first key off: the rest must avoid the taken ones and the first. */
  lemma FreshKeysStep(taken: set<string>, keys: seq<string>)
    requires |keys| > 0
    ensures FreshKeys(taken, keys) <==> keys[0] !in taken && FreshKeys(taken + {keys[0]}, keys[1..])
  {
    if keys[0] !in taken && FreshKeys(taken + {keys[0]}, keys[1..]) {
      forall i, j | 0 <= i < j < |keys| ensures keys[i] != keys[j] {
        if i > 0 {
          assert keys[i] == keys[1..][i - 1] && keys[j] == keys[1..][j - 1];
        } else {
          assert keys[j] == keys[1..][j - 1];
        }
      }
    }
  }

  lemma UploadIdsTail(ids: nat -> string, start: nat, n: nat)
    requires n > 0
    ensures UploadIds(ids, start, n)[1..] == UploadIds(ids, start + 1, n - 1)
    ensures UploadIds(ids, start, n)[0] == ids(start)
  {
    var a, b := UploadIds(ids, start, n)[1..], UploadIds(ids, start + 1, n - 1);
    assert forall i :: 0 <= i < |a| ==> a[i] == ids(start + 1 + i) == b[i];
  }

  /** Stores `after` keeps every document of `before`. */
  predicate Keeps(before: DocStore, after: DocStore) {
    forall k :: k in before.meta ==> k in after.meta && after.meta[k] == before.meta[k]
  }

  /** Each document is registered under its own id. */
  predicate Registered(st: DocStore, docs: seq<DT.Document>) {
    forall i :: 0 <= i < |docs| ==> docs[i].id in st.meta && st.meta[docs[i].id] == docs[i]
  }

  /** One document per URL, named and located by its URL, under the matching key. */
  predicate Uploaded(docs: seq<DT.Document>, urls: seq<string>, keys: seq<string>) {
    && |docs| == |urls| == |keys|
    && forall i :: 0 <= i < |docs| ==> docs[i].path == urls[i] && docs[i].name == urls[i] && docs[i].id == keys[i]
  }

  /** One step of the uploads: the first upload, then the rest on the store it leaves. */
  lemma UploadStep(st: DocStore, st1: DocStore, st2: DocStore, d: Result<DT.Document>, ds: Result<seq<DT.Document>>,
                   urls: seq<string>, keys: seq<string>)
    requires |keys| == |urls| > 0
    requires d.Ok? ==> d.value.path == urls[0] && d.value.name == urls[0]
    requires ds.Ok? ==> Uploaded(ds.value, urls[1..], keys[1..])
    requires keys[0] in st.meta ==> d.Err? && st1 == st
    requires keys[0] !in st.meta ==> d.Ok? && d.value.id == keys[0] && st1.meta == st.meta[keys[0] := d.value]
    requires Keeps(st1, st2)
    requires ds.Ok? <==> FreshKeys(st1.meta.Keys, keys[1..])
    requires ds.Ok? ==> Registered(st2, ds.value)
    ensures Keeps(st, st2)
    ensures d.Ok? && ds.Ok? <==> FreshKeys(st.meta.Keys, keys)
    ensures d.Ok? && ds.Ok? ==> Registered(st2, [d.value] + ds.value) && Uploaded([d.value] + ds.value, urls, keys)
  {
    FreshKeysStep(st.meta.Keys, keys);
    if d.Ok? {
      assert st1.meta.Keys == st.meta.Keys + {keys[0]};
      if ds.Ok? {
        var docs := [d.value] + ds.value;
        assert forall i :: 0 < i < |docs| ==> docs[i] == ds.value[i - 1] && urls[i] == urls[1..][i - 1] && keys[i] == keys[1..][i - 1];
      }
    }
  }

  /**
   * Upload each URL under the id `ids(start + k)`; fails if any upload
   * does, which happens exactly when an id is already taken or repeats.
   * Stored documents are never overwritten.
   */
  function UploadAll(st: DocStore, urls: seq<string>, ids: nat -> string, start: nat, now: int): (r: (DocStore, Result<seq<DT.Document>>))
    ensures r.0.blobs == st.blobs
    ensures Keeps(st, r.0)
    ensures r.1.Ok? <==> FreshKeys(st.meta.Keys, UploadIds(ids, start, |urls|))
    ensures r.1.Ok? ==> Uploaded(r.1.value, urls, UploadIds(ids, start, |urls|))
    ensures r.1.Ok? ==> Registered(r.0, r.1.value)
    decreases |urls|
  {
    if |urls| == 0 then (st, Ok([]))
    else
      var first := UploadUrl(st, ids(start), urls[0], now);
      var rest := UploadAll(first.0, urls[1..], ids, start + 1, now);
      UploadIdsTail(ids, start, |urls|);
      UploadStep(st, first.0, rest.0, first.1, rest.1, urls, UploadIds(ids, start, |urls|));
      if first.1.Ok? && rest.1.Ok? then (rest.0, Ok([first.1.value] + rest.1.value))
      else (rest.0, Err(if first.1.Err? then first.1.msg else rest.1.msg))
  }

  /**
   * URL attachment: blank input is ignored; otherwise every trimmed piece
   * is uploaded, and on success the new documents follow the existing
   * attachments and the URL box is cleared and closed. On failure the view
   * is unchanged.
   */
  function AttachUrls(v: View, st: DocStore, ids: nat -> string, now: int): (r: (View, DocStore))
    ensures Blank(v.urlInput) ==> r == (v, st)
    ensures !Blank(v.urlInput) && r.0 != v ==>
      var pieces := UrlPieces(v.urlInput);
      && |r.0.attachments| == |v.attachments| + |pieces|
      && r.0.attachments[..|v.attachments|] == v.attachments
      && (forall i :: 0 <= i < |pieces| ==> r.0.attachments[|v.attachments| + i].path == pieces[i])
      && r.0.urlInput == "" && !r.0.urlOpen
    ensures !Blank(v.urlInput) ==>
      var up := UploadAll(st, UrlPieces(v.urlInput), ids, 0, now);
      && r.1 == up.0
      && (up.1.Err? ==> r.0 == v)
      && (up.1.Ok? ==> r.0 == v.(attachments := v.attachments + up.1.value, urlInput := "", urlOpen := false))
  {
    if Blank(v.urlInput) then (v, st)
    else
      var pieces := UrlPieces(v.urlInput);
      var up := UploadAll(st, pieces, ids, 0, now);
      if up.1.Err? then (v, up.0)
      else
        var added := v.attachments + up.1.value;
        assert forall i :: 0 <= i < |pieces| ==> added[|v.attachments| + i] == up.1.value[i];
        (v.(attachments := added, urlInput := "", urlOpen := false), up.0)
  }

  /** Non-blank input changes the view exactly when every piece uploads. */
  lemma AttachUrlsChangesIffUploaded(v: View, st: DocStore, ids: nat -> string, now: int)
    requires !Blank(v.urlInput)
    ensures AttachUrls(v, st, ids, now).0 != v <==> UploadAll(st, UrlPieces(v.urlInput), ids, 0, now).1.Ok?
  {
    if UploadAll(st, UrlPieces(v.urlInput), ids, 0, now).1.Ok? {
      assert AttachUrls(v, st, ids, now).0.urlInput == "" != v.urlInput;
    }
  }

  // ---------------------------------------------------------------- model choice

  /** Every settings field, as a patch (the spread of a whole configuration). */
  function WholePatch(s: Settings): (p: CS.Patch)
    ensures CS.Apply(s, p) == s
    ensures forall t :: CS.Apply(t, p) == s
  {
    CS.Patch(Some(s.defaultChatModel), Some(s.enabledChatModels), Some(s.defaultEmbeddingModel),
             Some(s.enabledEmbeddingModels), Some(s.ollamaBaseUrl), Some(s.openaiApiKey), Some(s.openaiBaseUrl),
             Some(s.openaiModel), Some(s.anthropicApiKey), Some(s.geminiApiKey), Some(s.ollamaAvailable),
             Some(s.hfToken), Some(s.hfModel), Some(s.hfCustomModels))
  }

  /**
   * The original page's model change: nothing before the configuration has
   * loaded. On a missing or "new" route the configuration's default chat
   * model is rewritten (from the page's copy of the whole configuration);
   * otherwise the session's model, if the session exists. Returns the new
   * stores and the model now selected.
   */
  function PageModelChange(cfg: CS.Store, config: Option<Config>, table: SessionTable, routeId: Option<string>,
                           model: string, freshId: string, now: int): (r: (CS.Store, SessionTable, Option<string>))
    requires CS.UniqueIds(cfg.rows)
    ensures config.None? ==> r == (cfg, table, None)
    ensures config.Some? ==> r.2 == Some(model)
    ensures config.Some? && (!Present(routeId) || routeId.value == "new") ==>
      r.1 == table && r.0.current.Some? && r.0.current.value.settings == config.value.settings.(defaultChatModel := model)
    ensures config.Some? && Present(routeId) && routeId.value != "new" ==> (r.0 == cfg
      && (routeId.value in table ==> r.1 == table[routeId.value := table[routeId.value].(model := model, updatedAt := now)])
      && (routeId.value !in table ==> r.1 == table))
  {
    if config.None? then (cfg, table, None)
    else if !Present(routeId) || routeId.value == "new" then
      var patch := WholePatch(config.value.settings).(defaultChatModel := Some(model));
      var (cfg', _) := CS.UpdateConfig(cfg, patch, freshId, now);
      (cfg', table, Some(model))
    else
      var id := routeId.value;
      if id in table then (cfg, table[id := table[id].(model := model, updatedAt := now)], Some(model))
      else (cfg, table, Some(model))
  }

  /** Page 2's model change: only an existing session's model, and nothing else. */
  function Page2ModelChange(table: SessionTable, routeId: Option<string>, model: string, now: int): (r: SessionTable)
    ensures LiveSession(table, routeId).None? ==> r == table
    ensures LiveSession(table, routeId).Some? ==>
      r == table[routeId.value := table[routeId.value].(model := model, updatedAt := now)]
  {
    match LiveSession(table, routeId)
    case None => table
    case Some(s) => table[routeId.value := s.(model := model, updatedAt := now)]
  }

  /**
   * `useSelectedModel`: nothing until the configuration has loaded; the
   * default chat model on a missing or "new" route; otherwise the session's
   * model, or the default when there is no such session.
   */
  function SelectedModel(routeId: Option<string>, config: Option<Config>, table: SessionTable): (r: Option<string>)
    ensures config.None? <==> r.None?
    ensures config.Some? && (!Present(routeId) || routeId.value == "new") ==> r == Some(config.value.settings.defaultChatModel)
    ensures config.Some? && LiveSession(table, routeId).Some? ==> r == Some(LiveSession(table, routeId).value.model)
    ensures config.Some? && LiveSession(table, routeId).None? ==> r == Some(config.value.settings.defaultChatModel)
  {
    if config.None? then None
    else if !Present(routeId) || routeId.value == "new" then Some(config.value.settings.defaultChatModel)
    else if routeId.value in table then Some(table[routeId.value].model)
    else Some(config.value.settings.defaultChatModel)
  }

  /** A session whose model was cleared still selects "" rather than the default (`??` only replaces absence). */
  lemma EmptySessionModelKept(routeId: Option<string>, config: Config, table: SessionTable)
    requires LiveSession(table, routeId).Some? && table[routeId.value].model == ""
    ensures SelectedModel(routeId, Some(config), table) == Some("")
  {
  }

  // ---------------------------------------------------------------- virtual rows

  /** What a virtual row shows. */
  datatype Row = StoredRow(message: Message) | PendingRow(text: string)

  /** Page 2's row count: the transcript, plus two while a user message is pending. */
  function RowCount(msgs: seq<Message>, pending: Option<string>): (n: nat)
    ensures pending.None? ==> n == |msgs|
    ensures pending.Some? ==> n == |msgs| + 2
  {
    |msgs| + (if pending.Some? then 2 else 0)
  }

  /** Page 2's row mapping: a stored message, the pending user message just after them, else nothing. */
  function RowAt(msgs: seq<Message>, pending: Option<string>, i: nat): (r: Option<Row>)
    ensures i < |msgs| ==> r == Some(StoredRow(msgs[i]))
    ensures i == |msgs| ==> (r.Some? <==> pending.Some?)
    ensures i > |msgs| ==> r.None?
  {
    if i < |msgs| then Some(StoredRow(msgs[i]))
    else if i == |msgs| && pending.Some? then Some(PendingRow(pending.value))
    else None
  }

  /** The row counted for the streaming answer maps to nothing, so the answer is never shown while it streams. */
  lemma StreamingAnswerRowIsEmpty(msgs: seq<Message>, text: string)
    ensures var i := |msgs| + 1;
      i < RowCount(msgs, Some(text)) && RowAt(msgs, Some(text), i).None?
  {
  }
}

=== FILE: config_manager.dfy ===
/**
 * The configuration store: a table of configuration records plus one cached
 * "current" record, with the four operations initialize / get / update /
 * reset. The clock reading (`now`) and the freshly minted id (`freshId`)
 * are parameters.
 */
module ConfigStore {
  import opened Wrappers
  import opened ConfigTypes

  /** `rows` is the table in scan order; `current` is the cached record, `None` until first read. */
  datatype Store = Store(rows: seq<Config>, current: Option<Config>)

  predicate UniqueIds(rows: seq<Config>) {
    forall i, j :: 0 <= i < j < |rows| ==> rows[i].id != rows[j].id
  }

  /** The store's invariant: ids are keys, and the cached record is a stored one. */
  predicate Valid(st: Store) {
    UniqueIds(st.rows) && (st.current.Some? ==> st.current.value in st.rows)
  }

  /**
   * Index of the most recently updated row: the first row of the table
   * sorted by descending `updatedAt` (the sort is stable, so ties go to the
   * earliest row).
   */
  function MostRecent(rows: seq<Config>): (k: nat)
    requires |rows| > 0
    ensures k < |rows|
    ensures forall i :: 0 <= i < |rows| ==> rows[i].updatedAt <= rows[k].updatedAt
    ensures forall i :: 0 <= i < k ==> rows[i].updatedAt < rows[k].updatedAt
  {
    if |rows| == 1 then 0
    else
      var j := MostRecent(rows[1..]) + 1;
      if rows[0].updatedAt >= rows[j].updatedAt then 0 else j
  }

  /** A fresh configuration: the defaults, a new id, and equal creation and update stamps. */
  function NewConfig(freshId: string, now: int): (c: Config)
    ensures c.settings == DefaultSettings && c.id == freshId
    ensures c.createdAt == now && c.updatedAt == now
  {
    Config(freshId, now, now, DefaultSettings)
  }

  /** `initialize`: create the default record in an empty table, else pick the most recent one; cache it. */
  function Initialize(st: Store, freshId: string, now: int): (r: (Store, Config))
    ensures r.0.current == Some(r.1)
    ensures |st.rows| == 0 ==> r.0.rows == [r.1] && r.1 == NewConfig(freshId, now)
    ensures |st.rows| > 0 ==> r.0.rows == st.rows && r.1 in st.rows
    ensures |st.rows| > 0 ==> forall c :: c in st.rows ==> c.updatedAt <= r.1.updatedAt
  {
    if |st.rows| == 0 then
      var c := NewConfig(freshId, now);
      (Store([c], Some(c)), c)
    else
      var c := st.rows[MostRecent(st.rows)];
      (Store(st.rows, Some(c)), c)
  }

  /** `getConfig`: the cached record, initializing first while there is none. */
  function GetConfig(st: Store, freshId: string, now: int): (r: (Store, Config))
    ensures r.0.current == Some(r.1)
    ensures st.current.Some? ==> r == (st, st.current.value)
    ensures st.current.None? && |st.rows| == 0 ==> r.0.rows == [r.1] && r.1 == NewConfig(freshId, now)
    ensures st.current.None? && |st.rows| > 0 ==>
      && r.0.rows == st.rows && r.1 in st.rows
      && forall c :: c in st.rows ==> c.updatedAt <= r.1.updatedAt
    ensures Valid(st) ==> Valid(r.0)
  {
    if st.current.None? then Initialize(st, freshId, now) else (st, st.current.value)
  }

  /** Once a record is cached, reading again changes nothing, whatever the clock and id source. */
  lemma GetConfigIdempotent(st: Store, id1: string, now1: int, id2: string, now2: int)
    ensures var (st1, c1) := GetConfig(st, id1, now1);
      GetConfig(st1, id2, now2) == (st1, c1)
  {
  }

  /** `table.put(c)`: replace the row with `c`'s id, or append `c` when there is none. */
  function Put(rows: seq<Config>, c: Config): (r: seq<Config>)
    requires UniqueIds(rows)
    ensures UniqueIds(r)
    ensures c in r
    ensures forall x :: x in r ==> x == c || (x in rows && x.id != c.id)
    ensures forall x :: x in rows && x.id != c.id ==> x in r
  {
    if |rows| == 0 then [c]
    else if rows[0].id == c.id then
      assert forall x :: x in rows[1..] ==> x.id != c.id;
      [c] + rows[1..]
    else
      var tail := Put(rows[1..], c);
      assert forall x :: x in rows ==> x == rows[0] || x in rows[1..];
      [rows[0]] + tail
  }

  /** A partial update: `Some` fields replace, `None` fields keep. */
  datatype Patch = Patch(
    defaultChatModel: Option<string>,
    enabledChatModels: Option<seq<string>>,
    defaultEmbeddingModel: Option<string>,
    enabledEmbeddingModels: Option<seq<string>>,
    ollamaBaseUrl: Option<string>,
    openaiApiKey: Option<string>,
    openaiBaseUrl: Option<string>,
    openaiModel: Option<string>,
    anthropicApiKey: Option<string>,
    geminiApiKey: Option<string>,
    ollamaAvailable: Option<bool>,
    hfToken: Option<string>,
    hfModel: Option<string>,
    hfCustomModels: Option<string>)

  const NoChange := Patch(None, None, None, None, None, None, None, None, None, None, None, None, None, None)

  /** The object spread `{...s, ...p}`. */
  function Apply(s: Settings, p: Patch): Settings {
    Settings(
      p.defaultChatModel.GetOr(s.defaultChatModel),
      p.enabledChatModels.GetOr(s.enabledChatModels),
      p.defaultEmbeddingModel.GetOr(s.defaultEmbeddingModel),
      p.enabledEmbeddingModels.GetOr(s.enabledEmbeddingModels),
      p.ollamaBaseUrl.GetOr(s.ollamaBaseUrl),
      p.openaiApiKey.GetOr(s.openaiApiKey),
      p.openaiBaseUrl.GetOr(s.openaiBaseUrl),
      p.openaiModel.GetOr(s.openaiModel),
      p.anthropicApiKey.GetOr(s.anthropicApiKey),
      p.geminiApiKey.GetOr(s.geminiApiKey),
      p.ollamaAvailable.GetOr(s.ollamaAvailable),
      p.hfToken.GetOr(s.hfToken),
      p.hfModel.GetOr(s.hfModel),
      p.hfCustomModels.GetOr(s.hfCustomModels))
  }

  /** A patch that supplies every field overrides everything; the empty patch changes nothing. */
  lemma ApplyExtremes(s: Settings, t: Settings)
    ensures Apply(s, NoChange) == s
    ensures Apply(s, Patch(Some(t.defaultChatModel), Some(t.enabledChatModels), Some(t.defaultEmbeddingModel),
      Some(t.enabledEmbeddingModels), Some(t.ollamaBaseUrl), Some(t.openaiApiKey), Some(t.openaiBaseUrl),
      Some(t.openaiModel), Some(t.anthropicApiKey), Some(t.geminiApiKey), Some(t.ollamaAvailable),
      Some(t.hfToken), Some(t.hfModel), Some(t.hfCustomModels))) == t
  {
  }

  /**
   * `updateConfig`: merge the patch into the current record, restamp
   * `updatedAt`, store it and cache it.
   */
  function UpdateConfig(st: Store, p: Patch, freshId: string, now: int): (r: (Store, Config))
    requires UniqueIds(st.rows)
    ensures var cur := GetConfig(st, freshId, now).1;
      && r.1.id == cur.id && r.1.createdAt == cur.createdAt && r.1.updatedAt == now
      && r.1.settings == Apply(cur.settings, p)
    ensures r.0.current == Some(r.1) && r.1 in r.0.rows
    ensures var before := GetConfig(st, freshId, now).0.rows;
      && r.0.rows == Put(before, r.1)
      && forall x :: x in before && x.id != r.1.id ==> x in r.0.rows
    ensures Valid(r.0)
  {
    var (st1, cur) := GetConfig(st, freshId, now);
    var c := Config(cur.id, cur.createdAt, now, Apply(cur.settings, p));
    (Store(Put(st1.rows, c), Some(c)), c)
  }

  /** `resetToDefaults`: every setting back to its default; id and creation stamp kept. */
  function ResetToDefaults(st: Store, freshId: string, now: int): (r: (Store, Config))
    requires UniqueIds(st.rows)
    ensures var cur := GetConfig(st, freshId, now).1;
      r.1.id == cur.id && r.1.createdAt == cur.createdAt && r.1.updatedAt == now
    ensures r.1.settings == DefaultSettings
    ensures r.0.current == Some(r.1) && r.1 in r.0.rows
    ensures var before := GetConfig(st, freshId, now).0.rows;
      && r.0.rows == Put(before, r.1)
      && forall x :: x in before && x.id != r.1.id ==> x in r.0.rows
    ensures Valid(r.0)
  {
    var (st1, cur) := GetConfig(st, freshId, now);
    var c := Config(cur.id, cur.createdAt, now, DefaultSettings);
    (Store(Put(st1.rows, c), Some(c)), c)
  }

  /**
   * Read after write: the next read returns exactly what the update
   * returned, and with a clock that moved forward the update stamp grows.
   */
  lemma ReadAfterUpdate(st: Store, p: Patch, id1: string, now1: int, id2: string, now2: int)
    requires UniqueIds(st.rows)
    requires st.current.Some? && now1 > st.current.value.updatedAt
    ensures var (st1, c1) := UpdateConfig(st, p, id1, now1);
      && GetConfig(st1, id2, now2).1 == c1
      && c1.updatedAt > st.current.value.updatedAt
      && c1.id == st.current.value.id
  {
  }

  /** Updating with a patch that names no field keeps every setting: only `updatedAt` moves. */
  lemma EmptyUpdateKeepsSettings(st: Store, freshId: string, now: int)
    requires UniqueIds(st.rows)
    ensures UpdateConfig(st, NoChange, freshId, now).1.settings == GetConfig(st, freshId, now).1.settings
  {
    ApplyExtremes(GetConfig(st, freshId, now).1.settings, DefaultSettings);
  }

  /** Resetting after any sequence of updates gives the same settings as a fresh install. */
  lemma ResetMatchesFreshInstall(st: Store, p: Patch, freshId: string, now1: int, now2: int)
    requires UniqueIds(st.rows)
    ensures var st1 := UpdateConfig(st, p, freshId, now1).0;
      ResetToDefaults(st1, freshId, now2).1.settings == NewConfig(freshId, now2).settings
  {
  }
}

=== FILE: config_types.dfy ===
/**
 * The model catalog and the settings record: provider and modality tags,
 * chat and embedding model descriptors, the always-present base catalogs,
 * the catalogs synthesised from comma-separated custom-model strings and
 * from an Ollama tag listing, and their composition.
 */
module ConfigTypes {
  import opened Wrappers
  import opened Strs

  datatype Provider = OpenAI | Anthropic | Ollama | Gemini | HuggingFace

  datatype Modality = Image | Audio | Video | Pdf

  datatype ChatModel = ChatModel(
    name: string,
    provider: Provider,
    model: string,
    description: string,
    modalities: seq<Modality>,
    isReasoning: bool,
    reasoningArgs: Option<seq<string>>)

  datatype EmbeddingModel = EmbeddingModel(name: string, provider: Provider, model: string, description: string)

  /** Every field of a configuration except its id and its two timestamps. */
  datatype Settings = Settings(
    defaultChatModel: string,
    enabledChatModels: seq<string>,
    defaultEmbeddingModel: string,
    enabledEmbeddingModels: seq<string>,
    ollamaBaseUrl: string,
    openaiApiKey: string,
    openaiBaseUrl: string,
    openaiModel: string,
    anthropicApiKey: string,
    geminiApiKey: string,
    ollamaAvailable: bool,
    hfToken: string,
    hfModel: string,
    hfCustomModels: string)

  datatype Config = Config(id: string, createdAt: int, updatedAt: int, settings: Settings)

  /** The defaults a fresh or reset configuration takes. */
  const DefaultSettings := Settings(
    defaultChatModel := "",
    enabledChatModels := [],
    defaultEmbeddingModel := "",
    enabledEmbeddingModels := [],
    ollamaBaseUrl := "http://localhost:11434",
    openaiApiKey := "",
    openaiBaseUrl := "",
    openaiModel := "",
    anthropicApiKey := "",
    geminiApiKey := "",
    ollamaAvailable := false,
    hfToken := "",
    hfModel := "",
    hfCustomModels := "")

  /** The settings a provider's connection needs, by name. */
  datatype ConnField = OllamaBaseUrl | OpenaiApiKey | OpenaiBaseUrl | OpenaiModel | AnthropicApiKey | GeminiApiKey | HfToken | HfCustomModels

  function FieldValue(s: Settings, f: ConnField): string {
    match f
    case OllamaBaseUrl => s.ollamaBaseUrl
    case OpenaiApiKey => s.openaiApiKey
    case OpenaiBaseUrl => s.openaiBaseUrl
    case OpenaiModel => s.openaiModel
    case AnthropicApiKey => s.anthropicApiKey
    case GeminiApiKey => s.geminiApiKey
    case HfToken => s.hfToken
    case HfCustomModels => s.hfCustomModels
  }

  /** The connection arguments each provider needs. */
  function ConnArgs(p: Provider): seq<ConnField> {
    match p
    case OpenAI => [OpenaiApiKey, OpenaiBaseUrl, OpenaiModel]
    case Anthropic => [AnthropicApiKey]
    case Ollama => [OllamaBaseUrl]
    case Gemini => [GeminiApiKey]
    case HuggingFace => [HfToken, HfCustomModels]
  }

  const BaseChatModels: seq<ChatModel> := [
    ChatModel("GPT-4o", OpenAI, "gpt-4o", "OpenAI GPT-4o", [Image], false, None),
    ChatModel("GPT-4o Mini", OpenAI, "gpt-4o-mini", "OpenAI GPT-4o Mini", [Image], false, None),
    ChatModel("o3-mini", OpenAI, "o3-mini", "OpenAI o3-mini", [], true, Some(["low", "medium", "high"])),
    ChatModel("Claude 3.5 Sonnet", Anthropic, "claude-3-5-sonnet-20240620", "Anthropic Claude 3.5 Sonnet", [Image, Pdf], false, None),
    ChatModel("Claude 3.5 Haiku", Anthropic, "claude-3-5-haiku-20241022", "Anthropic Claude 3.5 Haiku", [Image, Pdf], false, None),
    ChatModel("Claude 3.7 Sonnet", Anthropic, "claude-3-7-sonnet-20250219", "Anthropic Claude 3.7 Sonnet", [Image, Pdf], true,
              Some(["disabled", "low", "medium", "high"])),
    ChatModel("Gemini 2.0 Flash", Gemini, "gemini-2.0-flash", "Google Gemini 2.0 Flash", [Image, Pdf, Audio, Video], false, None),
    ChatModel("Gemini 2.0 Flash Lite", Gemini, "gemini-2.0-flash-lite-preview-02-05", "Google Gemini 2.0 Flash Lite",
              [Image, Pdf, Audio, Video], false, None),
    ChatModel("Gemini 2.0 Pro Exp", Gemini, "gemini-2.0-pro-exp-02-05", "Google Gemini 2.0 Pro Exp", [Image, Pdf, Audio, Video], false, None),
    ChatModel("Gemini 2.0 Flash Thinking Exp", Gemini, "gemini-2.0-flash-thinking-exp-01-21", "Google Gemini 2.0 Flash Thinking Exp",
              [Image, Pdf, Audio, Video], false, None),
    ChatModel("Hugging Face - Mistral", HuggingFace, "mistralai/Mistral-7B-Instruct-v0.2", "Mistral AI 7B Instruct model", [], false, None),
    ChatModel("Hugging Face - Llama 2", HuggingFace, "meta-llama/Llama-2-7b-chat-hf", "Meta Llama 2 7B Chat", [], false, None)
  ]

  const BaseEmbeddingModels: seq<EmbeddingModel> := [
    EmbeddingModel("OpenAI Embeddings", OpenAI, "text-embedding-3-small", "OpenAI Embeddings"),
    EmbeddingModel("Gemini Embeddings", Gemini, "text-embedding-005", "Google GenAI Embeddings")
  ]

  /** No base model is served by Ollama: Ollama models only come from a probe. */
  lemma BaseCatalogsHaveNoOllama()
    ensures forall i :: 0 <= i < |BaseChatModels| ==> BaseChatModels[i].provider != Ollama
    ensures forall i :: 0 <= i < |BaseEmbeddingModels| ==> BaseEmbeddingModels[i].provider != Ollama
  {
  }

  /** The trimmed pieces of a comma-separated custom-model string. */
  function CustomIds(list: string): (ids: seq<string>)
    ensures |ids| == |Split(list, ',')|
    ensures forall i :: 0 <= i < |ids| ==> ids[i] == Trim(Split(list, ',')[i])
  {
    var pieces := Split(list, ',');
    seq(|pieces|, i requires 0 <= i < |pieces| => Trim(pieces[i]))
  }

  function CustomOpenAIModel(id: string): ChatModel {
    ChatModel("Custom: " + id, OpenAI, id, "Custom OpenAI model: " + id, [Image], false, None)
  }

  /** Custom OpenAI chat models, one per comma-separated piece of `list`. */
  function CustomOpenAIModels(list: string): (r: seq<ChatModel>)
    ensures Blank(list) ==> r == []
    ensures !Blank(list) ==> |r| == |Split(list, ',')|
    ensures !Blank(list) ==> forall i :: 0 <= i < |r| ==>
      && r[i].model == Trim(Split(list, ',')[i])
      && r[i].name == "Custom: " + r[i].model
      && r[i].provider == OpenAI && r[i].modalities == [Image] && !r[i].isReasoning
  {
    if Blank(list) then []
    else
      var ids := CustomIds(list);
      seq(|ids|, i requires 0 <= i < |ids| => CustomOpenAIModel(ids[i]))
  }

  /** The short name shown for a custom Hugging Face id: its last `/` piece, or the whole id if that piece is empty. */
  function HfShortName(id: string): (r: string)
    ensures LastPiece(id, '/') != "" ==> r == LastPiece(id, '/')
    ensures LastPiece(id, '/') == "" ==> r == id
  {
    var last := LastPiece(id, '/');
    if last != "" then last else id
  }

  /** The short name is a suffix of the id; it is slash-free unless the id ends in `/`. */
  lemma HfShortNameIsSuffix(id: string)
    ensures |HfShortName(id)| <= |id| && HfShortName(id) == id[|id| - |HfShortName(id)|..]
    ensures (id == [] || id[|id| - 1] != '/') ==> '/' !in HfShortName(id)
  {
    LastPieceIsSuffix(id, '/');
    var last := LastPiece(id, '/');
    if last == "" && id != [] {
      assert id[|id| - 1] == '/';
    }
  }

  function CustomHfModel(id: string): ChatModel {
    ChatModel("HF Custom: " + HfShortName(id), HuggingFace, id, "Custom Hugging Face model: " + id, [Image], false, None)
  }

  /** Custom Hugging Face chat models, one per comma-separated piece of `list`. */
  function CustomHuggingFaceModels(list: string): (r: seq<ChatModel>)
    ensures Blank(list) ==> r == []
    ensures !Blank(list) ==> |r| == |Split(list, ',')|
    ensures !Blank(list) ==> forall i :: 0 <= i < |r| ==>
      && r[i].model == Trim(Split(list, ',')[i])
      && r[i].name == "HF Custom: " + HfShortName(r[i].model)
      && r[i].provider == HuggingFace && r[i].modalities == [Image] && !r[i].isReasoning
  {
    if Blank(list) then []
    else
      var ids := CustomIds(list);
      seq(|ids|, i requires 0 <= i < |ids| => CustomHfModel(ids[i]))
  }

  /**
   * When every comma-separated piece is already trimmed, the custom model
   * ids joined back with commas give the original string.
   */
  lemma CustomIdsRoundTrip(list: string)
    requires forall i :: 0 <= i < |Split(list, ',')| ==> Trim(Split(list, ',')[i]) == Split(list, ',')[i]
    ensures Join(CustomIds(list), ',') == list
  {
    var pieces := Split(list, ',');
    assert CustomIds(list) == pieces;
    JoinSplit(list, ',');
  }

  /**
   * The chat models an Ollama server lists, one per tag. `probe` is the
   * tag listing of `GET {baseUrl}/api/tags`, `None` when the request failed.
   */
  function OllamaChatModels(baseUrl: string, probe: Option<seq<string>>): (r: seq<ChatModel>)
    ensures Blank(baseUrl) || probe.None? ==> r == []
    ensures !Blank(baseUrl) && probe.Some? ==> |r| == |probe.value|
    ensures forall i :: 0 <= i < |r| ==>
      && r[i].name == probe.value[i] && r[i].model == probe.value[i]
      && r[i].provider == Ollama && r[i].modalities == [] && !r[i].isReasoning
  {
    if Blank(baseUrl) || probe.None? then []
    else
      var tags := probe.value;
      seq(|tags|, i requires 0 <= i < |tags| => ChatModel(tags[i], Ollama, tags[i], "Ollama model", [], false, None))
  }

  /** The embedding models an Ollama server lists, one per tag. */
  function OllamaEmbeddingModels(baseUrl: string, probe: Option<seq<string>>): (r: seq<EmbeddingModel>)
    ensures Blank(baseUrl) || probe.None? ==> r == []
    ensures !Blank(baseUrl) && probe.Some? ==> |r| == |probe.value|
    ensures forall i :: 0 <= i < |r| ==>
      r[i].name == probe.value[i] && r[i].model == probe.value[i] && r[i].provider == Ollama
  {
    if Blank(baseUrl) || probe.None? then []
    else
      var tags := probe.value;
      seq(|tags|, i requires 0 <= i < |tags| => EmbeddingModel(tags[i], Ollama, tags[i], "Ollama Embeddings"))
  }

  datatype Catalog = Catalog(ollamaAvailable: bool, chatModels: seq<ChatModel>, embeddingModels: seq<EmbeddingModel>)

  /** The catalog in force before any load, and after a failed one. */
  const BaseCatalog := Catalog(false, BaseChatModels, BaseEmbeddingModels)

  /**
   * The catalog rebuilt from the stored configuration (`None` when reading
   * it failed) and the explicit arguments, which override the stored
   * values. `chatProbe` and `embeddingProbe` are the two tag listings
   * fetched from the Ollama server.
   */
  function LoadAllModels(
    ollamaBaseUrl: Option<string>, openaiModel: Option<string>, hfCustomModels: Option<string>,
    config: Option<Config>, chatProbe: Option<seq<string>>, embeddingProbe: Option<seq<string>>): (r: Catalog)
    ensures config.None? ==> r == BaseCatalog
    ensures |BaseChatModels| <= |r.chatModels| && r.chatModels[..|BaseChatModels|] == BaseChatModels
    ensures |BaseEmbeddingModels| <= |r.embeddingModels| && r.embeddingModels[..|BaseEmbeddingModels|] == BaseEmbeddingModels
    ensures r.ollamaAvailable <==> exists i :: 0 <= i < |r.chatModels| && r.chatModels[i].provider == Ollama
    ensures config.Some? ==>
      var s := config.value.settings;
      var url := if ollamaBaseUrl.None? then s.ollamaBaseUrl else ollamaBaseUrl.value;
      && r.chatModels == BaseChatModels + (if !Blank(url) then OllamaChatModels(url, chatProbe) else [])
           + CustomOpenAIModels(OrElse(openaiModel, s.openaiModel))
           + CustomHuggingFaceModels(OrElse(hfCustomModels, s.hfCustomModels))
      && r.embeddingModels == BaseEmbeddingModels + (if !Blank(url) then OllamaEmbeddingModels(url, embeddingProbe) else [])
  {
    if config.None? then BaseCatalog
    else
      var s := config.value.settings;
      var url := if ollamaBaseUrl.None? then s.ollamaBaseUrl else ollamaBaseUrl.value;
      var ollama := if !Blank(url) then OllamaChatModels(url, chatProbe) else [];
      var ollamaEmbedding := if !Blank(url) then OllamaEmbeddingModels(url, embeddingProbe) else [];
      Compose(ollama, CustomOpenAIModels(OrElse(openaiModel, s.openaiModel)),
        CustomHuggingFaceModels(OrElse(hfCustomModels, s.hfCustomModels)), ollamaEmbedding)
  }

  /** The catalog after a successful load: the base models first, then the probed and the custom ones. */
  function Compose(ollama: seq<ChatModel>, customOpenAI: seq<ChatModel>, customHf: seq<ChatModel>,
                   ollamaEmbedding: seq<EmbeddingModel>): (r: Catalog)
    requires forall i :: 0 <= i < |ollama| ==> ollama[i].provider == Ollama
    requires forall i :: 0 <= i < |customOpenAI| ==> customOpenAI[i].provider == OpenAI
    requires forall i :: 0 <= i < |customHf| ==> customHf[i].provider == HuggingFace
    ensures |BaseChatModels| <= |r.chatModels| && r.chatModels[..|BaseChatModels|] == BaseChatModels
    ensures |BaseEmbeddingModels| <= |r.embeddingModels| && r.embeddingModels[..|BaseEmbeddingModels|] == BaseEmbeddingModels
    ensures r.ollamaAvailable <==> exists i :: 0 <= i < |r.chatModels| && r.chatModels[i].provider == Ollama
    ensures r.chatModels == BaseChatModels + ollama + customOpenAI + customHf
    ensures r.embeddingModels == BaseEmbeddingModels + ollamaEmbedding
    ensures ollama == [] ==> r.chatModels == BaseChatModels + customOpenAI + customHf
    ensures ollamaEmbedding == [] ==> r.embeddingModels == BaseEmbeddingModels
  {
    var chat := BaseChatModels + ollama + customOpenAI + customHf;
    LoadFacts(ollama, customOpenAI, customHf);
    assert chat[..|BaseChatModels|] == BaseChatModels;
    assert ollama == [] ==> chat == BaseChatModels + customOpenAI + customHf;
    Catalog(|ollama| > 0, chat, BaseEmbeddingModels + ollamaEmbedding)
  }

  lemma LoadFacts(ollama: seq<ChatModel>, customOpenAI: seq<ChatModel>, customHf: seq<ChatModel>)
    requires forall i :: 0 <= i < |ollama| ==> ollama[i].provider == Ollama
    requires forall i :: 0 <= i < |customOpenAI| ==> customOpenAI[i].provider == OpenAI
    requires forall i :: 0 <= i < |customHf| ==> customHf[i].provider == HuggingFace
    ensures var chat := BaseChatModels + ollama + customOpenAI + customHf;
      (|ollama| > 0 <==> exists i :: 0 <= i < |chat| && chat[i].provider == Ollama)
  {
    var chat := BaseChatModels + ollama + customOpenAI + customHf;
    BaseCatalogsHaveNoOllama();
    if |ollama| > 0 {
      assert chat[|BaseChatModels|] == ollama[0];
    }
    if |ollama| == 0 {
      forall i | 0 <= i < |chat|
        ensures chat[i].provider != Ollama
      {
        if i >= |BaseChatModels| {
          var j := i - |BaseChatModels|;
          if j < |customOpenAI| {
            assert chat[i] == customOpenAI[j];
          } else {
            assert chat[i] == customHf[j - |customOpenAI|];
          }
        }
      }
    }
  }

  /** With a blank Ollama URL nothing is probed: the chat catalog is the base plus the custom models, and Ollama is unavailable. */
  lemma BlankOllamaUrlLoad(openaiModel: Option<string>, hfCustomModels: Option<string>, config: Config,
                           chatProbe: Option<seq<string>>, embeddingProbe: Option<seq<string>>)
    requires Blank(config.settings.ollamaBaseUrl)
    ensures var r := LoadAllModels(None, openaiModel, hfCustomModels, Some(config), chatProbe, embeddingProbe);
      && !r.ollamaAvailable
      && r.chatModels == BaseChatModels
           + CustomOpenAIModels(OrElse(openaiModel, config.settings.openaiModel))
           + CustomHuggingFaceModels(OrElse(hfCustomModels, config.settings.hfCustomModels))
      && r.embeddingModels == BaseEmbeddingModels
  {
  }

  /** Ollama is available exactly when a configuration was read, its URL is set, and the server listed at least one tag. */
  lemma OllamaAvailableIffListed(ollamaBaseUrl: Option<string>, openaiModel: Option<string>, hfCustomModels: Option<string>,
                                 config: Option<Config>, chatProbe: Option<seq<string>>, embeddingProbe: Option<seq<string>>)
    ensures var r := LoadAllModels(ollamaBaseUrl, openaiModel, hfCustomModels, config, chatProbe, embeddingProbe);
      r.ollamaAvailable <==>
        && config.Some?
        && !Blank(if ollamaBaseUrl.None? then config.value.settings.ollamaBaseUrl else ollamaBaseUrl.value)
        && chatProbe.Some? && |chatProbe.value| > 0
  {
    var r := LoadAllModels(ollamaBaseUrl, openaiModel, hfCustomModels, config, chatProbe, embeddingProbe);
    BaseCatalogsHaveNoOllama();
    if config.Some? {
      var s := config.value.settings;
      var url := if ollamaBaseUrl.None? then s.ollamaBaseUrl else ollamaBaseUrl.value;
      var ollama := if !Blank(url) then OllamaChatModels(url, chatProbe) else [];
      LoadFacts(ollama, CustomOpenAIModels(OrElse(openaiModel, s.openaiModel)),
        CustomHuggingFaceModels(OrElse(hfCustomModels, s.hfCustomModels)));
    } else {
      forall i | 0 <= i < |r.chatModels| ensures r.chatModels[i].provider != Ollama {
      }
    }
  }

  /** `CHAT_MODELS.find(m => m.model === id)`: the first model with that id. */
  function FindChatModel(models: seq<ChatModel>, id: string): (r: Option<ChatModel>)
    ensures r.None? <==> forall i :: 0 <= i < |models| ==> models[i].model != id
    ensures r.Some? ==> r.value.model == id
    ensures r.Some? ==> exists k :: 0 <= k < |models| && models[k] == r.value && (forall i :: 0 <= i < k ==> models[i].model != id)
  {
    if |models| == 0 then None
    else if models[0].model == id then Some(models[0])
    else
      var r := FindChatModel(models[1..], id);
      if r.Some? then
        var k :| 0 <= k < |models[1..]| && models[1..][k] == r.value && (forall i :: 0 <= i < k ==> models[1..][i].model != id);
        assert models[k + 1] == r.value;
        r
      else r
  }

  /** `EMBEDDING_MODELS.find(m => m.model === id)`: the first model with that id. */
  function FindEmbeddingModel(models: seq<EmbeddingModel>, id: string): (r: Option<EmbeddingModel>)
    ensures r.None? <==> forall i :: 0 <= i < |models| ==> models[i].model != id
    ensures r.Some? ==> r.value.model == id
    ensures r.Some? ==> exists k :: 0 <= k < |models| && models[k] == r.value && (forall i :: 0 <= i < k ==> models[i].model != id)
  {
    if |models| == 0 then None
    else if models[0].model == id then Some(models[0])
    else
      var r := FindEmbeddingModel(models[1..], id);
      if r.Some? then
        var k :| 0 <= k < |models[1..]| && models[1..][k] == r.value && (forall i :: 0 <= i < k ==> models[1..][i].model != id);
        assert models[k + 1] == r.value;
        r
      else r
  }
}

=== FILE: document_manager.dfy ===
/**
 * The document store: MIME classification, file and URL uploads into a
 * metadata registry plus a blob store, lookup with its not-found error, and
 * loading through a type-specific parser with provenance stamped on every
 * extracted unit.
 */
module Documents {
  import opened Wrappers
  import opened Strs
  import opened DocumentTypes

  type Bytes = seq<bv8>

  /** The registry (metadata keyed by id) and the file system (bytes keyed by path). */
  datatype DocStore = DocStore(meta: map<string, Document>, blobs: map<string, Bytes>)

  /** A browser `File`: name, MIME type and contents. */
  datatype File = File(name: string, mimeType: string, bytes: Bytes)

  /** The MIME types mapped to an extension before the table is consulted. */
  function MimeToExtension(mime: string): Option<string> {
    if mime == "application/pdf" then Some("pdf")
    else if mime == "application/msword" then Some("docx")
    else if mime == "application/vnd.openxmlformats-officedocument.wordprocessingml.document" then Some("docx")
    else if mime == "text/plain" then Some("txt")
    else if mime == "text/html" then Some("html")
    else if mime == "text/markdown" then Some("markdown")
    else None
  }

  /** The first type, in table order, whose extension list contains `ext`. */
  function FirstClaiming(order: seq<DocumentType>, ext: string): (r: Option<DocumentType>)
    ensures r.None? <==> forall i :: 0 <= i < |order| ==> ext !in Extensions(order[i])
    ensures r.Some? ==> exists k :: (0 <= k < |order| && order[k] == r.value && ext in Extensions(r.value)
      && (forall i :: 0 <= i < k ==> ext !in Extensions(order[i])))
  {
    if |order| == 0 then None
    else if ext in Extensions(order[0]) then Some(order[0])
    else
      var tail := order[1..];
      var r := FirstClaiming(tail, ext);
      assert forall i :: 1 <= i < |order| ==> order[i] == tail[i - 1];
      if r.Some? then
        var k :| 0 <= k < |tail| && tail[k] == r.value && ext in Extensions(r.value)
          && (forall i :: 0 <= i < k ==> ext !in Extensions(tail[i]));
        assert order[k + 1] == r.value;
        r
      else r
  }

  /** The `subtype` half of `type/subtype`, absent when the string has no `/`. */
  function Subtype(mime: string): Option<string> {
    var parts := Split(mime, '/');
    if |parts| > 1 then Some(parts[1]) else None
  }

  /** The extension the table is searched for. */
  function ClassifierKey(mime: string): Option<string> {
    if MimeToExtension(mime).Some? then MimeToExtension(mime) else Subtype(mime)
  }

  /**
   * `getDocumentType`: image, video and audio by top-level type; otherwise
   * the first table entry claiming the mapped extension or the subtype;
   * otherwise plain text.
   */
  function GetDocumentType(mime: string): (r: DocumentType)
    ensures var top := Split(mime, '/')[0];
      && (top == "image" ==> r == Image)
      && (top == "video" ==> r == Video)
      && (top == "audio" ==> r == Audio)
    ensures var top := Split(mime, '/')[0];
      top != "image" && top != "video" && top != "audio" ==>
        match ClassifierKey(mime)
        case None => r == Txt
        case Some(ext) =>
          (exists k :: 0 <= k < |TypeOrder| && TypeOrder[k] == r && ext in Extensions(r)
             && (forall i :: 0 <= i < k ==> ext !in Extensions(TypeOrder[i])))
          || (r == Txt && forall i :: 0 <= i < |TypeOrder| ==> ext !in Extensions(TypeOrder[i]))
  {
    var top := Split(mime, '/')[0];
    if top == "image" then Image
    else if top == "video" then Video
    else if top == "audio" then Audio
    else
      match ClassifierKey(mime)
      case None => Txt
      case Some(ext) => FirstClaiming(TypeOrder, ext).GetOr(Txt)
  }

  /** A top-level type followed by `/` and a subtype without `/` splits into exactly those two pieces. */
  lemma TopLevelOf(top: string, sub: string)
    requires '/' !in top && '/' !in sub
    ensures Split(top + "/" + sub, '/')[0] == top
    ensures Subtype(top + "/" + sub) == Some(sub)
  {
    assert top + "/" + sub == Join([top, sub], '/');
    SplitJoin([top, sub], '/');
  }

  /** Outside the media types, the classification is the first table entry claiming the key, else text. */
  lemma ClassifiedByKey(mime: string, ext: string)
    requires Split(mime, '/')[0] != "image" && Split(mime, '/')[0] != "video" && Split(mime, '/')[0] != "audio"
    requires ClassifierKey(mime) == Some(ext)
    ensures GetDocumentType(mime) == FirstClaiming(TypeOrder, ext).GetOr(Txt)
  {
  }

  /** The explicit mapping of the legacy Word MIME type. */
  lemma MswordKey(m: string)
    requires m == "application/msword"
    ensures ClassifierKey(m) == Some("docx")
  {
    assert |m| == 18 && |"application/pdf"| == 15;
    assert MimeToExtension(m) == Some("docx");
  }

  /** The docx entry, second in table order, is the first to claim "docx". */
  lemma DocxClaim()
    ensures FirstClaiming(TypeOrder, "docx") == Some(Docx)
  {
    assert Extensions(TypeOrder[0]) == ["pdf"];
    assert Extensions(TypeOrder[1]) == ["docx"];
  }

  /** The legacy Word MIME type classifies as docx, through the explicit mapping. */
  lemma WordTypes(mime: string)
    requires mime == "application/msword"
    ensures GetDocumentType(mime) == Docx
  {
    WordTop(mime);
    MswordKey(mime);
    DocxClaim();
    ClassifiedByKey(mime, "docx");
  }

  /** `application/msword` has top-level type "application", which is not a media type. */
  lemma WordTop(m: string)
    requires m == "application/msword"
    ensures var top := Split(m, '/')[0];
      top == "application" && top != "image" && top != "video" && top != "audio"
  {
    var app, sub := "application", "msword";
    assert '/' !in app && '/' !in sub;
    assert m == app + "/" + sub;
    TopLevelOf(app, sub);
    assert |app| == 11;
  }

  /** No type's extension list contains "markdown" (the markdown entry lists "md" and "mdx"). */
  lemma MarkdownUnclaimed(t: DocumentType)
    ensures "markdown" !in Extensions(t)
  {
    match t
    case Markdown => assert Extensions(t) == ["md", "mdx"];
    case _ =>
  }

  /** Hence the table search for "markdown" finds nothing. */
  lemma MarkdownNotInTable()
    ensures FirstClaiming(TypeOrder, "markdown") == None
  {
    forall i | 0 <= i < |TypeOrder|
      ensures "markdown" !in Extensions(TypeOrder[i])
    {
      MarkdownUnclaimed(TypeOrder[i]);
    }
  }

  /** The explicit mapping of the markdown MIME type. */
  lemma MarkdownKey(m: string)
    requires m == "text/markdown"
    ensures ClassifierKey(m) == Some("markdown")
  {
    assert |m| == 13 && m[0] == 't' && m[5] == 'm';
    assert m != "application/pdf" && m != "application/msword";
    assert m != "application/vnd.openxmlformats-officedocument.wordprocessingml.document";
    assert m != "text/plain" && m != "text/html";
    assert MimeToExtension(m) == Some("markdown");
  }

  /** Markdown is mapped to the extension "markdown", which no entry claims: it classifies as plain text. */
  lemma MarkdownIsText(mime: string)
    requires mime == "text/markdown"
    ensures GetDocumentType(mime) == Txt
  {
    MarkdownTop(mime);
    MarkdownKey(mime);
    MarkdownNotInTable();
    ClassifiedByKey(mime, "markdown");
  }

  /** `text/markdown` has top-level type "text". */
  lemma MarkdownTop(m: string)
    requires m == "text/markdown"
    ensures var top := Split(m, '/')[0];
      top == "text" && top != "image" && top != "video" && top != "audio"
  {
    var sub := "markdown";
    assert '/' !in sub;
    assert m == "text/" + sub;
    TextTopLevel(sub);
  }

  /** `text/<sub>` has top-level type "text", which is not a media type. */
  lemma TextTopLevel(sub: string)
    requires '/' !in sub
    ensures var top := Split("text/" + sub, '/')[0];
      top == "text" && top != "image" && top != "video" && top != "audio"
  {
    TopLevelOf("text", sub);
    assert "text" + "/" + sub == "text/" + sub;
  }

  /** Any image, video or audio MIME type classifies by its top-level type, whatever the subtype. */
  lemma MediaByTopLevel(sub: string)
    requires '/' !in sub
    ensures GetDocumentType("image/" + sub) == Image
    ensures GetDocumentType("video/" + sub) == Video
    ensures GetDocumentType("audio/" + sub) == Audio
  {
    MediaTop("image", "image/", sub);
    MediaTop("video", "video/", sub);
    MediaTop("audio", "audio/", sub);
  }

  /** A media top-level type glued to a subtype without `/` classifies as that medium. */
  lemma MediaTop(top: string, prefix: string, sub: string)
    requires top == "image" || top == "video" || top == "audio"
    requires prefix == top + "/" && '/' !in sub
    ensures var r := GetDocumentType(prefix + sub);
      (top == "image" ==> r == Image) && (top == "video" ==> r == Video) && (top == "audio" ==> r == Audio)
  {
    assert prefix + sub == top + "/" + sub;
    assert top[0] != '/' && top[1] != '/' && top[2] != '/' && top[3] != '/' && top[4] != '/';
    TopLevelOf(top, sub);
  }

  /** The file-name suffix of an upload: the MIME subtype, or "undefined" when there is none. */
  function PathSuffix(mime: string): string {
    Subtype(mime).GetOr("undefined")
  }

  /**
   * `uploadDocument`: write the bytes under `documents/<id>.<subtype>`, then
   * add the metadata; the add fails on an id already present, after the
   * bytes were written.
   */
  function UploadDocument(st: DocStore, fileId: string, file: File, now: int): (r: (DocStore, Result<Document>))
    ensures var path := "documents/" + fileId + "." + PathSuffix(file.mimeType);
      && r.0.blobs == st.blobs[path := file.bytes]
      && (fileId in st.meta ==> r.1.Err? && r.0.meta == st.meta)
      && (fileId !in st.meta ==> r.1 == Ok(Document(fileId, file.name, path, GetDocumentType(file.mimeType), now))
                                 && r.0.meta == st.meta[fileId := r.1.value])
  {
    var path := "documents/" + fileId + "." + PathSuffix(file.mimeType);
    var blobs := st.blobs[path := file.bytes];
    if fileId in st.meta then (DocStore(st.meta, blobs), Err("Key already exists in the object store."))
    else
      var doc := Document(fileId, file.name, path, GetDocumentType(file.mimeType), now);
      (DocStore(st.meta[fileId := doc], blobs), Ok(doc))
  }

  /**
   * Fetching a freshly uploaded file gives back its name and bytes; its
   * MIME type is the guess from the name or, failing that, the key of the
   * type the upload classified it as.
   */
  lemma UploadThenGet(st: DocStore, fileId: string, file: File, now: int, mimeOf: string -> Option<string>)
    requires fileId !in st.meta
    ensures var st' := UploadDocument(st, fileId, file, now).0;
      GetDocument(st', fileId, mimeOf) == Ok(File(file.name, OrElse(mimeOf(file.name), Key(GetDocumentType(file.mimeType))), file.bytes))
  {
  }

  /** Loading a freshly uploaded file hands its bytes to the parser of its classified type and stamps what comes back. */
  lemma UploadThenLoad(st: DocStore, fileId: string, file: File, now: int, mimeOf: string -> Option<string>,
                       parse: (Loader, Source) -> Result<seq<string>>)
    requires fileId !in st.meta
    ensures var (st', doc) := UploadDocument(st, fileId, file, now);
      var t := GetDocumentType(file.mimeType);
      var fetched := File(file.name, OrElse(mimeOf(file.name), Key(t)), file.bytes);
      && doc.Ok?
      && (t != Youtube ==>
            LoadDocument(st', fileId, mimeOf, parse) ==
              (match parse(LoaderFor(t), FromFile(fetched))
               case Ok(pages) => Ok(Stamp(doc.value, pages))
               case Err(e) => Err(e)))
  {
    UploadThenGet(st, fileId, file, now, mimeOf);
  }

  /** `uploadUrl`: a YouTube link or a generic URL, named and located by the URL itself; no bytes stored. */
  function UploadUrl(st: DocStore, fileId: string, url: string, now: int): (r: (DocStore, Result<Document>))
    ensures r.0.blobs == st.blobs
    ensures fileId in st.meta ==> r.1.Err? && r.0 == st
    ensures fileId !in st.meta ==> r.1.Ok? && r.0.meta == st.meta[fileId := r.1.value]
    ensures r.1.Ok? ==> var d := r.1.value;
      && d.id == fileId && d.name == url && d.path == url && d.createdAt == now
      && (d.docType == Youtube <==> Contains(url, "youtube.com") || Contains(url, "youtu.be"))
      && (d.docType == Youtube || d.docType == Url)
  {
    if fileId in st.meta then (st, Err("Key already exists in the object store."))
    else
      var t := if Contains(url, "youtube.com") || Contains(url, "youtu.be") then Youtube else Url;
      var doc := Document(fileId, url, url, t, now);
      (DocStore(st.meta[fileId := doc], st.blobs), Ok(doc))
  }

  /**
   * `getDocument`: the stored bytes as a file. Its MIME type is the guess
   * from the file name (`mimeOf`, a lookup outside this model) or,
   * failing that, the document's type key.
   */
  function GetDocument(st: DocStore, id: string, mimeOf: string -> Option<string>): (r: Result<File>)
    ensures id !in st.meta ==> r == Err("Document not found")
    ensures id in st.meta && st.meta[id].path !in st.blobs ==> r.Err?
    ensures r.Ok? <==> id in st.meta && st.meta[id].path in st.blobs
    ensures r.Ok? ==> (r.value.name == st.meta[id].name && r.value.bytes == st.blobs[st.meta[id].path]
      && r.value.mimeType == OrElse(mimeOf(st.meta[id].name), Key(st.meta[id].docType)))
  {
    if id !in st.meta then Err("Document not found")
    else
      var doc := st.meta[id];
      if doc.path !in st.blobs then Err("ENOENT: no such file or directory")
      else
        var mime := OrElse(mimeOf(doc.name), Key(doc.docType));
        Ok(File(doc.name, mime, st.blobs[doc.path]))
  }

  /** The parsers `loadDocument` picks between. */
  datatype Loader = PdfLoader | YoutubeLoader | DocxLoader | DocLoader | TextLoader

  /** What a parser reads: the stored file, or (YouTube) the URL. */
  datatype Source = FromFile(file: File) | FromUrl(url: string)

  /** The parser for each type: every type without its own parser goes to the text parser. */
  function LoaderFor(t: DocumentType): (l: Loader)
    ensures l == PdfLoader <==> t == Pdf
    ensures l == YoutubeLoader <==> t == Youtube
    ensures l == DocxLoader <==> t == Docx
    ensures l == DocLoader <==> t == Doc
  {
    match t
    case Pdf => PdfLoader
    case Youtube => YoutubeLoader
    case Docx => DocxLoader
    case Doc => DocLoader
    case _ => TextLoader
  }

  /** The uniform provenance stamped on every extracted unit. */
  datatype Provenance = Provenance(id: string, name: string, source: string, docType: DocumentType, createdAt: int)

  /** One extracted piece of text and its provenance. */
  datatype Unit = Unit(pageContent: string, metadata: Provenance)

  function Stamp(doc: Document, pages: seq<string>): (units: seq<Unit>)
    ensures |units| == |pages|
    ensures forall i :: 0 <= i < |units| ==> units[i].pageContent == pages[i]
    ensures forall i :: 0 <= i < |units| ==> units[i].metadata == Provenance(doc.id, doc.name, doc.path, doc.docType, doc.createdAt)
  {
    seq(|pages|, i requires 0 <= i < |pages| => Unit(pages[i], Provenance(doc.id, doc.name, doc.path, doc.docType, doc.createdAt)))
  }

  /**
   * `loadDocument`: look the document up, hand its file (or, for YouTube,
   * its URL) to the type's parser, and stamp each extracted unit with the
   * document's provenance. `parse` stands for the parsers themselves.
   */
  function LoadDocument(st: DocStore, id: string, mimeOf: string -> Option<string>,
                        parse: (Loader, Source) -> Result<seq<string>>): (r: Result<seq<Unit>>)
    ensures id !in st.meta ==> r == Err("Document not found")
    ensures r.Ok? ==> var doc := st.meta[id];
      forall i :: 0 <= i < |r.value| ==> r.value[i].metadata == Provenance(doc.id, doc.name, doc.path, doc.docType, doc.createdAt)
    ensures id in st.meta && st.meta[id].docType == Youtube ==>
      r == (match parse(YoutubeLoader, FromUrl(st.meta[id].path))
            case Ok(pages) => Ok(Stamp(st.meta[id], pages))
            case Err(e) => Err(e))
    ensures id in st.meta && st.meta[id].docType != Youtube && st.meta[id].path !in st.blobs ==> r.Err?
    ensures id in st.meta && st.meta[id].docType != Youtube && GetDocument(st, id, mimeOf).Ok? ==>
      r == (match parse(LoaderFor(st.meta[id].docType), FromFile(GetDocument(st, id, mimeOf).value))
            case Ok(pages) => Ok(Stamp(st.meta[id], pages))
            case Err(e) => Err(e))
  {
    if id !in st.meta then Err("Document not found")
    else
      var doc := st.meta[id];
      var loader := LoaderFor(doc.docType);
      var source :- if loader == YoutubeLoader then Ok(FromUrl(doc.path))
                    else var f :- GetDocument(st, id, mimeOf); Ok(FromFile(f));
      var pages :- parse(loader, source);
      Ok(Stamp(doc, pages))
  }

  /**
   * A generic URL document has no bytes at its path, so loading it fails:
   * it goes to the text parser, which reads the URL as a file path.
   */
  lemma UrlDocumentCannotLoad(st: DocStore, id: string, mimeOf: string -> Option<string>, parse: (Loader, Source) -> Result<seq<string>>)
    requires id in st.meta && st.meta[id].docType == Url && st.meta[id].path !in st.blobs
    ensures LoadDocument(st, id, mimeOf, parse).Err?
  {
  }

  /** A URL upload stores no bytes, so fetching it fails unless some file happens to live at the URL as a path. */
  lemma UrlUploadUnfetchable(st: DocStore, fileId: string, url: string, now: int, mimeOf: string -> Option<string>)
    requires url !in st.blobs
    ensures var (st', r) := UploadUrl(st, fileId, url, now);
      r.Ok? ==> GetDocument(st', fileId, mimeOf).Err?
  {
  }
}

=== FILE: document_types.dfy ===
/**
 * The document-type table: each document type with the file extensions it
 * claims, document types first and then the code languages, in the order
 * the classifier scans them.
 */
module DocumentTypes {

  datatype DocumentType =
    | Pdf | Docx | Doc | Txt | Url | Image | Video | Audio | Youtube
    | Cpp | Go | Java | Js | Php | Proto | Python | Rst | Ruby | Rust | Scala | Swift | Markdown | Latex | Html | Sol
  {
    /** The code-language entries, spread after the document types. */
    predicate IsCodeLanguage() {
      !(Pdf? || Docx? || Doc? || Txt? || Url? || Image? || Video? || Audio? || Youtube?)
    }
  }

  /** The table key of a type, the string stored as a document's `type`. */
  function Key(t: DocumentType): string {
    match t
    case Pdf => "pdf"
    case Docx => "docx"
    case Doc => "doc"
    case Txt => "txt"
    case Url => "url"
    case Image => "image"
    case Video => "video"
    case Audio => "audio"
    case Youtube => "youtube"
    case Cpp => "cpp"
    case Go => "go"
    case Java => "java"
    case Js => "js"
    case Php => "php"
    case Proto => "proto"
    case Python => "python"
    case Rst => "rst"
    case Ruby => "ruby"
    case Rust => "rust"
    case Scala => "scala"
    case Swift => "swift"
    case Markdown => "markdown"
    case Latex => "latex"
    case Html => "html"
    case Sol => "sol"
  }

  /** A stored document's metadata: bytes live elsewhere, under `path`. */
  datatype Document = Document(id: string, name: string, path: string, docType: DocumentType, createdAt: int)

  /** The keys of `DocumentTypeMap` in the order `Object.entries` yields them. */
  const TypeOrder: seq<DocumentType> := [
    Pdf, Docx, Doc, Txt, Url, Image, Video, Audio, Youtube,
    Cpp, Go, Java, Js, Php, Proto, Python, Rst, Ruby, Rust, Scala, Swift, Markdown, Latex, Html, Sol
  ]

  /** The extensions a type claims. */
  function Extensions(t: DocumentType): seq<string> {
    match t
    case Pdf => ["pdf"]
    case Docx => ["docx"]
    case Doc => ["doc"]
    case Txt => ["txt"]
    case Url => ["url"]
    case Image => ["jpg", "jpeg", "png", "gif", "bmp", "tiff", "ico", "webp"]
    case Video => ["mp4", "mov", "avi", "wmv", "flv", "mpeg", "mpg", "m4v", "webm"]
    case Audio => ["mp3", "wav", "ogg", "m4a", "wma", "aac", "flac", "m4b", "m4p"]
    case Youtube => ["youtube"]
    case Cpp => ["cpp"]
    case Go => ["go"]
    case Java => ["java"]
    case Js => ["js", "jsx", "ts", "tsx"]
    case Php => ["php"]
    case Proto => ["proto"]
    case Python => ["py", "ipynb"]
    case Rst => ["rst"]
    case Ruby => ["rb"]
    case Rust => ["rs"]
    case Scala => ["scala"]
    case Swift => ["swift"]
    case Markdown => ["md", "mdx"]
    case Latex => ["tex"]
    case Html => ["html"]
    case Sol => ["sol"]
  }

  /** The position of a type among the table's keys. */
  function Rank(t: DocumentType): (r: nat)
    ensures r < |TypeOrder| && TypeOrder[r] == t
  {
    match t
    case Pdf => 0
    case Docx => 1
    case Doc => 2
    case Txt => 3
    case Url => 4
    case Image => 5
    case Video => 6
    case Audio => 7
    case Youtube => 8
    case Cpp => 9
    case Go => 10
    case Java => 11
    case Js => 12
    case Php => 13
    case Proto => 14
    case Python => 15
    case Rst => 16
    case Ruby => 17
    case Rust => 18
    case Scala => 19
    case Swift => 20
    case Markdown => 21
    case Latex => 22
    case Html => 23
    case Sol => 24
  }

  /** Reading the table at a position and ranking the key gives the position back. */
  lemma RankAt(i: int)
    requires 0 <= i < |TypeOrder|
    ensures Rank(TypeOrder[i]) == i
  {
    if i == 0 {
      assert TypeOrder[0] == Pdf;
    } else if i == 1 {
      assert TypeOrder[1] == Docx;
    } else if i == 2 {
      assert TypeOrder[2] == Doc;
    } else if i == 3 {
      assert TypeOrder[3] == Txt;
    } else if i == 4 {
      assert TypeOrder[4] == Url;
    } else if i == 5 {
      assert TypeOrder[5] == Image;
    } else if i == 6 {
      assert TypeOrder[6] == Video;
    } else if i == 7 {
      assert TypeOrder[7] == Audio;
    } else if i == 8 {
      assert TypeOrder[8] == Youtube;
    } else if i == 9 {
      assert TypeOrder[9] == Cpp;
    } else if i == 10 {
      assert TypeOrder[10] == Go;
    } else if i == 11 {
      assert TypeOrder[11] == Java;
    } else if i == 12 {
      assert TypeOrder[12] == Js;
    } else if i == 13 {
      assert TypeOrder[13] == Php;
    } else if i == 14 {
      assert TypeOrder[14] == Proto;
    } else if i == 15 {
      assert TypeOrder[15] == Python;
    } else if i == 16 {
      assert TypeOrder[16] == Rst;
    } else if i == 17 {
      assert TypeOrder[17] == Ruby;
    } else if i == 18 {
      assert TypeOrder[18] == Rust;
    } else if i == 19 {
      assert TypeOrder[19] == Scala;
    } else if i == 20 {
      assert TypeOrder[20] == Swift;
    } else if i == 21 {
      assert TypeOrder[21] == Markdown;
    } else if i == 22 {
      assert TypeOrder[22] == Latex;
    } else if i == 23 {
      assert TypeOrder[23] == Html;
    } else {
      assert TypeOrder[24] == Sol;
    }
  }

  /** Every document type is a key of the table, exactly once. */
  lemma TableKeysAreAllTypes()
    ensures forall t: DocumentType :: t in TypeOrder
    ensures forall i, j :: 0 <= i < j < |TypeOrder| ==> TypeOrder[i] != TypeOrder[j]
  {
    forall t: DocumentType ensures t in TypeOrder {
      assert TypeOrder[Rank(t)] == t;
    }
    forall i, j | 0 <= i < j < |TypeOrder| ensures TypeOrder[i] != TypeOrder[j] {
      RankAt(i);
      RankAt(j);
    }
  }

  /** The nine document types come first, the sixteen code languages after. */
  lemma DocumentTypesPrecedeCode()
    ensures |TypeOrder| == 25
    ensures forall i :: 0 <= i < 9 ==> !TypeOrder[i].IsCodeLanguage()
    ensures forall i :: 9 <= i < |TypeOrder| ==> TypeOrder[i].IsCodeLanguage()
  {
  }
}

=== FILE: enabled_models.dfy ===
/**
 * Enabling and disabling one model id in the configuration's list of
 * enabled chat or embedding models. The list goes through a JavaScript
 * `Set`: duplicates collapse onto their first occurrence, insertion order is
 * kept, a newly added id goes last.
 */
module EnabledModels {
  import opened Wrappers
  import opened Strs
  import opened ConfigTypes
  import opened ConfigStore

  /** Which of the two model lists an operation addresses. */
  datatype ModelKind = ChatKind | EmbeddingKind

  predicate NoDups<T(==)>(xs: seq<T>) {
    forall i, j :: 0 <= i < j < |xs| ==> xs[i] != xs[j]
  }

  /** The ids of `r` all occur in `xs`, and `r` lists them in the order of their first occurrences there. */
  predicate InOrder<T(==)>(r: seq<T>, xs: seq<T>) {
    forall i, j :: 0 <= i < j < |r| ==> r[i] in xs && r[j] in xs && IndexOf(xs, r[i]) < IndexOf(xs, r[j])
  }

  /** `Array.from(new Set(xs))`: each id once, at its first position. */
  function Dedup<T(==,!new)>(xs: seq<T>): (r: seq<T>)
    ensures NoDups(r)
    ensures forall x :: x in r <==> x in xs
  {
    if |xs| == 0 then []
    else
      var r := Dedup(xs[..|xs| - 1]);
      assert forall x :: x in xs <==> x in xs[..|xs| - 1] || x == xs[|xs| - 1];
      if xs[|xs| - 1] in r then r else r + [xs[|xs| - 1]]
  }

  /** The set keeps insertion order: the ids come out in the order of their first occurrences. */
  lemma {:induction false} DedupKeepsOrder<T(!new)>(xs: seq<T>)
    ensures InOrder(Dedup(xs), xs)
  {
    if |xs| > 0 {
      var init := xs[..|xs| - 1];
      var last := xs[|xs| - 1];
      var r := Dedup(init);
      DedupKeepsOrder(init);
      forall i | 0 <= i < |r| ensures r[i] in init && IndexOf(xs, r[i]) == IndexOf(init, r[i]) < |init| {
        assert r[i] in r;
        IndexOfInit(xs, r[i]);
      }
      if last !in r {
        IndexOfUnique(xs, last, |init|);
        var r' := r + [last];
        forall i, j | 0 <= i < j < |r'| ensures r'[i] in xs && r'[j] in xs && IndexOf(xs, r'[i]) < IndexOf(xs, r'[j]) {
          assert r'[i] == r[i];
        }
      }
    }
  }

  /** Without duplicates, the list minus its last id has none either, and does not hold that id. */
  lemma NoDupsInit<T>(xs: seq<T>)
    requires |xs| > 0 && NoDups(xs)
    ensures NoDups(xs[..|xs| - 1]) && xs[|xs| - 1] !in xs[..|xs| - 1]
  {
    var init := xs[..|xs| - 1];
    forall i, j | 0 <= i < j < |init| ensures init[i] != init[j] {
      assert init[i] == xs[i] && init[j] == xs[j];
    }
    forall k | 0 <= k < |init| ensures init[k] != xs[|xs| - 1] {
      assert init[k] == xs[k];
    }
  }

  /** A list that already has no duplicates goes through the set unchanged. */
  lemma {:induction false} DedupOfNoDups<T(!new)>(xs: seq<T>)
    requires NoDups(xs)
    ensures Dedup(xs) == xs
  {
    if |xs| > 0 {
      var init := xs[..|xs| - 1];
      NoDupsInit(xs);
      DedupOfNoDups(init);
      assert init + [xs[|xs| - 1]] == xs;
    }
  }

  /** `xs` without any occurrence of `id`, order kept. */
  function Remove<T(==,!new)>(xs: seq<T>, id: T): (r: seq<T>)
    ensures forall x :: x in r <==> x in xs && x != id
    ensures NoDups(xs) ==> NoDups(r)
    ensures |r| <= |xs|
  {
    if |xs| == 0 then []
    else
      var init := xs[..|xs| - 1];
      var last := xs[|xs| - 1];
      assert forall x :: x in xs <==> x in init || x == last;
      assert NoDups(xs) ==> last !in init;
      if last == id then Remove(init, id) else Remove(init, id) + [last]
  }

  /** The ids `Remove` keeps stay in the order of `xs`, as `filter` keeps them. */
  lemma {:induction false} RemoveKeepsOrder<T(!new)>(xs: seq<T>, id: T)
    requires NoDups(xs)
    ensures InOrder(Remove(xs, id), xs)
  {
    if |xs| > 0 {
      var init := xs[..|xs| - 1];
      NoDupsInit(xs);
      RemoveKeepsOrder(init, id);
      var r := Remove(init, id);
      assert forall i :: 0 <= i < |r| ==> r[i] in r;
      OrderAfterInit(xs, r, xs[|xs| - 1] != id);
    }
  }

  /**
   * The step of `RemoveKeepsOrder`: ids of the prefix, in prefix order,
   * followed (when `keepLast`) by the last id of a duplicate-free `xs`, are
   * in the order of `xs`.
   */
  lemma OrderAfterInit<T(!new)>(xs: seq<T>, r: seq<T>, keepLast: bool)
    requires |xs| > 0 && NoDups(xs)
    requires forall i :: 0 <= i < |r| ==> r[i] in xs[..|xs| - 1]
    requires InOrder(r, xs[..|xs| - 1])
    ensures InOrder(if keepLast then r + [xs[|xs| - 1]] else r, xs)
  {
    var init := xs[..|xs| - 1];
    var last := xs[|xs| - 1];
    forall i | 0 <= i < |r| ensures IndexOf(xs, r[i]) == IndexOf(init, r[i]) < |init| {
      IndexOfInit(xs, r[i]);
    }
    NoDupsInit(xs);
    IndexOfUnique(xs, last, |init|);
    var r' := if keepLast then r + [last] else r;
    forall i, j | 0 <= i < j < |r'| ensures IndexOf(xs, r'[i]) < IndexOf(xs, r'[j]) {
      assert r'[i] == r[i];
    }
  }

  lemma {:induction false} RemoveAbsent<T(!new)>(xs: seq<T>, id: T)
    requires id !in xs
    ensures Remove(xs, id) == xs
  {
    if |xs| > 0 {
      RemoveAbsent(xs[..|xs| - 1], id);
      assert xs[..|xs| - 1] + [xs[|xs| - 1]] == xs;
    }
  }

  /** The set toggle: `add` when enabling, `delete` when disabling; a newly enabled id goes last. */
  function Toggle<T(==,!new)>(xs: seq<T>, id: T, enabled: bool): (r: seq<T>)
    ensures NoDups(r)
    ensures forall x :: x in r <==> (x in xs && x != id) || (enabled && x == id)
    ensures enabled && id !in xs ==> |r| > 0 && r[|r| - 1] == id
  {
    var s := Dedup(xs);
    if enabled then (if id in s then s else s + [id]) else Remove(s, id)
  }

  /** The ids that were in `xs` keep the order of their first occurrences in `xs`. */
  lemma ToggleKeepsOrder<T(!new)>(xs: seq<T>, id: T, enabled: bool)
    ensures var r := Toggle(xs, id, enabled);
      forall i, j :: 0 <= i < j < |r| && r[j] in xs ==> r[i] in xs && IndexOf(xs, r[i]) < IndexOf(xs, r[j])
  {
    var s := Dedup(xs);
    DedupKeepsOrder(xs);
    if enabled {
      EnabledOrder(xs, s, id);
    } else {
      RemoveKeepsOrder(s, id);
      DisabledOrder(xs, s, Remove(s, id));
    }
  }

  /** Enabling keeps the deduplicated list as a prefix, so its order carries over. */
  lemma EnabledOrder<T(!new)>(xs: seq<T>, s: seq<T>, id: T)
    requires s == Dedup(xs) && InOrder(s, xs)
    ensures var r := if id in s then s else s + [id];
      forall i, j :: 0 <= i < j < |r| && r[j] in xs ==> r[i] in xs && IndexOf(xs, r[i]) < IndexOf(xs, r[j])
  {
    var r := if id in s then s else s + [id];
    forall i, j | 0 <= i < j < |r| && r[j] in xs ensures r[i] in xs && IndexOf(xs, r[i]) < IndexOf(xs, r[j]) {
      assert r[i] == s[i] && r[j] == s[j] && s[i] in s;
    }
  }

  /** Ids kept in the deduplicated list's order are kept in the order of first occurrence in `xs`. */
  lemma DisabledOrder<T(!new)>(xs: seq<T>, s: seq<T>, r: seq<T>)
    requires s == Dedup(xs) && InOrder(s, xs)
    requires forall i :: 0 <= i < |r| ==> r[i] in s
    requires InOrder(r, s)
    ensures InOrder(r, xs)
  {
    forall i, j | 0 <= i < j < |r| ensures r[i] in xs && r[j] in xs && IndexOf(xs, r[i]) < IndexOf(xs, r[j]) {
      var a, b := IndexOf(s, r[i]), IndexOf(s, r[j]);
      assert s[a] == r[i] && s[b] == r[j] && a < b;
      assert s[a] in s && s[b] in s;
    }
  }

  /** On a duplicate-free list, enabling an enabled id or disabling an absent one is a no-op. */
  lemma ToggleIdle<T(!new)>(xs: seq<T>, id: T, enabled: bool)
    requires NoDups(xs)
    requires enabled <==> id in xs
    ensures Toggle(xs, id, enabled) == xs
  {
    DedupOfNoDups(xs);
    if !enabled {
      RemoveAbsent(xs, id);
    }
  }

  /** Enabling a new id appends it after the existing ids, whose order is kept. */
  lemma EnableAppends<T(!new)>(xs: seq<T>, id: T)
    requires NoDups(xs) && id !in xs
    ensures Toggle(xs, id, true) == xs + [id]
  {
    DedupOfNoDups(xs);
  }

  /** Disabling right after enabling a new id restores the list. */
  lemma EnableThenDisable<T(!new)>(xs: seq<T>, id: T)
    requires NoDups(xs) && id !in xs
    ensures Toggle(Toggle(xs, id, true), id, false) == xs
  {
    EnableAppends(xs, id);
    var ys := xs + [id];
    assert NoDups(ys);
    DedupOfNoDups(ys);
    RemoveAppended(xs, id);
  }

  /** Removing an id just appended to a list without it gives the list back. */
  lemma RemoveAppended<T(!new)>(xs: seq<T>, id: T)
    requires id !in xs
    ensures Remove(xs + [id], id) == xs
  {
    assert (xs + [id])[..|xs|] == xs;
    RemoveAbsent(xs, id);
  }

  /** The patch that writes only the list of the given kind. */
  function EnabledPatch(kind: ModelKind, xs: seq<string>): Patch {
    match kind
    case ChatKind => NoChange.(enabledChatModels := Some(xs))
    case EmbeddingKind => NoChange.(enabledEmbeddingModels := Some(xs))
  }

  function EnabledList(s: Settings, kind: ModelKind): seq<string> {
    match kind
    case ChatKind => s.enabledChatModels
    case EmbeddingKind => s.enabledEmbeddingModels
  }

  /**
   * `useUpdateEnabledModels(kind)`: read the current configuration, toggle
   * `modelId` in the kind's list, write back only that list.
   */
  function UpdateEnabledModels(st: Store, kind: ModelKind, modelId: string, enabled: bool, freshId: string, now: int): (r: (Store, Config))
    requires UniqueIds(st.rows)
    ensures var cur := GetConfig(st, freshId, now).1;
      && EnabledList(r.1.settings, kind) == Toggle(EnabledList(cur.settings, kind), modelId, enabled)
      && r.1.settings == (match kind
           case ChatKind => cur.settings.(enabledChatModels := r.1.settings.enabledChatModels)
           case EmbeddingKind => cur.settings.(enabledEmbeddingModels := r.1.settings.enabledEmbeddingModels))
      && r.1.id == cur.id && r.1.createdAt == cur.createdAt && r.1.updatedAt == now
    ensures r.0.current == Some(r.1) && Valid(r.0)
    ensures var before := GetConfig(st, freshId, now).0.rows;
      && r.0.rows == Put(before, r.1)
      && forall x :: x in before && x.id != r.1.id ==> x in r.0.rows
  {
    var (st1, cur) := GetConfig(st, freshId, now);
    var xs := Toggle(EnabledList(cur.settings, kind), modelId, enabled);
    UpdateConfig(st1, EnabledPatch(kind, xs), freshId, now)
  }
}

=== FILE: memory.dfy ===
/**
 * The per-session persistent history. A handle caches the session record
 * it loaded; every write puts the whole cached record back, so a handle
 * that loaded earlier overwrites what another handle wrote since.
 */
module ChatMemory {
  import opened Wrappers
  import opened ConfigTypes
  import opened Messages

  datatype Session = Session(
    id: string,
    name: string,
    createdAt: int,
    updatedAt: int,
    messages: seq<Message>,
    model: string,
    embeddingModel: string,
    enabledTools: seq<string>,
    pythonSessionId: Option<string>)

  /** The session table, keyed by session id. */
  type SessionTable = map<string, Session>

  /** A history handle: the session it serves, its cached record, and whether it has loaded. */
  datatype Memory = Memory(sessionId: string, cached: Option<Session>, initialized: bool)

  /** A loaded handle always holds a record. */
  predicate Ready(h: Memory) {
    h.initialized && h.cached.Some?
  }

  function NewHandle(sessionId: string): (h: Memory)
    ensures !h.initialized && h.sessionId == sessionId
  {
    Memory(sessionId, None, false)
  }

  /** The record a handle creates for a session the table does not hold. */
  function FreshSession(sessionId: string, model: string, embeddingModel: string, now: int): Session {
    Session(sessionId, "New Chat", now, now, [], model, embeddingModel, [], None)
  }

  /**
   * `initialize`: a no-op once loaded. Otherwise load the session; when it
   * is missing, create it with the configured default chat model (which
   * must be in `chatModels`) and the default embedding model if it is in
   * `embeddingModels` (else the empty string), and store it.
   */
  function Initialize(h: Memory, db: SessionTable, settings: Settings,
                      chatModels: seq<ChatModel>, embeddingModels: seq<EmbeddingModel>, now: int): (r: Result<(Memory, SessionTable)>)
    ensures h.initialized ==> r == Ok((h, db))
    ensures !h.initialized && h.sessionId in db ==> r == Ok((Memory(h.sessionId, Some(db[h.sessionId]), true), db))
    ensures !h.initialized && h.sessionId !in db ==>
      (r.Err? <==> FindChatModel(chatModels, settings.defaultChatModel).None?)
    ensures r.Ok? ==> r.value.0.sessionId == h.sessionId && r.value.0.initialized
    ensures r.Ok? && !h.initialized ==> h.sessionId in r.value.1 && r.value.0.cached == Some(r.value.1[h.sessionId])
    ensures r.Ok? && !h.initialized ==> (Ready(r.value.0) && h.sessionId in r.value.1
      && r.value.1[h.sessionId] == r.value.0.cached.value
      && r.value.0.cached.value.messages == (if h.sessionId in db then db[h.sessionId].messages else [])
      && r.value.1 - {h.sessionId} == db - {h.sessionId})
  {
    if h.initialized then Ok((h, db))
    else if h.sessionId in db then Ok((Memory(h.sessionId, Some(db[h.sessionId]), true), db))
    else
      match FindChatModel(chatModels, settings.defaultChatModel)
      case None => Err("Chat or embedding models are not configured.")
      case Some(chat) =>
        var embedding := match FindEmbeddingModel(embeddingModels, settings.defaultEmbeddingModel)
                         case Some(e) => e.model
                         case None => "";
        var s := FreshSession(h.sessionId, chat.model, embedding, now);
        Ok((Memory(h.sessionId, Some(s), true), db[h.sessionId := s]))
  }

  /** A session created on first use carries the configured default models, the fixed name, and no history. */
  lemma InitializeCreates(h: Memory, db: SessionTable, settings: Settings,
                          chatModels: seq<ChatModel>, embeddingModels: seq<EmbeddingModel>, now: int)
    requires !h.initialized && h.sessionId !in db
    requires FindChatModel(chatModels, settings.defaultChatModel).Some?
    ensures var r := Initialize(h, db, settings, chatModels, embeddingModels, now);
      && r.Ok?
      && var s := r.value.1[h.sessionId];
      && s.id == h.sessionId && s.name == "New Chat" && s.messages == [] && s.enabledTools == []
      && s.createdAt == now && s.updatedAt == now
      && s.model == settings.defaultChatModel
      && (s.embeddingModel == settings.defaultEmbeddingModel || s.embeddingModel == "")
      && (FindEmbeddingModel(embeddingModels, settings.defaultEmbeddingModel).None? ==> s.embeddingModel == "")
      && r.value.1 - {h.sessionId} == db
  {
  }

  /** Loading twice is loading once: the second call changes nothing. */
  lemma InitializeIdempotent(h: Memory, db: SessionTable, settings: Settings,
                             chatModels: seq<ChatModel>, embeddingModels: seq<EmbeddingModel>, now: int, later: int)
    requires Initialize(h, db, settings, chatModels, embeddingModels, now).Ok?
    ensures var (h1, db1) := Initialize(h, db, settings, chatModels, embeddingModels, now).value;
      Initialize(h1, db1, settings, chatModels, embeddingModels, later) == Ok((h1, db1))
  {
  }

  /** The cached-record half of `addMessage`: append, stamp, and put the whole record back. */
  function Append(h: Memory, db: SessionTable, m: Message, now: int): (r: (Memory, SessionTable))
    requires Ready(h)
    ensures Ready(r.0) && r.0.sessionId == h.sessionId
    ensures r.0.cached.value.messages == h.cached.value.messages + [m]
    ensures r.0.cached.value.updatedAt == now
    ensures r.1 == db[h.sessionId := r.0.cached.value]
  {
    var s := h.cached.value;
    var s' := s.(messages := s.messages + [m], updatedAt := now);
    (Memory(h.sessionId, Some(s'), true), db[h.sessionId := s'])
  }

  /** `addMessage`: load if needed, then append to the cached record and store it. */
  function AddMessage(h: Memory, db: SessionTable, settings: Settings,
                      chatModels: seq<ChatModel>, embeddingModels: seq<EmbeddingModel>, m: Message, now: int): (r: Result<(Memory, SessionTable)>)
    requires h.initialized ==> Ready(h)
    ensures Ready(h) ==> r.Ok?
    ensures r.Ok? <==> h.initialized || h.sessionId in db || FindChatModel(chatModels, settings.defaultChatModel).Some?
    ensures r.Ok? ==> (Ready(r.value.0) && h.sessionId in r.value.1
      && r.value.1[h.sessionId] == r.value.0.cached.value
      && |r.value.1[h.sessionId].messages| >= 1
      && r.value.1[h.sessionId].messages[|r.value.1[h.sessionId].messages| - 1] == m)
    ensures r.Ok? ==> r.value.1 - {h.sessionId} == db - {h.sessionId}
    ensures r.Ok? ==> var prior := if h.initialized then h.cached.value.messages
                                   else if h.sessionId in db then db[h.sessionId].messages
                                   else [];
      r.value.1[h.sessionId].messages == prior + [m]
  {
    var (h1, db1) :- Initialize(h, db, settings, chatModels, embeddingModels, now);
    Ok(Append(h1, db1, m, now))
  }

  /** On a loaded handle, `addMessage` appends exactly the one message to what the handle had cached. */
  lemma AddMessageAppends(h: Memory, db: SessionTable, settings: Settings,
                          chatModels: seq<ChatModel>, embeddingModels: seq<EmbeddingModel>, m: Message, now: int)
    requires Ready(h)
    ensures var r := AddMessage(h, db, settings, chatModels, embeddingModels, m, now);
      r.Ok? && r.value.1[h.sessionId].messages == h.cached.value.messages + [m]
  {
  }

  /** `getMessages`: load if needed, then the cached history (empty if none). */
  function GetMessages(h: Memory, db: SessionTable, settings: Settings,
                       chatModels: seq<ChatModel>, embeddingModels: seq<EmbeddingModel>, now: int): (r: Result<(Memory, SessionTable, seq<Message>)>)
    ensures r.Ok? ==> r.value.0.initialized
    ensures !h.initialized && h.sessionId in db ==> r.Ok? && r.value.2 == db[h.sessionId].messages && r.value.1 == db
    ensures !h.initialized && h.sessionId !in db && r.Ok? ==> r.value.2 == []
    ensures !h.initialized && h.sessionId !in db ==>
      (r.Ok? <==> FindChatModel(chatModels, settings.defaultChatModel).Some?)
    ensures r.Ok? ==> (r.value.0, r.value.1) == Initialize(h, db, settings, chatModels, embeddingModels, now).value
    ensures Ready(h) ==> r == Ok((h, db, h.cached.value.messages))
  {
    var (h1, db1) :- Initialize(h, db, settings, chatModels, embeddingModels, now);
    Ok((h1, db1, if h1.cached.Some? then h1.cached.value.messages else []))
  }

  /** Reading the history through the handle that just added a message shows that message last, after the history before it. */
  lemma AddThenGetMessages(h: Memory, db: SessionTable, settings: Settings,
                           chatModels: seq<ChatModel>, embeddingModels: seq<EmbeddingModel>, m: Message, now: int, later: int)
    requires h.initialized ==> Ready(h)
    requires AddMessage(h, db, settings, chatModels, embeddingModels, m, now).Ok?
    ensures var (h1, db1) := AddMessage(h, db, settings, chatModels, embeddingModels, m, now).value;
      var prior := if h.initialized then h.cached.value.messages
                   else if h.sessionId in db then db[h.sessionId].messages
                   else [];
      GetMessages(h1, db1, settings, chatModels, embeddingModels, later) == Ok((h1, db1, prior + [m]))
  {
  }

  /** `clear`: forget the cached record, unload, and delete the session. */
  function Clear(h: Memory, db: SessionTable): (r: (Memory, SessionTable))
    ensures !r.0.initialized && r.0.cached.None? && r.0.sessionId == h.sessionId
    ensures h.sessionId !in r.1 && forall k :: k in db && k != h.sessionId ==> k in r.1 && r.1[k] == db[k]
  {
    (Memory(h.sessionId, None, false), db - {h.sessionId})
  }

  /** After `clear`, the next message starts a fresh session holding only that message. */
  lemma ClearThenAdd(h: Memory, db: SessionTable, settings: Settings,
                     chatModels: seq<ChatModel>, embeddingModels: seq<EmbeddingModel>, m: Message, now: int)
    requires FindChatModel(chatModels, settings.defaultChatModel).Some?
    ensures var (h1, db1) := Clear(h, db);
      var r := AddMessage(h1, db1, settings, chatModels, embeddingModels, m, now);
      && r.Ok?
      && r.value.1[h.sessionId].messages == [m]
      && r.value.1[h.sessionId].name == "New Chat"
      && r.value.1[h.sessionId].createdAt == now
  {
  }

  /**
   * Two handles loaded from the same record: after the first stores one
   * message and the second stores another, the table holds the record
   * with only the second message appended. The first write is lost.
   */
  lemma StaleHandleOverwrites(a: Memory, b: Memory, db: SessionTable, settings: Settings,
                              chatModels: seq<ChatModel>, embeddingModels: seq<EmbeddingModel>,
                              m1: Message, m2: Message, t1: int, t2: int)
    requires Ready(a) && Ready(b) && a.sessionId == b.sessionId && a.cached == b.cached
    ensures var r1 := AddMessage(a, db, settings, chatModels, embeddingModels, m1, t1);
      && r1.Ok?
      && var r2 := AddMessage(b, r1.value.1, settings, chatModels, embeddingModels, m2, t2);
      && r2.Ok?
      && r2.value.1[a.sessionId].messages == a.cached.value.messages + [m2]
  {
    AddMessageAppends(a, db, settings, chatModels, embeddingModels, m1, t1);
    var r1 := AddMessage(a, db, settings, chatModels, embeddingModels, m1, t1);
    AddMessageAppends(b, r1.value.1, settings, chatModels, embeddingModels, m2, t2);
  }
}

=== FILE: messages.dfy ===
/**
 * The messages a chat session stores: the user's turns (plain text, or
 * content blocks built from attachments, with the attached documents'
 * provenance), the assistant's answers, and tool results.
 */
module Messages {
  import opened Documents

  /** One content block of a multimodal user message. */
  datatype Block =
    | TextBlock(text: string)
    | ImageUrlBlock(url: string)
    | PdfDocumentBlock(data: string, mediaType: string)
    | MediaBlock(mimeType: string, data: string)

  /** A message body: a string, or a list of blocks. */
  datatype Content = Plain(text: string) | Blocks(blocks: seq<Block>)

  datatype Message =
    | HumanMessage(content: Content, documents: seq<Provenance>)
    | AiMessage(text: string)
    | ToolMessage(toolCallId: string, output: string, name: string, status: string, input: string, timestamp: int)

  /**
   * JavaScript truthiness of `content && content.length > 0`: an empty
   * string and an empty block list are both "no content".
   */
  predicate HasContent(c: Content) {
    match c
    case Plain(t) => |t| > 0
    case Blocks(bs) => |bs| > 0
  }
}

=== FILE: model_list.dfy ===
/**
 * The model-list settings panel: which providers count as configured, and
 * the select-all, unselect-all, per-model toggle and default-choice rules.
 * The panel exists twice, as a standalone component and inlined in the
 * routed home page; only their `isProviderConfigured` differs.
 */
module ModelList {
  import opened Wrappers
  import opened Strs
  import opened ConfigTypes
  import opened EnabledModels

  datatype Variant = SettingsComponent | HomePage

  /** What the panel needs of a chat or embedding model. */
  datatype ListedModel = ListedModel(name: string, provider: Provider, model: string)

  function FromChat(m: ChatModel): ListedModel {
    ListedModel(m.name, m.provider, m.model)
  }

  function FromEmbedding(m: EmbeddingModel): ListedModel {
    ListedModel(m.name, m.provider, m.model)
  }

  predicate AllSet(s: Settings, fields: seq<ConnField>) {
    forall i :: 0 <= i < |fields| ==> !Blank(FieldValue(s, fields[i]))
  }

  /**
   * `isProviderConfigured`: every connection argument is non-blank; the
   * standalone component only asks OpenAI for its API key.
   */
  predicate IsProviderConfigured(v: Variant, s: Settings, p: Provider) {
    if v == SettingsComponent && p == OpenAI then !Blank(s.openaiApiKey)
    else AllSet(s, ConnArgs(p))
  }

  /** Hugging Face needs both a token and a custom-model list, in both variants. */
  lemma HuggingFaceNeedsBoth(v: Variant, s: Settings)
    ensures IsProviderConfigured(v, s, HuggingFace) <==> !Blank(s.hfToken) && !Blank(s.hfCustomModels)
  {
    assert ConnArgs(HuggingFace)[0] == HfToken && ConnArgs(HuggingFace)[1] == HfCustomModels;
  }

  /**
   * The home page is stricter: what it calls configured the component does
   * too, they agree on every provider but OpenAI, and for OpenAI the home
   * page also needs the base URL and model.
   */
  lemma HomePageStricter(s: Settings, p: Provider)
    ensures IsProviderConfigured(HomePage, s, p) ==> IsProviderConfigured(SettingsComponent, s, p)
    ensures p != OpenAI ==> (IsProviderConfigured(HomePage, s, p) <==> IsProviderConfigured(SettingsComponent, s, p))
    ensures IsProviderConfigured(HomePage, s, OpenAI)
      <==> !Blank(s.openaiApiKey) && !Blank(s.openaiBaseUrl) && !Blank(s.openaiModel)
  {
    var args := ConnArgs(OpenAI);
    assert FieldValue(s, args[0]) == s.openaiApiKey;
    assert FieldValue(s, args[1]) == s.openaiBaseUrl;
    assert FieldValue(s, args[2]) == s.openaiModel;
    assert AllSet(s, args) <==> !Blank(s.openaiApiKey) && !Blank(s.openaiBaseUrl) && !Blank(s.openaiModel) by {
      if !Blank(s.openaiApiKey) && !Blank(s.openaiBaseUrl) && !Blank(s.openaiModel) {
        forall i | 0 <= i < |args| ensures !Blank(FieldValue(s, args[i])) {
          assert i == 0 || i == 1 || i == 2;
        }
      }
    }
  }

  /** An API key alone configures OpenAI for the component but not for the home page. */
  lemma VariantsDisagreeOnKeyOnly()
    ensures var s := DefaultSettings.(openaiApiKey := "sk");
      IsProviderConfigured(SettingsComponent, s, OpenAI) && !IsProviderConfigured(HomePage, s, OpenAI)
  {
    var s := DefaultSettings.(openaiApiKey := "sk");
    assert Trim("sk") != [];
    assert FieldValue(s, ConnArgs(OpenAI)[1]) == "";
  }

  /** The providers a panel variant treats as configured. */
  function Configured(v: Variant, s: Settings): (ps: set<Provider>)
    ensures forall p :: p in ps <==> IsProviderConfigured(v, s, p)
  {
    set p | p in {OpenAI, Anthropic, Ollama, Gemini, HuggingFace} && IsProviderConfigured(v, s, p)
  }

  /** Whether some listed model of a provider in `ok` has id `x`. */
  predicate OfferedIn(ok: set<Provider>, models: seq<ListedModel>, x: string) {
    exists i :: 0 <= i < |models| && models[i].model == x && models[i].provider in ok
  }

  /** Whether some listed model of a configured provider has id `x`. */
  predicate OfferedBy(v: Variant, s: Settings, models: seq<ListedModel>, x: string) {
    OfferedIn(Configured(v, s), models, x)
  }

  predicate Listed(models: seq<ListedModel>, x: string) {
    exists i :: 0 <= i < |models| && models[i].model == x
  }

  lemma OfferedInExtend(ok: set<Provider>, models: seq<ListedModel>, k: nat, x: string)
    requires k < |models|
    ensures OfferedIn(ok, models[..k + 1], x) <==>
      OfferedIn(ok, models[..k], x) || (x == models[k].model && models[k].provider in ok)
  {
    var pre, pre1 := models[..k], models[..k + 1];
    if OfferedIn(ok, pre1, x) {
      var i :| 0 <= i < k + 1 && pre1[i].model == x && pre1[i].provider in ok;
      if i < k { assert pre[i] == pre1[i]; }
    }
    if OfferedIn(ok, pre, x) {
      var i :| 0 <= i < k && pre[i].model == x && pre[i].provider in ok;
      assert pre1[i] == pre[i];
    }
    assert pre1[k] == models[k];
  }

  lemma ListedExtend(models: seq<ListedModel>, k: nat, x: string)
    requires k < |models|
    ensures Listed(models[..k + 1], x) <==> Listed(models[..k], x) || x == models[k].model
  {
    var pre, pre1 := models[..k], models[..k + 1];
    if Listed(pre1, x) {
      var i :| 0 <= i < k + 1 && pre1[i].model == x;
      if i < k { assert pre[i] == pre1[i]; }
    }
    if Listed(pre, x) {
      var i :| 0 <= i < k && pre[i].model == x;
      assert pre1[i] == pre[i];
    }
    assert pre1[k] == models[k];
  }

  /**
   * `handleSelectAll`: walk the list and enable each model of a configured
   * provider that the snapshot `enabled` does not contain.
   */
  method SelectAll(v: Variant, s: Settings, models: seq<ListedModel>, enabled: seq<string>) returns (r: seq<string>)
    ensures forall x :: x in r <==> x in enabled || OfferedBy(v, s, models, x)
    ensures NoDups(enabled) ==> NoDups(r) && |enabled| <= |r| && r[..|enabled|] == enabled
  {
    var ok := Configured(v, s);
    r := enabled;
    var k := 0;
    while k < |models|
      invariant k <= |models|
      invariant forall x :: x in r <==> x in enabled || OfferedIn(ok, models[..k], x)
      invariant NoDups(enabled) ==> NoDups(r) && |enabled| <= |r| && r[..|enabled|] == enabled
    {
      var m := models[k];
      forall x ensures OfferedIn(ok, models[..k + 1], x) <==> OfferedIn(ok, models[..k], x) || (x == m.model && m.provider in ok) {
        OfferedInExtend(ok, models, k, x);
      }
      if m.provider in ok && m.model !in enabled {
        if NoDups(r) && m.model !in r {
          EnableAppends(r, m.model);
        } else if NoDups(r) {
          ToggleIdle(r, m.model, true);
        }
        r := Toggle(r, m.model, true);
      }
      k := k + 1;
    }
    assert models[..k] == models;
  }

  /**
   * `handleUnselectAll`: disable every listed model the snapshot `enabled`
   * contains; ids enabled but not listed stay.
   */
  method UnselectAll(models: seq<ListedModel>, enabled: seq<string>) returns (r: seq<string>)
    ensures forall x :: x in r <==> x in enabled && !Listed(models, x)
    ensures NoDups(enabled) ==> NoDups(r)
  {
    r := enabled;
    var k := 0;
    while k < |models|
      invariant k <= |models|
      invariant forall x :: x in r <==> x in enabled && !Listed(models[..k], x)
      invariant NoDups(enabled) ==> NoDups(r)
    {
      var m := models[k];
      forall x ensures Listed(models[..k + 1], x) <==> Listed(models[..k], x) || x == m.model {
        ListedExtend(models, k, x);
      }
      if m.model in enabled {
        r := Toggle(r, m.model, false);
      }
      k := k + 1;
    }
    assert models[..k] == models;
  }

  function DefaultOf(s: Settings, kind: ModelKind): string {
    match kind
    case ChatKind => s.defaultChatModel
    case EmbeddingKind => s.defaultEmbeddingModel
  }

  function WithLists(s: Settings, kind: ModelKind, xs: seq<string>, default: string): Settings {
    match kind
    case ChatKind => s.(enabledChatModels := xs, defaultChatModel := default)
    case EmbeddingKind => s.(enabledEmbeddingModels := xs, defaultEmbeddingModel := default)
  }

  /** Unselect-all followed by clearing `default_{kind}_model`. */
  method UnselectAllSettings(s: Settings, kind: ModelKind, models: seq<ListedModel>) returns (r: Settings)
    ensures DefaultOf(r, kind) == ""
    ensures forall x :: x in EnabledList(r, kind) <==> x in EnabledList(s, kind) && !Listed(models, x)
    ensures exists xs :: r == WithLists(s, kind, xs, "")
  {
    var xs := UnselectAll(models, EnabledList(s, kind));
    r := WithLists(s, kind, xs, "");
  }

  /**
   * Flipping one model's switch: refused (`None`) when its provider is not
   * configured; switching off the selected default also clears the default.
   */
  function ToggleModel(v: Variant, s: Settings, kind: ModelKind, selectedDefault: string, m: ListedModel, checked: bool): (r: Option<Settings>)
    ensures r.None? <==> !IsProviderConfigured(v, s, m.provider)
    ensures r.Some? ==> EnabledList(r.value, kind) == Toggle(EnabledList(s, kind), m.model, checked)
    ensures r.Some? ==> DefaultOf(r.value, kind) == (if !checked && selectedDefault == m.model then "" else DefaultOf(s, kind))
    ensures r.Some? ==> exists xs, d :: r.value == WithLists(s, kind, xs, d)
  {
    if !IsProviderConfigured(v, s, m.provider) then None
    else
      var xs := Toggle(EnabledList(s, kind), m.model, checked);
      var d := if !checked && selectedDefault == m.model then "" else DefaultOf(s, kind);
      Some(WithLists(s, kind, xs, d))
  }

  /** The default-model choices: the listed models that are enabled, in list order. */
  function DefaultChoices(models: seq<ListedModel>, enabled: seq<string>): (r: seq<ListedModel>)
    ensures forall m :: m in r <==> m in models && m.model in enabled
    ensures |r| <= |models|
  {
    if |models| == 0 then []
    else
      var rest := DefaultChoices(models[1..], enabled);
      assert forall m :: m in models <==> m == models[0] || m in models[1..];
      if models[0].model in enabled then [models[0]] + rest else rest
  }

  /** The choices of a list in two parts are the choices of each part, in the same order. */
  lemma {:induction false} DefaultChoicesAppend(a: seq<ListedModel>, b: seq<ListedModel>, enabled: seq<string>)
    ensures DefaultChoices(a + b, enabled) == DefaultChoices(a, enabled) + DefaultChoices(b, enabled)
    decreases |a|
  {
    if |a| > 0 {
      assert (a + b)[0] == a[0];
      assert (a + b)[1..] == a[1..] + b;
      DefaultChoicesAppend(a[1..], b, enabled);
    } else {
      assert a + b == b;
    }
  }
}

=== FILE: reasoning.dfy ===
/** The reasoning-effort picker shown next to a reasoning model. */
module ReasoningEffort {
  import opened Wrappers
  import opened ConfigTypes

  datatype EffortOption = EffortOption(value: string, name: string, description: string)

  const OpenAIEfforts: seq<EffortOption> := [
    EffortOption("low", "Low", "Minimal reasoning, faster responses"),
    EffortOption("medium", "Medium", "Balanced reasoning and speed"),
    EffortOption("high", "High", "Thorough reasoning, slower responses")
  ]

  const AnthropicEfforts: seq<EffortOption> := [
    EffortOption("disabled", "Disabled", "No explicit reasoning"),
    EffortOption("low", "Low", "Minimal reasoning (~8K tokens)"),
    EffortOption("medium", "Medium", "Balanced reasoning (~16K tokens)"),
    EffortOption("high", "High", "Thorough reasoning (~32K tokens)")
  ]

  /** The provider's option table; providers without one get the OpenAI table. */
  function OptionsFor(p: Provider): (r: seq<EffortOption>)
    ensures |r| > 0
    ensures p == Anthropic ==> r == AnthropicEfforts
    ensures p != Anthropic ==> r == OpenAIEfforts
  {
    if p == Anthropic then AnthropicEfforts else OpenAIEfforts
  }

  function Values(opts: seq<EffortOption>): (r: seq<string>)
    ensures |r| == |opts| && forall i :: 0 <= i < |opts| ==> r[i] == opts[i].value
  {
    seq(|opts|, i requires 0 <= i < |opts| => opts[i].value)
  }

  /** The first option whose value is the stored effort, if any. */
  function FindOption(opts: seq<EffortOption>, stored: Option<string>): (r: Option<EffortOption>)
    ensures r.None? <==> stored.None? || forall i :: 0 <= i < |opts| ==> opts[i].value != stored.value
    ensures r.Some? ==> r.value in opts && r.value.value == stored.value
  {
    if stored.None? || |opts| == 0 then None
    else if opts[0].value == stored.value then Some(opts[0])
    else FindOption(opts[1..], stored)
  }

  /** What the picker shows: its options and the highlighted one. */
  datatype Picker = Picker(options: seq<EffortOption>, selected: EffortOption)

  /**
   * Nothing for a non-reasoning model; otherwise the provider's options,
   * with the stored effort highlighted when it is one of them and the first
   * option otherwise.
   */
  function ShowPicker(isReasoning: bool, p: Provider, stored: Option<string>): (r: Option<Picker>)
    ensures r.None? <==> !isReasoning
    ensures r.Some? ==> r.value.options == OptionsFor(p) && r.value.selected in r.value.options
    ensures r.Some? && stored.Some? && stored.value in Values(OptionsFor(p)) ==> r.value.selected.value == stored.value
    ensures r.Some? && (stored.None? || stored.value !in Values(OptionsFor(p))) ==> r.value.selected == OptionsFor(p)[0]
  {
    if !isReasoning then None
    else
      var opts := OptionsFor(p);
      Some(Picker(opts, FindOption(opts, stored).GetOr(opts[0])))
  }

  /** Every reasoning model in the base catalog lists exactly the efforts the picker offers for its provider. */
  lemma CatalogEffortsMatchPicker()
    ensures forall i :: 0 <= i < |BaseChatModels| && BaseChatModels[i].isReasoning ==>
      BaseChatModels[i].reasoningArgs == Some(Values(OptionsFor(BaseChatModels[i].provider)))
  {
    assert Values(OpenAIEfforts) == ["low", "medium", "high"];
    assert Values(AnthropicEfforts) == ["disabled", "low", "medium", "high"];
  }
}

=== FILE: strings.dfy ===
/**
 * The JavaScript string primitives the client relies on: `trim`, `split`
 * on a one-character separator, and `includes`.
 */
module Strs {

  /**
   * Characters removed by `String.prototype.trim`: the white space of
   * ECMAScript (tab, vertical tab, form feed, the byte-order mark and every
   * space separator of Unicode category Zs) and the four line terminators.
   */
  predicate IsSpace(c: char) {
    || c == '\t' || c == '\U{000B}' || c == '\U{000C}' || c == '\U{FEFF}'
    || c == ' ' || c == '\U{00A0}' || c == '\U{1680}' || ('\U{2000}' <= c <= '\U{200A}')
    || c == '\U{202F}' || c == '\U{205F}' || c == '\U{3000}'
    || c == '\n' || c == '\r' || c == '\U{2028}' || c == '\U{2029}'
  }

  predicate AllSpace(s: string) {
    forall i :: 0 <= i < |s| ==> IsSpace(s[i])
  }

  /** Number of white-space characters at the start of `s`. */
  function LeadingSpaces(s: string): (n: nat)
    ensures n <= |s|
    ensures forall i :: 0 <= i < n ==> IsSpace(s[i])
    ensures n == |s| || !IsSpace(s[n])
  {
    if |s| > 0 && IsSpace(s[0]) then
      var n := 1 + LeadingSpaces(s[1..]);
      assert forall i :: 1 <= i < n ==> s[i] == s[1..][i - 1];
      n
    else 0
  }

  /** Number of white-space characters at the end of `s`. */
  function TrailingSpaces(s: string): (n: nat)
    ensures n <= |s|
    ensures forall i :: |s| - n <= i < |s| ==> IsSpace(s[i])
    ensures n == |s| || !IsSpace(s[|s| - n - 1])
  {
    if |s| > 0 && IsSpace(s[|s| - 1]) then
      var n := 1 + TrailingSpaces(s[..|s| - 1]);
      assert forall i :: |s| - n <= i < |s| - 1 ==> s[i] == s[..|s| - 1][i];
      n
    else 0
  }

  /** `s.trim()`: `s` with white space removed at both ends. */
  function Trim(s: string): (r: string)
    ensures r == [] <==> AllSpace(s)
    ensures r == [] || (!IsSpace(r[0]) && !IsSpace(r[|r| - 1]))
    ensures LeadingSpaces(s) + |r| <= |s|
    ensures r == s[LeadingSpaces(s)..LeadingSpaces(s) + |r|]
    ensures AllSpace(s[LeadingSpaces(s) + |r|..])
  {
    var a := LeadingSpaces(s);
    if a == |s| then []
    else
      var b := TrailingSpaces(s);
      assert !IsSpace(s[a]);
      assert b < |s| - a;
      s[a..|s| - b]
  }

  /** The source's blank test `!s || s.trim() === ''`. */
  predicate Blank(s: string) {
    Trim(s) == []
  }

  /** Trimming twice changes nothing more than trimming once. */
  lemma TrimIdempotent(s: string)
    ensures Trim(Trim(s)) == Trim(s)
  {
    var r := Trim(s);
    if r != [] {
      assert LeadingSpaces(r) == 0;
      assert TrailingSpaces(r) == 0;
    }
  }

  /** Position of the first `c` in `s`. */
  function IndexOf<T(==)>(s: seq<T>, c: T): (k: nat)
    requires c in s
    ensures k < |s| && s[k] == c && c !in s[..k]
  {
    if s[0] == c then 0 else IndexOf(s[1..], c) + 1
  }

  /** A position holding `c` with no `c` before it is the first position of `c`. */
  lemma IndexOfUnique<T>(s: seq<T>, c: T, k: nat)
    requires k < |s| && s[k] == c && c !in s[..k]
    ensures IndexOf(s, c) == k
  {
  }

  /** Dropping the last element keeps the first position of anything found before it. */
  lemma IndexOfInit<T>(s: seq<T>, c: T)
    requires |s| > 0 && c in s[..|s| - 1]
    ensures IndexOf(s, c) == IndexOf(s[..|s| - 1], c)
  {
    var k := IndexOf(s[..|s| - 1], c);
    assert s[..k] == s[..|s| - 1][..k];
    IndexOfUnique(s, c, k);
  }

  /** Pieces glued back together with `sep` between consecutive pieces. */
  function Join(parts: seq<string>, sep: char): string
    requires |parts| >= 1
  {
    if |parts| == 1 then parts[0] else parts[0] + [sep] + Join(parts[1..], sep)
  }

  /** `s.split(sep)`: the pieces between separators, empty pieces included. */
  function Split(s: string, sep: char): (parts: seq<string>)
    ensures |parts| >= 1
    ensures forall i :: 0 <= i < |parts| ==> sep !in parts[i]
    decreases |s|
  {
    if sep !in s then [s]
    else
      var k := IndexOf(s, sep);
      [s[..k]] + Split(s[k + 1..], sep)
  }

  /** Joining the pieces with the separator gives back the string. */
  lemma {:induction false} JoinSplit(s: string, sep: char)
    ensures Join(Split(s, sep), sep) == s
    decreases |s|
  {
    if sep in s {
      var k := IndexOf(s, sep);
      var rest := Split(s[k + 1..], sep);
      var parts := [s[..k]] + rest;
      assert Split(s, sep) == parts;
      assert parts[1..] == rest;
      JoinSplit(s[k + 1..], sep);
      assert s == s[..k] + [sep] + s[k + 1..];
    }
  }

  /** Split is the only separator-free decomposition of `s`: it inverts Join. */
  lemma {:induction false} SplitJoin(parts: seq<string>, sep: char)
    requires |parts| >= 1
    requires forall i :: 0 <= i < |parts| ==> sep !in parts[i]
    ensures Split(Join(parts, sep), sep) == parts
    decreases |parts|
  {
    var s := Join(parts, sep);
    if |parts| == 1 {
    } else {
      var tail := Join(parts[1..], sep);
      assert s == parts[0] + [sep] + tail;
      assert s[|parts[0]|] == sep;
      assert sep in s;
      assert s[..|parts[0]|] == parts[0];
      assert IndexOf(s, sep) == |parts[0]|;
      assert s[|parts[0]| + 1..] == tail;
      SplitJoin(parts[1..], sep);
    }
  }

  /** The last piece of `s.split(sep)`, as `.pop()` returns it. */
  function LastPiece(s: string, sep: char): (r: string)
    ensures sep !in r
  {
    var parts := Split(s, sep);
    parts[|parts| - 1]
  }

  /** The last piece is the suffix of `s` after its last separator (all of `s` when it has none). */
  lemma {:induction false} LastPieceIsSuffix(s: string, sep: char)
    ensures |LastPiece(s, sep)| <= |s|
    ensures LastPiece(s, sep) == s[|s| - |LastPiece(s, sep)|..]
    ensures |LastPiece(s, sep)| < |s| ==> s[|s| - |LastPiece(s, sep)| - 1] == sep
    decreases |s|
  {
    if sep in s {
      var k := IndexOf(s, sep);
      var tail := s[k + 1..];
      var rest := Split(tail, sep);
      assert Split(s, sep) == [s[..k]] + rest;
      assert LastPiece(s, sep) == LastPiece(tail, sep);
      LastPieceIsSuffix(tail, sep);
      var r := LastPiece(tail, sep);
      assert tail[|tail| - |r|..] == s[|s| - |r|..];
      assert |r| < |tail| ==> tail[|tail| - |r| - 1] == s[|s| - |r| - 1];
      assert |r| == |tail| ==> s[|s| - |r| - 1] == s[k];
    }
  }

  predicate StartsWith(s: string, prefix: string) {
    |prefix| <= |s| && s[..|prefix|] == prefix
  }

  /** `s.includes(sub)`. */
  predicate Contains(s: string, sub: string)
    decreases |s|
  {
    StartsWith(s, sub) || (|s| > 0 && Contains(s[1..], sub))
  }

  predicate OccursAt(s: string, sub: string, i: nat) {
    i + |sub| <= |s| && s[i..i + |sub|] == sub
  }

  /** `Contains` means `sub` occurs at some position of `s`. */
  lemma {:induction false} ContainsAt(s: string, sub: string)
    ensures Contains(s, sub) <==> exists i: nat :: OccursAt(s, sub, i)
    decreases |s|
  {
    if StartsWith(s, sub) {
      assert OccursAt(s, sub, 0);
    } else if |s| > 0 {
      ContainsAt(s[1..], sub);
      if Contains(s[1..], sub) {
        var i: nat :| OccursAt(s[1..], sub, i);
        assert s[i + 1..i + 1 + |sub|] == s[1..][i..i + |sub|];
        assert OccursAt(s, sub, i + 1);
      }
      if exists i: nat :: OccursAt(s, sub, i) {
        var i: nat :| OccursAt(s, sub, i);
        assert i != 0;
        assert s[1..][i - 1..i - 1 + |sub|] == s[i..i + |sub|];
        assert OccursAt(s[1..], sub, i - 1);
      }
    }
  }
}

=== FILE: wrappers.dfy ===
/** Failure-carrying wrappers for the source's `undefined` values and thrown errors. */
module Wrappers {

  /** A value that may be absent (`undefined` / `null` in the source). */
  datatype Option<+T> = None | Some(value: T) {

    /** The wrapped value, or `default` when absent (the source's `??`). */
    function GetOr(default: T): T {
      match this
      case Some(v) => v
      case None => default
    }
  }

  /** The outcome of an operation that may throw; `Err` carries the error message. */
  datatype Result<+T> = Ok(value: T) | Err(msg: string) {

    predicate IsFailure() {
      Err?
    }

    function PropagateFailure<U>(): Result<U>
      requires Err?
    {
      Err(msg)
    }

    function Extract(): T
      requires Ok?
    {
      value
    }
  }

  /** JavaScript `a || b` on an optional string: `a` unless it is missing or empty. */
  function OrElse(a: Option<string>, b: string): string {
    if a.Some? && a.value != "" then a.value else b
  }
}
